=== FILE: README.md ===
# uni-swap decision logic in Dafny

A model of the deterministic core of the uni-swap trading bot. The bot is a
TypeScript program that watches a Uniswap V2 price and swaps a fixed amount of
one ERC-20 token for another whenever the quoted price drops below a limit.
The model covers:

- **Trade selection** (`Trades`):
  - enumerating candidate pools from the routing bases;
  - de-duplicating the fetched pools;
  - comparing two trades;
  - searching over hop counts 1..3;
  - flagging unsupported tokens.
- **Pool lookup** (`Pairs`, `PairV2`): classifying each requested pair as NOT_EXISTS, INVALID or EXISTS.
- **Currency wrapping** (`Utils`): ether becomes the chain's WETH token.
- **Swap preparation** (`Swap`):
  - the two router call candidates and the deadline;
  - the `isZero` test;
  - the classification of revert reasons;
  - the rule that selects a gas estimate.
- **Approvals** (`Approve`, `ApproveV2`):
  - the approval state read from an ERC-20 allowance, for the router and for a given spender;
  - the unlimited-then-exact approval request;
  - the 10% gas margin.
- **One bot turn** (`AutoSwap`): start-up token resolution, and one scheduled turn as a trace of requests that ends in an outcome.
- **Adding liquidity** (`AddLiquidity`): the ether-first argument swap, the rebalancing of the desired amounts, and the router call.
- **Token lists** (`TokenList`): the per-chain token tables and `getToken`.
- **Configuration** (`Config`): the required settings and the merge over defaults.
- **Start-up** (`Startup`): the schedule interval and the cron rule.

Every chain, SDK or ethers call is an input, not modelled code. That covers reserve and allowance reads, gas estimates, dry runs, submissions, `Trade.bestTradeExactIn/Out`, `Router.swapCallParameters`, `sortsBefore`, `parseUnits` and the clock. Each is a function-typed parameter of the operation that makes the call.

An operation that talks to the chain returns two things:

- the sequence of requests it made, as a datatype of steps;
- its outcome, as a `Result`. A `Failure` stands for an exception the source lets escape. Only exceptions that the parameters can produce are represented; the ones they cannot are listed under "## Left out".

Prices are exact rationals (`real`). Token amounts are unbounded naturals, as the SDK's `JSBI` values are.

Behaviour of the code worth knowing:

- **Estimate selection.** A success followed by a failure is never selected, so `[ok, fail]` throws the second call's error.
- **Swap gas limit.** The swap is submitted with the raw gas estimate, not the estimate plus 10%.
- **Ether check.** It compares the ether balance with the gas estimate read as wei, with no gas price.
- **Approval order.** The approval is requested before the input-balance check, so an underfunded turn can still send an approval.
- **Failed fallback estimate.** When the exact-amount fallback of an approval fails to estimate, the error propagates.
- **No route.** A turn with no route throws, because `getSwapInfo` runs on a null trade.

Files: `wrappers.dfy` (Option/Result), `sdk.dfy` (SDK entities and oracles), `seqs.dfy`, `js_object.dfy` (insertion-ordered JavaScript objects), then one file per source module.

## Model

| member | source | states |
|---|---|---|
| Utils.WrappedCurrency | src/uniswap-v2/Utils.ts:4-6 | Ether with a chain becomes that chain's WETH; a token stays itself; the result is undefined exactly when the currency is missing, or is ether without a chain |
| Utils.WrapIdempotent | src/uniswap-v2/Utils.ts:5 | wrapping an already wrapped currency returns the same token |
| Utils.WrappedCurrencyAmount | src/uniswap-v2/Utils.ts:8-14 | undefined iff the amount or the chain is missing or the currency cannot be wrapped; otherwise the same raw amount in the wrapped token |
| Utils.GetTokenAmount | src/uniswap-v2/Utils.ts:16-21 | the amount keeps the currency and is the parsed text at its decimals, with "1" when no amount is given |
| Pairs.Classify | src/Pairs.ts:42-48 | no pool gives NOT_EXISTS; a pool whose two tokens are equal gives INVALID; otherwise EXISTS carrying the pool; only EXISTS carries a pool |
| Pairs.FetchOne | src/Pairs.ts:23-39 | an unwrappable side or equal tokens gives NOT_EXISTS with no read; EXISTS iff the reserves were read and `sortsBefore` answered; token0 is the token that sorts first and reserve0 is paired with it |
| Pairs.FetchPairs | src/Pairs.ts:13-49 | one result per requested pair, in request order, each being the single-pair result |
| Pairs.FetchPairsShape | src/Pairs.ts:42-48 | no result is INVALID; EXISTS iff a pool is carried; a carried pool has two different tokens |
| PairV2.FetchOneV2 | src/uniswap-v2/Pair.ts:23-41 | no fetch for an unwrappable side or equal tokens; a failed fetch gives NOT_EXISTS; a fetched pool is EXISTS iff its two tokens differ, else INVALID |
| PairV2.FetchPairsV2 | src/uniswap-v2/Pair.ts:12-43 | one result per requested pair, in request order |
| PairV2.FetchPair | src/uniswap-v2/Pair.ts:45-47 | `fetchPair(a, b)` is the only element of `fetchPairs([[a, b]])` |
| Trades.PairWithEach | src/Trades.ts:35-37 | the token paired with every base, in base order |
| Trades.CrossMembers | src/Trades.ts:24-26 | the nested map yields exactly the pairs of a row token and a base |
| Trades.BasePairs | src/Trades.ts:23-27 | the base pairs are exactly the ordered pairs of bases with different addresses |
| Trades.BasePairsCount | src/Trades.ts:23-27 | n bases of pairwise different addresses give n·(n−1) base pairs |
| Trades.CustomBaseRule | src/Trades.ts:43-57 | a pair passes iff each token that has a custom-base list finds the other token on it; tokens without a list pass |
| Trades.RawCombinationsLayout | src/Trades.ts:29-40 | before filtering: the direct pair, then A with each base, then B with each base, then the base pairs |
| Trades.PairCombinations | src/Trades.ts:17-58 | empty when either side cannot be wrapped; otherwise exactly the raw candidates with different addresses that pass the custom-base rule; no candidate pairs a token with itself |
| Trades.ExistingPairs | src/Trades.ts:66 | the pools kept are exactly those of the EXISTS results |
| Trades.DedupStep | src/Trades.ts:68-71 | the first pool stored for an address wins: a seen address leaves the object unchanged, a new one is appended with this pool |
| Trades.DedupFoldIsKeepFirst | src/Trades.ts:63-72 | folding the pools into the address-keyed object and reading `Object.values` equals keeping the first pool of each address, in order |
| Trades.AllCommonPairs | src/Trades.ts:14-73 | the result is the first-occurrence filter of the existing candidate pools |
| Trades.AllCommonPairsSpec | src/Trades.ts:60-72 | every returned pool is an existing candidate; no two returned pools share an address; every existing address is represented; each pool is the first with its address |
| Trades.CommonPairsAreProper | src/Trades.ts:42-66 | no returned pool has two equal tokens |
| Trades.IsTradeBetter | src/Trades.ts:167-189 | as written. (A, none) gives false; (none, B) gives true; (none, none) gives undefined. Throws iff the trade types or input currencies differ. Otherwise the result is priceA < priceB with a zero delta, and priceA·(1+delta) < priceB otherwise |
| Trades.IsTradeBetterIntended | src/Trades.ts:176-182 | as above, but also throws when the two output currencies differ; when it does not throw it agrees with the comparator as written |
| Trades.OutputMismatchAccepted | src/Trades.ts:179 | two trades ending in different tokens are compared instead of being rejected |
| Trades.ComparatorsAgree | src/Trades.ts:176-182 | when the outputs are equal currencies, both comparators give the same answer |
| Trades.ZeroDeltaStrictOrder | src/Trades.ts:184-185 | with a zero delta the comparator is irreflexive, asymmetric and transitive on trades of one kind |
| Trades.ThresholdIsStricter | src/Trades.ts:184-188 | a trade that wins by a positive threshold also wins with none |
| Trades.HopSearch | src/Trades.ts:97-106 | the loop with the comparator as written: a found trade is the incumbent or one hop's candidate; a trade is found iff there was an incumbent or some hop produced one |
| Trades.HopSearchUnbeaten | src/Trades.ts:97-107 | for any threshold, the returned trade was adopted at some hop and the comparator answers false for it against every later hop's candidate |
| Trades.HopSearchSucceeds | src/Trades.ts:97-107 | when the incumbent and every candidate share one trade type and input currency, the search does not throw |
| Trades.SearchAdoptsOtherOutput | src/Trades.ts:97-106 | an ether-to-ether trade at price 5 is replaced by a later ether-to-token trade at price 7, which the corrected comparator would have rejected |
| Trades.HopSearchMaximal | src/Trades.ts:97-106 | with no threshold and a candidate at every hop, the search ends on a trade whose price is at least every candidate's and the incumbent's |
| Trades.UseTradeExactIn | src/Trades.ts:80-111 | null when the amount or the output currency is missing or there are no pools; otherwise null or the route search's result for some hop count 1..3, non-null iff some hop found a route |
| Trades.UseTradeExactOut | src/Trades.ts:116-144 | the same for an exact output amount |
| Trades.ExactInSucceeds | src/Trades.ts:88-110 | when every route found is an exact-input trade from the amount's currency, `useTradeExactIn` does not throw |
| Trades.ExactOutSucceeds | src/Trades.ts:124-143 | when every route found is an exact-output trade from the input currency, `useTradeExactOut` does not throw |
| Trades.ExactInUnbeaten | src/Trades.ts:77-108 | the trade `useTradeExactIn` returns is the route found at some hop bound k, and `isTradeBetter` at the configured threshold prefers none of the routes found at a bound above k |
| Trades.ExactOutUnbeaten | src/Trades.ts:113-142 | the same for `useTradeExactOut` |
| Trades.IsTransactionUnsupported | src/Trades.ts:146-164 | true iff the chain has an unsupported list and it holds the wrapped input or output address |
| Swap.Deadline | src/Swap.ts:29 | the whole seconds of the clock, floored, plus 60 per deadline minute |
| Swap.CallOptions | src/Swap.ts:32-50 | exactly two option sets, without then with fee-on-transfer, sharing slippage, recipient and deadline |
| Swap.GetSwapCallArguments | src/Swap.ts:24-53 | two router calls, built from the two option sets in that order |
| Swap.IsZeroExactly | src/Swap.ts:61-63 | `isZero(s)` holds iff s is "0x" followed by zero or more '0' |
| Swap.EstimateOptions | src/Swap.ts:71 | the options carry the value iff it is present, non-empty and not zero |
| Swap.GenericMessage | src/Swap.ts:102 | the generic message embeds the reason between its fixed prefix and suffix |
| Swap.ReasonMessage | src/Swap.ts:91-104 | the slippage message iff the reason is INSUFFICIENT_OUTPUT_AMOUNT or EXCESSIVE_INPUT_AMOUNT; the approval message iff TRANSFER_FROM_FAILED; otherwise the generic message naming the reason |
| Swap.GenericMessageDeterminesReason | src/Swap.ts:101-102 | two unclassified reasons with the same message are the same reason |
| Swap.EstimateCall | src/Swap.ts:66-106 | success iff the estimate succeeds, carrying it and the options; a failed estimate whose dry run returns gives the "Unexpected issue" error; a dry-run revert gives the reason's message |
| Swap.FindSelected | src/Swap.ts:111-114 | the first index that is a success followed by a success or last, or none when there is no such index |
| Swap.SelectEstimate | src/Swap.ts:111-122 | a call is selected iff some call is selectable, and it is the first such call; otherwise the last call failed and its error is thrown |
| Swap.TwoCallSelection | src/Swap.ts:110-118 | [ok, ok] selects the first; [fail, ok] selects the second; a failing second call is always thrown, even after a success |
| Swap.EstimateErrorIsNotCatchAll | src/Swap.ts:116-119 | a failed call never carries the "none of the calls threw" message |
| Swap.EstimateGasTrade | src/Swap.ts:55-123 | estimates both calls (slippage 5/1000 by default) and applies the selection rule; the selected estimate succeeded; the catch-all error is never thrown |
| Approve.CalculateGasMargin | src/Approve.ts:98-100 | the margin is floor(11000·v / 10000) |
| Approve.GasMarginBounds | src/Approve.ts:97-100 | the margin is at least the estimate and at most a tenth more |
| Approve.IsTransactionRecent | src/Approve.ts:40-42 | recent iff added less than 86 400 000 ms before now |
| Approve.RecentForOneDay | src/Approve.ts:36-42 | a transaction stays recent until exactly one day after it was added |
| Approve.HasPendingApproval | src/Approve.ts:45-62 | always false, as the list of transactions it searches is empty |
| Approve.StateFromAllowance | src/Approve.ts:81-91 | never PENDING; NOT_APPROVED iff the spender is given and the allowance was read and is below the amount; APPROVED iff it was read and is at least the amount |
| Approve.GetApproveState | src/Approve.ts:64-95 | ether is APPROVED with no read; for a token the allowance is read for the wallet and the router; the state follows the allowance as above |
| Approve.SpenderIgnored | src/Approve.ts:67 | the state does not depend on which non-empty spender is passed |
| Approve.Submit | src/Approve.ts:117-126 | submits with the margin on the estimate; a rejected submission resolves to null after that single step, with no wait; a sent transaction is waited for, and resolves to the transaction when mined and to a wait error otherwise |
| Approve.SendApproval | src/Approve.ts:110-126 | estimates MaxUint256 first and falls back to the exact amount; the approval submitted is for the amount whose estimate succeeded; the error propagates iff both estimates fail; after a successful estimate the trace and result are exactly those of `Submit` for that amount and estimate, so a rejected submission resolves to null and only a sent one is waited for |
| Approve.WaitFollowsResponse | src/Approve.ts:117-126 | every wait step directly follows a submission whose response was the transaction being waited for |
| Approve.SubmissionBounds | src/Approve.ts:111-120 | every submitted approval is for MaxUint256 or the exact amount, one whose estimate succeeded, with the margin on that estimate as gas limit, never below it |
| Approve.ApproveToken | src/Approve.ts:102-129 | no request beyond the state read unless the state is NOT_APPROVED; otherwise the sending steps |
| Approve.EtherNeedsNothing | src/Approve.ts:74-106 | an ether amount makes no request and needs no approval |
| Approve.SubmitOnlyWhenShort | src/Approve.ts:104-118 | an approval is submitted only for a token whose allowance for the router was read and is below the amount |
| ApproveV2.GetApproveStateV2 | src/uniswap-v2/Approve.ts:13-43 | a missing amount or spender gives UNKNOWN, checked before the ether rule; the allowance is read for the given spender; NOT_APPROVED / APPROVED follow the allowance; never PENDING |
| ApproveV2.AgreesForRouter | src/uniswap-v2/Approve.ts:13-39 | for a token and the router as spender, both versions make the same read and give the same state |
| ApproveV2.EtherWithoutSpenderDiffers | src/uniswap-v2/Approve.ts:29-30 | for ether with an empty spender, the router version says APPROVED and this one says UNKNOWN |
| ApproveV2.ApproveTokenV2 | src/uniswap-v2/Approve.ts:50-77 | no request beyond the state read unless NOT_APPROVED; otherwise MaxUint256 first, then the exact amount |
| ApproveV2.SubmitsForTheSpender | src/uniswap-v2/Approve.ts:52-68 | an approval is submitted only for a token, for the given spender, whose allowance for that spender is below the amount |
| ApproveV2.SentToSpender | src/uniswap-v2/Approve.ts:59-68 | every submitted approval names the spender passed in |
| AutoSwap.Init | src/AutoSwap.ts:30-41 | both tokens are looked up before either is checked; an unresolved from-token is reported first, then the to-token; otherwise the bot holds both tokens |
| AutoSwap.TurnAmount | src/AutoSwap.ts:43-46 | the turn's amount is in the from-token |
| AutoSwap.UnitsOrder | src/AutoSwap.ts:109 | comparing two amounts in units at the same decimals is comparing their raw values |
| AutoSwap.SubmitAndWait | src/AutoSwap.ts:133-151 | the swap is sent with the raw estimate as gas limit, the call's options and the wallet as sender; it succeeds iff it was sent and mined, ending with the wait |
| AutoSwap.EstimateAndSwap | src/AutoSwap.ts:116-151 | a failed estimation, or a selection that ends on a failed call, throws after the estimates; an ether balance below the estimate stops before submitting; otherwise the selected call is submitted and waited for, exactly as `SubmitAndWait` does, after the estimates |
| AutoSwap.ApproveAndSwap | src/AutoSwap.ts:96-151 | reads the three balances, then approves for the router; a short input balance stops after the approval; otherwise estimation and swap follow |
| Sdk.ScaledInverse | src/AutoSwap.ts:61 | the shown price p satisfies p · executionPrice · 10^(input decimals) = 10^(output decimals): the inverted price in whole units |
| Sdk.SameScaleInverse | src/AutoSwap.ts:61 | with equal scales the decimal adjustment cancels and the price is the plain reciprocal |
| AutoSwap.InvertedPriceEqualDecimals | src/AutoSwap.ts:61 | between tokens of equal decimals the inverted price times the raw execution price is 1 |
| AutoSwap.Tick | src/AutoSwap.ts:87-153 | quotes first; no trade throws; an untriggered price stops after the quote; a triggered one goes on to approval and swap |
| AutoSwap.UntriggeredTurnIsQuiet | src/AutoSwap.ts:95-152 | a turn below the trigger makes no balance read, approval, estimate or submission |
| AutoSwap.ShortInputTrace | src/AutoSwap.ts:96-114 | when the input balance is short, everything after the three balance reads is an approval request |
| AutoSwap.ApprovalPrecedesInputCheck | src/AutoSwap.ts:107-114 | a turn stopped for lack of input has made only approval requests after the balance reads |
| AutoSwap.SwappedTurn | src/AutoSwap.ts:87-151 | a completed swap had a trade, a triggered price, enough input, a selected estimate and enough ether, and ended by waiting for its transaction |
| AutoSwap.TurnSwaps | src/AutoSwap.ts:87-151 | conversely, a turn swaps, with the mined transaction, whenever the quote triggers, the approval does not throw, the input suffices, an estimate is selected, the ether suffices and the submission is mined |
| AutoSwap.InputCheckIsRaw | src/AutoSwap.ts:109 | the input check is raw amount > raw balance |
| AutoSwap.EtherCheckIsRaw | src/AutoSwap.ts:126 | the ether check is wei balance < gas units |
| AddLiquidity.QuoteThrough | src/uniswap-v2/AddLiquidity.ts:21-27 | the quote is undefined iff the token is not in the pool or its reserve is 0; otherwise the other token's amount, floor(amount·otherReserve / ownReserve) |
| AddLiquidity.ComputeDependents | src/uniswap-v2/AddLiquidity.ts:20-27 | both quotes and both parsed amounts exist iff every step succeeds; each quote is the other desired amount quoted through the pool |
| AddLiquidity.RulesAgreeOnEqualDecimals | src/uniswap-v2/AddLiquidity.ts:29-33 | with equal decimals the comparison as written and the corrected one agree |
| AddLiquidity.PoolDependents | src/uniswap-v2/AddLiquidity.ts:18-27 | the quotes exist only for an EXISTS pool with both currencies wrapped, and are then the quotes of the desired amounts through that pool |
| AddLiquidity.RecalculateAsWritten | src/uniswap-v2/AddLiquidity.ts:11-40 | the rule as written, used by `Addliquidity`: amounts unchanged when the pool does not exist; for an existing pool it throws iff the quotes cannot be made; A's amount is replaced by its quote exactly when the rule as written holds, otherwise B's by its quote |
| AddLiquidity.AsWrittenRaisesDesired | src/uniswap-v2/AddLiquidity.ts:29-34 | a two-decimal token against a zero-decimal token makes the rule as written replace A's amount with more than was asked for |
| AddLiquidity.Recalculate | src/uniswap-v2/AddLiquidity.ts:11-40 | the corrected rule: amounts unchanged when the pool does not exist; for an existing pool it throws iff the quotes cannot be made; A's amount is replaced by its quote exactly when the corrected rule holds, otherwise B's by its quote |
| AddLiquidity.CorrectedNeverRaises | src/uniswap-v2/AddLiquidity.ts:29-37 | for the quotes of a pool, the corrected rule replaces an amount only with a quote no larger than it |
| AddLiquidity.DependentsArePoolQuotes | src/uniswap-v2/AddLiquidity.ts:20-37 | for any pool holding two different tokens A and B, in either order, the computed quotes are the pool quotes the previous lemma is about, so the corrected rule never raises a desired amount |
| AddLiquidity.EtherFirst | src/uniswap-v2/AddLiquidity.ts:50-62 | when B is ether, the currencies, desired amounts and minimums all swap sides together; afterwards ether is never second alone |
| AddLiquidity.AddOrdered | src/uniswap-v2/AddLiquidity.ts:64-84 | with ether first, a single `addLiquidityETH(tokenB, amountB, amountA)` with no approval; otherwise approve token A for Router02 with A's amount as recalculated by the rule as written, then `addLiquidity` with minimums defaulting to "1" scaled by decimals; the router is called iff both currencies wrap, the recalculation does not throw, both amounts are present, and either A is ether or the approval does not throw; with nothing to call the trace is empty, and a failed approval ends the trace with its approval steps |
| AddLiquidity.AddLiquidity | src/uniswap-v2/AddLiquidity.ts:42-85 | the reordered arguments go to the body; `addLiquidityETH` is only called when one side is ether |
| AddLiquidity.EtherSideIsSymmetric | src/uniswap-v2/AddLiquidity.ts:50-62 | naming ether second equals naming it first with every argument pair swapped |
| AddLiquidity.EtherIgnoresMinimums | src/uniswap-v2/AddLiquidity.ts:73-78 | with ether first, the minimums change nothing and no approval is requested |
| TokenList.EmptyList | src/Token.ts:10-16 | five chain keys, each an empty table |
| TokenList.Store | src/Token.ts:28-34 | the token is written at its chain and address; other chains are unchanged |
| TokenList.ListToTokenMap | src/Token.ts:18-39 | every chain is present with a well-formed table |
| TokenList.GetAfterStore | src/Token.ts:29-34 | after storing, the stored address on its chain holds the new token; every other lookup is unchanged |
| TokenList.LookupPresent | src/Token.ts:18-39 | a table holds an address iff the list has an entry for it on that chain |
| TokenList.LookupIsLast | src/Token.ts:29-34 | the token held is the one of the list's last entry for that chain and address |
| TokenList.UpperHasNoLower | src/Token.ts:47 | upper-cased text has no lower-case letter |
| TokenList.FindSymbol | src/Token.ts:48 | the first token whose symbol equals the text exactly, or none |
| TokenList.GetToken | src/Token.ts:45-61 | a non-address is upper-cased and matched against the chain's symbols; a listed address is answered from the list without a fetch; otherwise the fetch is made, and a failed fetch gives null |
| TokenList.LowerCaseSymbolUnreachable | src/Token.ts:46-50 | a token whose symbol has a lower-case letter is never found by symbol |
| TokenList.ListedAddressNeedsNoFetch | src/Token.ts:52-53 | a listed address returns the list's last entry for it and makes no fetch |
| TokenList.UnsupportedMeansListed | src/Token.ts:43 | with the unsupported list's table, a trade is flagged iff the list has an entry for the wrapped input or output on the chain |
| Config.Property | src/Config.ts:14-19 | a property of null is a TypeError; only an object has properties |
| Config.CheckRequired | src/Config.ts:14-19 | no error iff every required setting is truthy; otherwise the error names the first one, in check order, that is not |
| Config.GetConfigs | src/Config.ts:5-22 | an unreadable or unparsable file gives "Failed to load file configs"; success iff all six settings are truthy, returning the parsed file |
| Config.LoadedIsObject | src/Config.ts:14-21 | only an object passes the checks |
| Config.PrivateKeyCheckedFirst | src/Config.ts:14 | a falsy `privateKey` is reported whatever else is missing |
| Config.MissingReportsFirst | src/Config.ts:14-19 | the error is "Missing" and the first falsy setting in the fixed order; 0, "" and false count as missing |
| Config.Defaults | src/Config.ts:37-66 | the defaults form a well-formed object |
| Config.Spread | src/Config.ts:68 | a spread key takes the file's value; every other key keeps the default; in insertion order the defaults' keys stay in front |
| Config.LoadConfigs | src/Config.ts:36-69 | succeeds iff the checks pass, with the same error otherwise; the result is the file merged over the defaults |
| Config.MergeOverridesDefaults | src/Config.ts:37-69 | every setting is the file's when the file sets it and the default otherwise (e.g. deadlineMinutes 20) |
| Config.MergeKeepsTruthy | src/Config.ts:14-69 | a required setting the file makes truthy stays truthy after the merge |
| Startup.IntervalSeconds | src/Main.ts:16-17 | at least 1; for frequencies in (0, 60] it is floor(60 / frequency); any frequency above 60 (or below 0) gives 1 |
| Startup.NatToString | src/Main.ts:18 | a non-empty run of decimal digits |
| Startup.ParseNatToString | src/Main.ts:18 | reading the printed digits back gives the number |
| Startup.CronRule | src/Main.ts:18 | the rule is "*/", the interval, then " * * * * *" |
| Startup.RuleRoundTrip | src/Main.ts:18 | the seconds step read back from the rule is the interval it was built from |
| Startup.MainPlan | src/Main.ts:6-19 | `init` gets the input token, output token, amount and price settings in that order; the rule schedules floor(60 / frequency), at least 1 |
| Startup.MergedFrequency | src/Main.ts:16-18 | a truthy numeric frequency from the file always yields a plan; without one the default 15 gives a 4-second rule |

## Left out

- Chain I/O is not modelled. `src/Contract.ts`, `src/Reserves.ts`, `src/uniswap-v2/Router02.ts` and the uniswap-v1 wrappers are RPC calls. Their results are function parameters, and a call to them is one step of a trace.
- Most SDK internals are not modelled. `Trade.bestTradeExactIn/Out`, `Router.swapCallParameters`, `Fetcher`, `sortsBefore`, the pool address and `computeSlippageAdjustedAmounts` are parameters, because they are foreign code. Two SDK price operations the modelled code depends on are modelled: `Pair.priceOf(token).quote(amount)` as `AddLiquidity.QuoteThrough`, and `executionPrice.invert()` in whole units as `Sdk.InvertedPrice` / `Sdk.ScaledInverse`.
- `src/Utils.ts` is not part of this model. `wrappedCurrency` is taken to be the rule of `src/uniswap-v2/Utils.ts`, and `isAddress` is a parameter of `TokenList.GetToken`.
- The constants module is not part of this model. The routing bases, custom bases, threshold and one-hundred-percent values are fields of `Trades.RoutingTables`, and `ZERO_PERCENT` is taken as 0.
- `Units` handles the unary `+` on decimal text as exact rationals, not IEEE doubles.
- `AutoSwap.Tick` does not model the `toSignificant(6)` rounding. The model computes the inverted execution price, adjusted for the two tokens' decimals, as `Sdk.InvertedPrice`. Only the rounding to six significant digits is the parameter `shownPrice`. The slippage is the parameter `slippageOf`.
- Logging, `showSwapInfo` and `stop` are not modelled. They only print or cancel the job.
- The node-schedule job is not modelled. Only the rule string it is given is.
- `Promise.all` concurrency is sequential here. The logic only depends on the order of the results.
- The clock is the parameter `nowMs`.
- `calculateGasMargin` of `src/uniswap-v2/Approve.ts:46-48` is the same function as in `src/Approve.ts`. It is modelled once, as `Approve.CalculateGasMargin`.
- The address checksum of the SDK `Token` constructor is not modelled. List addresses are taken as already checksummed.
- Static address tables, the token-list JSON files and the deployment scripts are not modelled.
- `Config.GetConfigs`: the TypeError message for a `null` document is a fixed text. JavaScript engines word it differently.
- `TokenList.GetToken`: with no configured chain, the table lookup throws in the source. The model reports a fixed message instead.
- `TokenList.GetToken` upper-cases ASCII letters only. JavaScript's `toUpperCase` is Unicode-aware: it maps "café" to "CAFÉ" and "ß" to "SS", which the model does not.
- `Startup.IntervalSeconds` requires a non-zero frequency. The configuration check guarantees one, since the setting must be truthy.
- `Startup.IntervalSeconds` divides exact rationals, not IEEE doubles. For a frequency of 6.666666666666667, JavaScript's 60 / frequency rounds to exactly 9 and floors to 9; the exact quotient is just below 9 and floors to 8.
- `Config.Spread` and `Config.MergeOverridesDefaults` state key order as insertion order. JavaScript enumerates integer-like keys (such as "7") first, in ascending order, so for a configuration file with such a key the enumeration order differs from the model's. `JsObject` does not model that rule; the address-keyed pools never have integer-like keys.
- `Utils.GetTokenAmount` takes `parseUnits` as a total parameter. In the source, `parseUnits` throws on text that is not a decimal number and on more fraction digits than the token has decimals (for example "0.0000001" for six decimals), and the SDK rejects a negative amount. The model has no such failure: every amount text yields an amount.
- `AutoSwap.TurnAmount` uses the same total `parseUnits`, so the throw of src/AutoSwap.ts:45 on malformed amount text is not represented.
- `AutoSwap.Tick` cannot throw before the quote or during the balance reads. The amount parse (src/AutoSwap.ts:89) and the ether and token balance reads (src/AutoSwap.ts:96-98) are total parameters, while in the source each can throw. Every modelled turn therefore starts with the quote, and a turn that passes the trigger always gets its three balances.
- `AutoSwap.Init` takes the token lookup as a parameter that answers a token or nothing. An exception thrown by the lookup itself is not represented.
- `AddLiquidity.AddOrdered` parses the desired amounts and the minimums (src/uniswap-v2/AddLiquidity.ts:70-74), and the recalculation its ratio inputs (src/uniswap-v2/AddLiquidity.ts:31), with the total `parseUnits`. Its "router called iff" therefore does not cover amount text that the source rejects by throwing before the router call.
- `Swap.Deadline` takes `deadlineMinutes` as an integer. The source reads a JSON number, so a fractional setting such as 0.5 is not representable here.
- `Startup.MainPlan` yields no plan for a frequency given as text. JavaScript would coerce the text to a number, and that coercion is not modelled.
- `AddLiquidity.RecalculateAsWritten` and `AddLiquidity.Recalculate` throw (`Failure`) where the SDK would throw on a missing token or a zero reserve. The value of each quote is stated by `AddLiquidity.ComputeDependents`, `AddLiquidity.PoolDependents` and `AddLiquidity.DependentsArePoolQuotes`.

## Findings

| source | as written | input that shows it | evidently intended | confidence | as-written member | corrected member |
|---|---|---|---|---|---|---|
| src/Trades.ts:179 | the output check compares tradeB's output currency with itself, so it never fires | two trades of one type and input token, one ending in token X and one in token Y: compared, not rejected | compare tradeA's output currency with tradeB's and throw "Trades are not comparable" when they differ | not executed | Trades.IsTradeBetter (Trades.OutputMismatchAccepted, Trades.SearchAdoptsOtherOutput) | Trades.IsTradeBetterIntended (Trades.ComparatorsAgree) |
| src/uniswap-v2/AddLiquidity.ts:29-33 | the quotes, in units scaled by each token's decimals, are divided by raw parsed amounts, so the comparison mixes scales when the decimals differ | token A with 2 decimals, token B with 0, reserves 100 raw A to 1 raw B, desired 100 raw A and 2 raw B: A's amount is replaced by a quote of 200 raw A | replace the amount whose quote is the smaller share of the other desired amount, so no desired amount is ever raised | not executed | AddLiquidity.RecalculateAsWritten (AddLiquidity.AsWrittenRaisesDesired) | AddLiquidity.Recalculate (AddLiquidity.CorrectedNeverRaises, AddLiquidity.DependentsArePoolQuotes) |

=== FILE: add_liquidity.dfy ===
/** Adding liquidity to a pool (src/uniswap-v2/AddLiquidity.ts): the ether
    side is put first, the desired amounts are rebalanced against an existing
    pool, the token side is approved for the router and the router is
    called. The router's own submission (src/uniswap-v2/Router02.ts) is not
    part of this model; its call is the last request. */
module AddLiquidity {
  import opened Wrappers
  import opened Sdk
  import opened Utils
  import opened Pairs
  import opened PairV2
  import opened Approve
  import opened ApproveV2

  /** `UniswapV2ContractAddress.Router02`. */
  const ROUTER02: Address := "0x7a250d5630B4cF539739dF2C5dAcb4c659F2488D"

  /** The configured chain, the SDK, the pool fetcher, ethers' `parseUnits`,
      the SDK's `toExact` printing of a raw amount, the wallet and the token
      contracts. */
  datatype LiquidityEnv = LiquidityEnv(
    chainId: Option<ChainId>,
    sdk: SdkEnv,
    fetch: PairFetcher,
    parseUnits: (string, nat) -> nat,
    toExact: (nat, nat) -> string,
    wallet: Address,
    tokens: TokenChain)

  // ---------------------------------------------------------------------------
  // Quoting through a pool

  predicate Involves(pair: Pair, t: Token) {
    TokenEquals(t, pair.token0) || TokenEquals(t, pair.token1)
  }

  /** The reserve of `t`'s side of the pool, and of the other side. */
  function OwnReserve(pair: Pair, t: Token): nat {
    if TokenEquals(t, pair.token0) then pair.reserve0 else pair.reserve1
  }

  function OtherReserve(pair: Pair, t: Token): nat {
    if TokenEquals(t, pair.token0) then pair.reserve1 else pair.reserve0
  }

  function OtherToken(pair: Pair, t: Token): Token {
    if TokenEquals(t, pair.token0) then pair.token1 else pair.token0
  }

  /** `pair.priceOf(t).quote(amount)`: the amount of the other token at the
      pool's ratio, rounded down; it throws (None) for a token outside the
      pool and for an empty reserve on `t`'s side. */
  function QuoteThrough(pair: Pair, t: Token, raw: nat): (r: Option<CurrencyAmount>)
    ensures r.None? <==> !Involves(pair, t) || OwnReserve(pair, t) == 0
    ensures r.Some? ==> r.value.currency == Erc20(OtherToken(pair, t))
    ensures r.Some? ==>
              r.value.raw * OwnReserve(pair, t) <= raw * OtherReserve(pair, t) < (r.value.raw + 1) * OwnReserve(pair, t)
  {
    if !Involves(pair, t) || OwnReserve(pair, t) == 0 then None
    else
      var q := raw * OtherReserve(pair, t) / OwnReserve(pair, t);
      Some(CurrencyAmount(Erc20(OtherToken(pair, t)), q))
  }

  // ---------------------------------------------------------------------------
  // Rebalancing the desired amounts

  /** The quotes of each desired amount in the other token and the parsed
      desired amounts. */
  datatype Dependents = Dependents(depA: CurrencyAmount, depB: CurrencyAmount, parsedA: nat, parsedB: nat)

  /** The quotes and parsed amounts the rebalancing compares; None when any
      step throws (a missing amount, a missing chain for the wrapped amount,
      a failed quote). */
  function ComputeDependents(pair: Pair, ta: Token, tb: Token, aDesired: Option<string>, bDesired: Option<string>, env: LiquidityEnv): (r: Option<Dependents>)
    ensures r.Some? <==>
              && aDesired.Some? && bDesired.Some? && env.chainId.Some?
              && QuoteThrough(pair, ta, env.parseUnits(aDesired.value, ta.decimals)).Some?
              && QuoteThrough(pair, tb, env.parseUnits(bDesired.value, tb.decimals)).Some?
    ensures r.Some? ==>
              && r.value.parsedA == env.parseUnits(aDesired.value, ta.decimals)
              && r.value.parsedB == env.parseUnits(bDesired.value, tb.decimals)
              && r.value.depB == QuoteThrough(pair, ta, r.value.parsedA).value
              && r.value.depA == QuoteThrough(pair, tb, r.value.parsedB).value
  {
    var amountA := WrappedCurrencyAmount(Some(GetTokenAmount(Erc20(ta), aDesired, env.parseUnits)), env.chainId, env.sdk);
    var amountB := WrappedCurrencyAmount(Some(GetTokenAmount(Erc20(tb), bDesired, env.parseUnits)), env.chainId, env.sdk);
    if amountA.None? || amountB.None? || aDesired.None? || bDesired.None? then None
    else
      var depB := QuoteThrough(pair, ta, amountA.value.raw);
      var depA := QuoteThrough(pair, tb, amountB.value.raw);
      if depA.None? || depB.None? then None
      else Some(Dependents(depA.value, depB.value, env.parseUnits(aDesired.value, ta.decimals), env.parseUnits(bDesired.value, tb.decimals)))
  }

  /** The rule as written: `depA.divide(parsedA).lessThan(depB.divide(parsedB))`,
      where each dependent amount is a token amount over 10^decimals and each
      parsed amount is raw, so the decimals of the two tokens enter the
      comparison crosswise. */
  predicate ReplaceAAsWritten(d: Dependents) {
    d.depA.raw * Pow10(Decimals(d.depB.currency)) * d.parsedB < d.depB.raw * Pow10(Decimals(d.depA.currency)) * d.parsedA
  }

  /** The corrected rule: replace A when its quote is the smaller fraction of
      its desired amount, both in raw units. */
  predicate ReplaceA(d: Dependents) {
    d.depA.raw * d.parsedB < d.depB.raw * d.parsedA
  }

  /** With tokens of equal decimals the two rules agree. */
  lemma RulesAgreeOnEqualDecimals(d: Dependents)
    requires Decimals(d.depA.currency) == Decimals(d.depB.currency)
    ensures ReplaceAAsWritten(d) <==> ReplaceA(d)
  {
    var p := Pow10(Decimals(d.depA.currency));
    MulSwap(d.depA.raw, p, d.parsedB);
    MulSwap(d.depB.raw, p, d.parsedA);
    ScaleOrder(d.depA.raw * d.parsedB, d.depB.raw * d.parsedA, p);
  }

  /** The dependents of `recaculateAmountsIfPairExists` when the pool of the
      two currencies exists; None when it does not or when a step throws. */
  function PoolDependents(currencyA: Currency, currencyB: Currency, aDesired: Option<string>, bDesired: Option<string>, env: LiquidityEnv): (r: Option<Dependents>)
    ensures r.Some? ==> FetchPair(Some(currencyA), Some(currencyB), env.chainId, env.sdk, env.fetch).0 == Exists
    ensures r.Some? ==>
              var ta := WrappedCurrency(Some(currencyA), env.chainId, env.sdk);
              var tb := WrappedCurrency(Some(currencyB), env.chainId, env.sdk);
              var pair := FetchPair(Some(currencyA), Some(currencyB), env.chainId, env.sdk, env.fetch).1;
              && ta.Some? && tb.Some? && pair.Some?
              && r == ComputeDependents(pair.value, ta.value, tb.value, aDesired, bDesired, env)
  {
    var pair := FetchPair(Some(currencyA), Some(currencyB), env.chainId, env.sdk, env.fetch);
    var ta := WrappedCurrency(Some(currencyA), env.chainId, env.sdk);
    var tb := WrappedCurrency(Some(currencyB), env.chainId, env.sdk);
    if pair.0 != Exists || ta.None? || tb.None? || pair.1.None? then None
    else ComputeDependents(pair.1.value, ta.value, tb.value, aDesired, bDesired, env)
  }

  /** `recaculateAmountsIfPairExists` with a given replacement rule: amounts
      unchanged unless the pool exists; then one of them becomes the quote of
      the other, printed exactly. */
  function RecalculateBy(currencyA: Currency, currencyB: Currency, aDesired: Option<string>, bDesired: Option<string>, env: LiquidityEnv, replaceA: Dependents -> bool): (r: Result<(Option<string>, Option<string>), string>)
    ensures FetchPair(Some(currencyA), Some(currencyB), env.chainId, env.sdk, env.fetch).0 != Exists ==>
              r == Success((aDesired, bDesired))
    ensures FetchPair(Some(currencyA), Some(currencyB), env.chainId, env.sdk, env.fetch).0 == Exists ==>
              (r.Success? <==> PoolDependents(currencyA, currencyB, aDesired, bDesired, env).Some?)
    ensures r.Success? ==> r.value.0 == aDesired || r.value.1 == bDesired
  {
    var pair := FetchPair(Some(currencyA), Some(currencyB), env.chainId, env.sdk, env.fetch);
    if pair.0 != Exists then Success((aDesired, bDesired))
    else
      match PoolDependents(currencyA, currencyB, aDesired, bDesired, env)
      case None => Failure(THREW)
      case Some(d) =>
        if replaceA(d) then Success((Some(env.toExact(d.depA.raw, Decimals(d.depA.currency))), bDesired))
        else Success((aDesired, Some(env.toExact(d.depB.raw, Decimals(d.depB.currency)))))
  }

  const THREW: string := "thrown"

  /** The rebalancing as written, used by `AddLiquidity` below: with the pool
      in place, A's amount becomes B's quote exactly when the rule as written
      holds of the dependents, and B's amount becomes A's quote otherwise. */
  function RecalculateAsWritten(currencyA: Currency, currencyB: Currency, aDesired: Option<string>, bDesired: Option<string>, env: LiquidityEnv): (r: Result<(Option<string>, Option<string>), string>)
    ensures FetchPair(Some(currencyA), Some(currencyB), env.chainId, env.sdk, env.fetch).0 != Exists ==>
              r == Success((aDesired, bDesired))
    ensures FetchPair(Some(currencyA), Some(currencyB), env.chainId, env.sdk, env.fetch).0 == Exists ==>
              (r.Success? <==> PoolDependents(currencyA, currencyB, aDesired, bDesired, env).Some?)
    ensures var d := PoolDependents(currencyA, currencyB, aDesired, bDesired, env);
            d.Some? && ReplaceAAsWritten(d.value) ==>
              r == Success((Some(env.toExact(d.value.depA.raw, Decimals(d.value.depA.currency))), bDesired))
    ensures var d := PoolDependents(currencyA, currencyB, aDesired, bDesired, env);
            d.Some? && !ReplaceAAsWritten(d.value) ==>
              r == Success((aDesired, Some(env.toExact(d.value.depB.raw, Decimals(d.value.depB.currency)))))
    ensures r.Success? ==> r.value.0 == aDesired || r.value.1 == bDesired
  {
    RecalculateBy(currencyA, currencyB, aDesired, bDesired, env, ReplaceAAsWritten)
  }

  /** The rebalancing with the corrected rule: A's amount is replaced exactly
      when its quote is the smaller share of A's desired amount. */
  function Recalculate(currencyA: Currency, currencyB: Currency, aDesired: Option<string>, bDesired: Option<string>, env: LiquidityEnv): (r: Result<(Option<string>, Option<string>), string>)
    ensures FetchPair(Some(currencyA), Some(currencyB), env.chainId, env.sdk, env.fetch).0 != Exists ==>
              r == Success((aDesired, bDesired))
    ensures FetchPair(Some(currencyA), Some(currencyB), env.chainId, env.sdk, env.fetch).0 == Exists ==>
              (r.Success? <==> PoolDependents(currencyA, currencyB, aDesired, bDesired, env).Some?)
    ensures var d := PoolDependents(currencyA, currencyB, aDesired, bDesired, env);
            d.Some? && ReplaceA(d.value) ==>
              r == Success((Some(env.toExact(d.value.depA.raw, Decimals(d.value.depA.currency))), bDesired))
    ensures var d := PoolDependents(currencyA, currencyB, aDesired, bDesired, env);
            d.Some? && !ReplaceA(d.value) ==>
              r == Success((aDesired, Some(env.toExact(d.value.depB.raw, Decimals(d.value.depB.currency)))))
    ensures r.Success? ==> r.value.0 == aDesired || r.value.1 == bDesired
  {
    RecalculateBy(currencyA, currencyB, aDesired, bDesired, env, ReplaceA)
  }

  /** The quotes of a pool with positive reserves rA (token A) and rB. */
  predicate PoolQuotes(d: Dependents, rA: nat, rB: nat) {
    && rA > 0 && rB > 0
    && d.depA.raw == d.parsedB * rA / rB
    && d.depB.raw == d.parsedA * rB / rA
  }

  /** The corrected rule never raises a desired amount: the side it replaces
      gets a quote no larger than what was asked for. */
  lemma CorrectedNeverRaises(d: Dependents, rA: nat, rB: nat)
    requires PoolQuotes(d, rA, rB)
    ensures ReplaceA(d) ==> d.depA.raw <= d.parsedA
    ensures !ReplaceA(d) ==> d.depB.raw <= d.parsedB
  {
    var x, y, pA, pB := d.depA.raw, d.depB.raw, d.parsedA, d.parsedB;
    FloorDivBound(pB * rA, rB);
    FloorDivBound(pA * rB, rA);
    NotBothAbove(x, y, pA, pB, rA, rB);
    if ReplaceA(d) && x > pA {
      ReplacedAWithinDesired(x, y, pA, pB, rB, rA);
    }
    if !ReplaceA(d) && y > pB {
      ReplacedAWithinDesired(y, x, pB, pA, rA, rB);
    }
  }

  /** For a pool holding both tokens, in either order, the dependents
      computed are that pool's quotes, so the corrected rule never raises an
      amount. */
  lemma DependentsArePoolQuotes(pair: Pair, ta: Token, tb: Token, aDesired: Option<string>, bDesired: Option<string>, env: LiquidityEnv)
    requires !TokenEquals(ta, tb)
    requires ComputeDependents(pair, ta, tb, aDesired, bDesired, env).Some?
    ensures var d := ComputeDependents(pair, ta, tb, aDesired, bDesired, env).value;
            && PoolQuotes(d, OwnReserve(pair, ta), OwnReserve(pair, tb))
            && (ReplaceA(d) ==> d.depA.raw <= d.parsedA)
            && (!ReplaceA(d) ==> d.depB.raw <= d.parsedB)
  {
    var d := ComputeDependents(pair, ta, tb, aDesired, bDesired, env).value;
    assert OtherReserve(pair, ta) == OwnReserve(pair, tb);
    assert OtherReserve(pair, tb) == OwnReserve(pair, ta);
    CorrectedNeverRaises(d, OwnReserve(pair, ta), OwnReserve(pair, tb));
  }

  /** One side of the argument: if x·pB < y·pA with x above pA, then y is
      above pB (or x·rB ≤ pB·rA is violated). */
  lemma ReplacedAWithinDesired(x: nat, y: nat, pA: nat, pB: nat, rB: nat, rA: nat)
    requires rB > 0 && x * rB <= pB * rA
    requires x > pA && (x * pB < y * pA || (x * pB <= y * pA && pB > 0))
    ensures y > pB
  {
    if pB == 0 {
      assert x * rB == 0;
      MulPositive(x, rB);
    } else {
      ScaleOrder(pA, x, pB);
      assert pA * pB < y * pA;
      assert pA > 0;
      assert pB * pA < y * pA;
      ScaleOrder(pB, y, pA);
    }
  }

  /** The quotes cannot both exceed the desired amounts: their product is
      bounded by the desired amounts' product. */
  lemma NotBothAbove(x: nat, y: nat, pA: nat, pB: nat, rA: nat, rB: nat)
    requires rA > 0 && rB > 0
    requires x * rB <= pB * rA && y * rA <= pA * rB
    ensures !(x > pA && y > pB)
  {
    if x > pA && y > pB {
      ProductOrder(x, y, pA, pB);
      MulMono(x * rB, pB * rA, y * rA, pA * rB);
      assert (x * rB) * (y * rA) == (x * y) * (rA * rB);
      assert (pB * rA) * (pA * rB) == (pA * pB) * (rA * rB);
      MulPositive(rA, rB);
      ScaleOrder(pA * pB, x * y, rA * rB);
    }
  }

  lemma FloorDivBound(n: nat, m: nat)
    requires m > 0
    ensures (n / m) * m <= n
  {
  }

  lemma MulPositive(a: nat, b: nat)
    ensures a > 0 && b > 0 <==> a * b > 0
  {
    if a > 0 && b > 0 {
      MulMono(1, a, 1, b);
    }
  }

  /** Moving the last factor of a product into second place. */
  lemma MulSwap(a: nat, b: nat, c: nat)
    ensures a * b * c == (a * c) * b
  {
  }

  lemma ScaleOrder(u: nat, v: nat, p: nat)
    requires p > 0
    ensures u * p < v * p <==> u < v
  {
    if u < v {
      assert v * p == u * p + (v - u) * p;
      MulPositive(v - u, p);
    } else {
      assert u * p == v * p + (u - v) * p;
    }
  }

  lemma ProductOrder(x: nat, y: nat, a: nat, b: nat)
    requires x > a && y > b
    ensures x * y > a * b
  {
    MulMono(a + 1, x, b + 1, y);
    assert (a + 1) * (b + 1) == a * b + a + b + 1;
  }

  lemma MulMono(a: nat, b: nat, c: nat, e: nat)
    requires a <= b && c <= e
    ensures a * c <= b * e
  {
    assert b * c == a * c + (b - a) * c;
    assert b * e == b * c + b * (e - c);
  }

  /** The rule as written replaces the amount of A with more than was asked
      for: a two-decimal token A against a zero-decimal token B, a pool of
      100 raw A per 1 raw B, desired 100 raw A and 2 raw B. */
  lemma AsWrittenRaisesDesired()
    ensures var tA := Token(Mainnet, "0x0a", 2, "A");
            var tB := Token(Mainnet, "0x0b", 0, "B");
            var d := Dependents(CurrencyAmount(Erc20(tA), 200), CurrencyAmount(Erc20(tB), 1), 100, 2);
            && PoolQuotes(d, 100, 1)
            && ReplaceAAsWritten(d)
            && d.depA.raw > d.parsedA
            && !ReplaceA(d)
  {
    var tA := Token(Mainnet, "0x0a", 2, "A");
    var tB := Token(Mainnet, "0x0b", 0, "B");
    assert Pow10(Decimals(Erc20(tB))) == 1;
    assert Pow10(Decimals(Erc20(tA))) == 100;
  }

  // ---------------------------------------------------------------------------
  // Adding liquidity

  /** The requests made: the approval's contract requests, then one router call. */
  datatype LiquidityAction =
    | Approval(approveStep: ApproveStep)
    | AddLiquidityEth(token: Address, amountTokenDesired: nat, amountEthDesired: nat)
    | AddLiquidityTokens(tokenA: Address, tokenB: Address, amountADesired: nat, amountBDesired: nat, amountAMin: nat, amountBMin: nat)

  datatype Outcome = Threw | Called

  function Approvals(steps: seq<ApproveStep>): (r: seq<LiquidityAction>)
    ensures |r| == |steps| && forall i :: 0 <= i < |r| ==> r[i] == Approval(steps[i])
  {
    seq(|steps|, i requires 0 <= i < |steps| => Approval(steps[i]))
  }

  /** The arguments with ether, if it is the second currency, moved first:
      currencies, desired amounts and minimums all swap sides together. */
  function EtherFirst(currencyA: Currency, currencyB: Currency, aDesired: Option<string>, bDesired: Option<string>, aMin: Option<string>, bMin: Option<string>)
    : (r: (Currency, Currency, Option<string>, Option<string>, Option<string>, Option<string>))
    ensures currencyB.Ether? ==> r == (currencyB, currencyA, bDesired, aDesired, bMin, aMin)
    ensures !currencyB.Ether? ==> r == (currencyA, currencyB, aDesired, bDesired, aMin, bMin)
    ensures !r.1.Ether? || r.0.Ether?
  {
    if currencyB.Ether? then (currencyB, currencyA, bDesired, aDesired, bMin, aMin)
    else (currencyA, currencyB, aDesired, bDesired, aMin, bMin)
  }

  /** The body after the reordering. */
  function AddOrdered(currencyA: Currency, currencyB: Currency, aDesired: Option<string>, bDesired: Option<string>, aMin: Option<string>, bMin: Option<string>, env: LiquidityEnv): (r: (seq<LiquidityAction>, Outcome))
    ensures var ta := WrappedCurrency(Some(currencyA), env.chainId, env.sdk);
            var tb := WrappedCurrency(Some(currencyB), env.chainId, env.sdk);
            var amounts := RecalculateAsWritten(currencyA, currencyB, aDesired, bDesired, env);
            r.1 == Called ==>
              && ta.Some? && tb.Some? && amounts.Success? && amounts.value.0.Some? && amounts.value.1.Some?
              && var aRaw := env.parseUnits(amounts.value.0.value, ta.value.decimals);
                 var bRaw := env.parseUnits(amounts.value.1.value, tb.value.decimals);
                 && (currencyA.Ether? ==> r.0 == [AddLiquidityEth(tb.value.address, bRaw, aRaw)])
                 && (currencyA.Erc20? ==>
                       var appr := ApproveTokenV2(Some(CurrencyAmount(Erc20(ta.value), aRaw)), ROUTER02, env.wallet, env.tokens);
                       && appr.1.Success?
                       && r.0 == Approvals(appr.0) + [AddLiquidityTokens(ta.value.address, tb.value.address, aRaw, bRaw,
                                                         env.parseUnits(aMin.GetOr("1"), ta.value.decimals),
                                                         env.parseUnits(bMin.GetOr("1"), tb.value.decimals))])
    ensures r.1 == Threw && currencyA.Ether? ==> r.0 == []
    ensures var ta := WrappedCurrency(Some(currencyA), env.chainId, env.sdk);
            var tb := WrappedCurrency(Some(currencyB), env.chainId, env.sdk);
            var amounts := RecalculateAsWritten(currencyA, currencyB, aDesired, bDesired, env);
            var ready := ta.Some? && tb.Some? && amounts.Success? && amounts.value.0.Some? && amounts.value.1.Some?;
            && (!ready ==> r == ([], Threw))
            && (ready && currencyA.Ether? ==> r.1 == Called)
            && (ready && currencyA.Erc20? ==>
                  var aRaw := env.parseUnits(amounts.value.0.value, ta.value.decimals);
                  var appr := ApproveTokenV2(Some(CurrencyAmount(Erc20(ta.value), aRaw)), ROUTER02, env.wallet, env.tokens);
                  && (r.1 == Called <==> appr.1.Success?)
                  && (appr.1.Failure? ==> r == (Approvals(appr.0), Threw)))
  {
    var ta := WrappedCurrency(Some(currencyA), env.chainId, env.sdk);
    var tb := WrappedCurrency(Some(currencyB), env.chainId, env.sdk);
    var amounts := RecalculateAsWritten(currencyA, currencyB, aDesired, bDesired, env);
    if amounts.Failure? || ta.None? || tb.None? || amounts.value.0.None? || amounts.value.1.None? then ([], Threw)
    else
      var aRaw := env.parseUnits(amounts.value.0.value, ta.value.decimals);
      var bRaw := env.parseUnits(amounts.value.1.value, tb.value.decimals);
      var aMinRaw := env.parseUnits(aMin.GetOr("1"), ta.value.decimals);
      var bMinRaw := env.parseUnits(bMin.GetOr("1"), tb.value.decimals);
      if currencyA.Ether? then ([AddLiquidityEth(tb.value.address, bRaw, aRaw)], Called)
      else
        var approval := GetTokenAmount(Erc20(ta.value), amounts.value.0, env.parseUnits);
        var appr := ApproveTokenV2(Some(approval), ROUTER02, env.wallet, env.tokens);
        if appr.1.Failure? then (Approvals(appr.0), Threw)
        else (Approvals(appr.0) + [AddLiquidityTokens(ta.value.address, tb.value.address, aRaw, bRaw, aMinRaw, bMinRaw)], Called)
  }

  /** `Addliquidity(currencyA, currencyB, amountADesired, amountBDesired,
      amountAMin, amountBMin)`; missing minimums are '1'. */
  function AddLiquidity(currencyA: Currency, currencyB: Currency, aDesired: Option<string>, bDesired: Option<string>, aMin: Option<string>, bMin: Option<string>, env: LiquidityEnv): (r: (seq<LiquidityAction>, Outcome))
    ensures var o := EtherFirst(currencyA, currencyB, aDesired, bDesired, aMin, bMin);
            r == AddOrdered(o.0, o.1, o.2, o.3, o.4, o.5, env)
    ensures forall i :: 0 <= i < |r.0| && r.0[i].AddLiquidityEth? ==> currencyA.Ether? || currencyB.Ether?
  {
    var o := EtherFirst(currencyA, currencyB, aDesired, bDesired, aMin, bMin);
    AddOrdered(o.0, o.1, o.2, o.3, o.4, o.5, env)
  }

  /** Naming ether second is the same as naming it first with every argument
      pair swapped. */
  lemma EtherSideIsSymmetric(c: Currency, aDesired: Option<string>, bDesired: Option<string>, aMin: Option<string>, bMin: Option<string>, env: LiquidityEnv)
    requires !c.Ether?
    ensures AddLiquidity(c, Ether, aDesired, bDesired, aMin, bMin, env) == AddLiquidity(Ether, c, bDesired, aDesired, bMin, aMin, env)
  {
  }

  /** With ether on one side the minimums are dropped and no approval is
      requested. */
  lemma EtherIgnoresMinimums(c: Currency, aDesired: Option<string>, bDesired: Option<string>, m1: Option<string>, m2: Option<string>, m3: Option<string>, m4: Option<string>, env: LiquidityEnv)
    ensures AddLiquidity(Ether, c, aDesired, bDesired, m1, m2, env) == AddLiquidity(Ether, c, aDesired, bDesired, m3, m4, env)
    ensures forall i :: 0 <= i < |AddLiquidity(Ether, c, aDesired, bDesired, m1, m2, env).0| ==>
              !AddLiquidity(Ether, c, aDesired, bDesired, m1, m2, env).0[i].Approval?
  {
    var r := AddLiquidity(Ether, c, aDesired, bDesired, m1, m2, env);
    if c.Ether? {
      assert r == AddOrdered(Ether, Ether, bDesired, aDesired, m2, m1, env);
    }
  }
}

=== FILE: approve.dfy ===
/** Token approval for the router (src/Approve.ts): the approval state read
    from the token's allowance, and the approval transaction with its gas
    margin and its fallback to the exact amount. The token contract is given
    as functions. */
module Approve {
  import opened Wrappers
  import opened Sdk

  datatype ApprovalState = Unknown | NotApproved | Pending | Approved

  /** `MaxUint256`, 2^256 - 1. */
  const MAX_UINT256: nat := 0xFFFF_FFFF_FFFF_FFFF_FFFF_FFFF_FFFF_FFFF_FFFF_FFFF_FFFF_FFFF_FFFF_FFFF_FFFF_FFFF

  /** Transaction handle returned by a submitted approval. */
  type TxHash = string

  /** The token contract: `allowance(owner, spender)`, the approval's gas
      estimate, the approval submission and the wait for its receipt. None
      stands for a rejected promise; `wait` is false when waiting rejects. */
  datatype TokenChain = TokenChain(
    allowance: (Token, Address, Address) -> Option<nat>,
    estimateApprove: (Token, Address, nat) -> Option<nat>,
    approve: (Token, Address, nat, nat) -> Option<TxHash>,
    wait: TxHash -> bool)

  /** The contract requests, in order. */
  datatype ApproveStep =
    | ReadAllowance(token: Token, owner: Address, spender: Address)
    | EstimateApprove(token: Token, spender: Address, value: nat)
    | SubmitApprove(token: Token, spender: Address, value: nat, gasLimit: nat)
    | WaitApprove(tx: TxHash)

  /** What `approveToken` resolves to: nothing (no approval needed), null (the
      submission was rejected), or the transaction response. */
  datatype ApproveResponse = NotNeeded | SubmissionRejected | Sent(tx: TxHash)

  /** Rejections that propagate out of `approveToken`. */
  datatype ApproveError = EstimateRejected | WaitRejected

  /** `calculateGasMargin`: the estimate plus 10%, truncated (`mul` then `div`
      on non-negative big numbers). */
  function CalculateGasMargin(value: nat): (g: nat)
    ensures 10000 * g <= 11000 * value < 10000 * (g + 1)
  {
    value * (10000 + 1000) / 10000
  }

  /** The margin never lowers the estimate and adds at most a tenth. */
  lemma GasMarginBounds(value: nat)
    ensures value <= CalculateGasMargin(value) <= value + value / 10
  {
    var g := CalculateGasMargin(value);
    assert 10 * (value / 10) + value % 10 == value;
  }

  /** `isTransactionRecent`: added less than a day (86 400 000 ms) before now. */
  const DAY_MS: int := 24 * 60 * 60 * 1000

  function IsTransactionRecent(nowMs: int, addedTime: int): (b: bool)
    ensures b <==> addedTime > nowMs - DAY_MS
  {
    nowMs - addedTime < 86_400_000
  }

  /** A transaction stays recent for exactly one day after it is added. */
  lemma RecentForOneDay(addedTime: int, nowMs: int)
    ensures IsTransactionRecent(nowMs, addedTime) <==> nowMs < addedTime + DAY_MS
  {
  }

  /** The transaction details `hasPendingApproval` inspects. */
  datatype TransactionDetails = TransactionDetails(
    hash: string, approval: Option<(Address, Address)>, hasReceipt: bool, addedTime: int)

  predicate PendingFor(tx: TransactionDetails, tokenAddress: Address, spender: Address, nowMs: int) {
    && !tx.hasReceipt
    && tx.approval.Some?
    && tx.approval.value.1 == spender
    && tx.approval.value.0 == tokenAddress
    && IsTransactionRecent(nowMs, tx.addedTime)
  }

  /** The test of `hasPendingApproval` over a list of transactions. */
  predicate AnyPending(txs: seq<TransactionDetails>, tokenAddress: Option<Address>, spender: Option<Address>, nowMs: int) {
    && tokenAddress.Some?
    && spender.Some?
    && exists i :: 0 <= i < |txs| && PendingFor(txs[i], tokenAddress.value, spender.value, nowMs)
  }

  /** `hasPendingApproval`: the transaction list it searches is always empty,
      so no approval is ever pending. */
  function HasPendingApproval(tokenAddress: Option<Address>, spender: Option<Address>, nowMs: int): (b: bool)
    ensures !b
  {
    AnyPending([], tokenAddress, spender, nowMs)
  }

  /** The state decision shared by both versions once the allowance is known. */
  function StateFromAllowance(spender: Address, allowance: Option<nat>, raw: nat): (s: ApprovalState)
    ensures s != Pending
    ensures s == NotApproved <==> spender != "" && allowance.Some? && allowance.value < raw
    ensures s == Approved <==> spender != "" && allowance.Some? && allowance.value >= raw
  {
    if spender == "" then Unknown
    else if allowance.None? then Unknown
    else if allowance.value < raw then NotApproved
    else Approved
  }

  /** `getApproveState(amountToApprove, spender)`: ether needs no approval and
      reads nothing; for a token the wallet's allowance for the ROUTER is read
      (the spender is not used for the read). */
  function GetApproveState(amount: CurrencyAmount, spender: Address, wallet: Address, router: Address, chain: TokenChain): (r: (seq<ApproveStep>, ApprovalState))
    ensures amount.currency.Ether? ==> r == ([], Approved)
    ensures amount.currency.Erc20? ==>
              && r.0 == [ReadAllowance(amount.currency.token, wallet, router)]
              && r.1 == StateFromAllowance(spender, chain.allowance(amount.currency.token, wallet, router), amount.raw)
    ensures r.1 != Pending
    ensures r.1 == NotApproved <==>
              && amount.currency.Erc20? && spender != ""
              && chain.allowance(amount.currency.token, wallet, router).Some?
              && chain.allowance(amount.currency.token, wallet, router).value < amount.raw
  {
    match amount.currency
    case Ether => ([], Approved)
    case Erc20(t) => ([ReadAllowance(t, wallet, router)], StateFromAllowance(spender, chain.allowance(t, wallet, router), amount.raw))
  }

  /** The state does not depend on which non-empty spender is asked about. */
  lemma SpenderIgnored(amount: CurrencyAmount, s1: Address, s2: Address, wallet: Address, router: Address, chain: TokenChain)
    requires s1 != "" && s2 != ""
    ensures GetApproveState(amount, s1, wallet, router, chain) == GetApproveState(amount, s2, wallet, router, chain)
  {
  }

  /** Submit the approval with the margin on the estimate and wait for it. */
  function Submit(t: Token, spender: Address, value: nat, estimate: nat, chain: TokenChain): (r: (seq<ApproveStep>, Result<ApproveResponse, ApproveError>))
    ensures |r.0| >= 1 && r.0[0] == SubmitApprove(t, spender, value, CalculateGasMargin(estimate))
    ensures r.1 == Success(SubmissionRejected) <==> chain.approve(t, spender, value, CalculateGasMargin(estimate)).None?
    ensures r.1.Success? && r.1.value.Sent? ==>
              && chain.approve(t, spender, value, CalculateGasMargin(estimate)) == Some(r.1.value.tx)
              && r.0 == r.0[..1] + [WaitApprove(r.1.value.tx)]
              && chain.wait(r.1.value.tx)
    ensures r.1.Success? ==> !r.1.value.NotNeeded?
    ensures chain.approve(t, spender, value, CalculateGasMargin(estimate)).None? ==>
              r.0 == [SubmitApprove(t, spender, value, CalculateGasMargin(estimate))]
    ensures match chain.approve(t, spender, value, CalculateGasMargin(estimate))
            case None => true
            case Some(tx) =>
              && r.0 == [SubmitApprove(t, spender, value, CalculateGasMargin(estimate)), WaitApprove(tx)]
              && r.1 == (if chain.wait(tx) then Success(Sent(tx)) else Failure(WaitRejected))
  {
    var gas := CalculateGasMargin(estimate);
    var submit := [SubmitApprove(t, spender, value, gas)];
    match chain.approve(t, spender, value, gas)
    case None => (submit, Success(SubmissionRejected))
    case Some(tx) => (submit + [WaitApprove(tx)], if chain.wait(tx) then Success(Sent(tx)) else Failure(WaitRejected))
  }

  /** The sending part of `approveToken`: estimate an unlimited approval,
      fall back to the exact amount when that estimate is rejected, submit
      with the margin and wait. */
  function SendApproval(t: Token, raw: nat, spender: Address, chain: TokenChain): (r: (seq<ApproveStep>, Result<ApproveResponse, ApproveError>))
    ensures |r.0| >= 2 && r.0[0] == EstimateApprove(t, spender, MAX_UINT256)
    ensures chain.estimateApprove(t, spender, MAX_UINT256).Some? ==>
              r.0[1] == SubmitApprove(t, spender, MAX_UINT256, CalculateGasMargin(chain.estimateApprove(t, spender, MAX_UINT256).value))
    ensures chain.estimateApprove(t, spender, MAX_UINT256).None? ==> r.0[1] == EstimateApprove(t, spender, raw)
    ensures chain.estimateApprove(t, spender, MAX_UINT256).None? && chain.estimateApprove(t, spender, raw).Some? ==>
              |r.0| >= 3 && r.0[2] == SubmitApprove(t, spender, raw, CalculateGasMargin(chain.estimateApprove(t, spender, raw).value))
    ensures r.1 == Failure(EstimateRejected) <==>
              chain.estimateApprove(t, spender, MAX_UINT256).None? && chain.estimateApprove(t, spender, raw).None?
    ensures r.1.Success? ==> !r.1.value.NotNeeded?
    ensures match chain.estimateApprove(t, spender, MAX_UINT256)
            case Some(g) =>
              var sub := Submit(t, spender, MAX_UINT256, g, chain);
              r == ([EstimateApprove(t, spender, MAX_UINT256)] + sub.0, sub.1)
            case None => true
    ensures match (chain.estimateApprove(t, spender, MAX_UINT256), chain.estimateApprove(t, spender, raw))
            case (None, Some(g)) =>
              var sub := Submit(t, spender, raw, g, chain);
              r == ([EstimateApprove(t, spender, MAX_UINT256), EstimateApprove(t, spender, raw)] + sub.0, sub.1)
            case _ => true
  {
    var first := [EstimateApprove(t, spender, MAX_UINT256)];
    match chain.estimateApprove(t, spender, MAX_UINT256)
    case Some(g) =>
      var sub := Submit(t, spender, MAX_UINT256, g, chain);
      (first + sub.0, sub.1)
    case None =>
      var tried := [EstimateApprove(t, spender, MAX_UINT256), EstimateApprove(t, spender, raw)];
      match chain.estimateApprove(t, spender, raw)
      case None => (tried, Failure(EstimateRejected))
      case Some(g) =>
        var sub := Submit(t, spender, raw, g, chain);
        (tried + sub.0, sub.1)
  }

  /** Every approval submitted asks for the unlimited or the exact amount,
      with a gas limit at least the estimate it was based on. */
  lemma SubmissionBounds(t: Token, raw: nat, spender: Address, chain: TokenChain, i: nat)
    requires i < |SendApproval(t, raw, spender, chain).0|
    requires SendApproval(t, raw, spender, chain).0[i].SubmitApprove?
    ensures var s := SendApproval(t, raw, spender, chain).0[i];
            && (s.value == MAX_UINT256 || s.value == raw)
            && chain.estimateApprove(t, spender, s.value).Some?
            && s.gasLimit == CalculateGasMargin(chain.estimateApprove(t, spender, s.value).value)
            && s.gasLimit >= chain.estimateApprove(t, spender, s.value).value
  {
    var r := SendApproval(t, raw, spender, chain);
    var s := r.0[i];
    match chain.estimateApprove(t, spender, MAX_UINT256)
    case Some(g) =>
      var sub := Submit(t, spender, MAX_UINT256, g, chain);
      assert r.0 == [EstimateApprove(t, spender, MAX_UINT256)] + sub.0;
      assert i == 1;
      GasMarginBounds(g);
    case None =>
      match chain.estimateApprove(t, spender, raw)
      case None =>
      case Some(g) =>
        var sub := Submit(t, spender, raw, g, chain);
        assert r.0 == [EstimateApprove(t, spender, MAX_UINT256), EstimateApprove(t, spender, raw)] + sub.0;
        assert i == 2;
        GasMarginBounds(g);
  }

  /** `response.wait()` runs only on a non-null response: every wait step
      directly follows the submission whose response it waits for. */
  lemma WaitFollowsResponse(t: Token, raw: nat, spender: Address, chain: TokenChain, i: nat)
    requires i < |SendApproval(t, raw, spender, chain).0|
    requires SendApproval(t, raw, spender, chain).0[i].WaitApprove?
    ensures var steps := SendApproval(t, raw, spender, chain).0;
            && i >= 1 && steps[i - 1].SubmitApprove?
            && chain.approve(t, spender, steps[i - 1].value, steps[i - 1].gasLimit) == Some(steps[i].tx)
  {
    var r := SendApproval(t, raw, spender, chain);
    match chain.estimateApprove(t, spender, MAX_UINT256)
    case Some(g) =>
      var sub := Submit(t, spender, MAX_UINT256, g, chain);
      assert r.0 == [EstimateApprove(t, spender, MAX_UINT256)] + sub.0;
      assert i == 2;
    case None =>
      match chain.estimateApprove(t, spender, raw)
      case None =>
      case Some(g) =>
        var sub := Submit(t, spender, raw, g, chain);
        assert r.0 == [EstimateApprove(t, spender, MAX_UINT256), EstimateApprove(t, spender, raw)] + sub.0;
        assert i == 3;
  }

  /** `approveToken(amountToApprove, spender)`: nothing beyond the state read
      unless the state is NOT_APPROVED. */
  function ApproveToken(amount: CurrencyAmount, spender: Address, wallet: Address, router: Address, chain: TokenChain): (r: (seq<ApproveStep>, Result<ApproveResponse, ApproveError>))
    ensures var st := GetApproveState(amount, spender, wallet, router, chain);
            && (st.1 != NotApproved <==> r == (st.0, Success(NotNeeded)))
            && (st.1 == NotApproved ==>
                  && r == (st.0 + SendApproval(amount.currency.token, amount.raw, spender, chain).0,
                           SendApproval(amount.currency.token, amount.raw, spender, chain).1))
  {
    var st := GetApproveState(amount, spender, wallet, router, chain);
    match amount.currency
    case Ether => (st.0, Success(NotNeeded))
    case Erc20(t) =>
      if st.1 != NotApproved then (st.0, Success(NotNeeded))
      else
        var sent := SendApproval(t, amount.raw, spender, chain);
        (st.0 + sent.0, sent.1)
  }

  /** Ether is never approved and no contract request is made for it. */
  lemma EtherNeedsNothing(amount: CurrencyAmount, spender: Address, wallet: Address, router: Address, chain: TokenChain)
    requires amount.currency.Ether?
    ensures ApproveToken(amount, spender, wallet, router, chain) == ([], Success(NotNeeded))
  {
  }

  /** An approval is submitted only when the allowance read for the router
      fell short of the amount. */
  lemma SubmitOnlyWhenShort(amount: CurrencyAmount, spender: Address, wallet: Address, router: Address, chain: TokenChain, i: nat)
    requires i < |ApproveToken(amount, spender, wallet, router, chain).0|
    requires ApproveToken(amount, spender, wallet, router, chain).0[i].SubmitApprove?
    ensures amount.currency.Erc20? && spender != ""
    ensures chain.allowance(amount.currency.token, wallet, router).Some?
    ensures chain.allowance(amount.currency.token, wallet, router).value < amount.raw
  {
  }
}

=== FILE: approve_v2.dfy ===
/** Token approval for a given spender (src/uniswap-v2/Approve.ts): as in the
    router approval, but the allowance is read for the spender itself and the
    amount may be missing. */
module ApproveV2 {
  import opened Wrappers
  import opened Sdk
  import opened Approve

  /** `getApproveState(amountToApprove, spender)`: the allowance read comes
      first and happens only for a token amount (for ether or a missing
      amount there is no contract and the read yields nothing); then a
      missing amount or spender is UNKNOWN and ether is APPROVED. */
  function GetApproveStateV2(amount: Option<CurrencyAmount>, spender: Address, wallet: Address, chain: TokenChain): (r: (seq<ApproveStep>, ApprovalState))
    ensures amount.Some? && amount.value.currency.Erc20? ==>
              r.0 == [ReadAllowance(amount.value.currency.token, wallet, spender)]
    ensures amount.None? || amount.value.currency.Ether? ==> r.0 == []
    ensures amount.None? || spender == "" ==> r.1 == Unknown
    ensures amount.Some? && spender != "" && amount.value.currency.Ether? ==> r.1 == Approved
    ensures r.1 != Pending
    ensures r.1 == NotApproved <==>
              && amount.Some? && amount.value.currency.Erc20? && spender != ""
              && chain.allowance(amount.value.currency.token, wallet, spender).Some?
              && chain.allowance(amount.value.currency.token, wallet, spender).value < amount.value.raw
  {
    match amount
    case None => ([], Unknown)
    case Some(a) =>
      match a.currency
      case Ether => ([], if spender == "" then Unknown else Approved)
      case Erc20(t) => ([ReadAllowance(t, wallet, spender)], StateFromAllowance(spender, chain.allowance(t, wallet, spender), a.raw))
  }

  /** For a token amount and a spender that is the router, both versions
      reach the same state after the same read. */
  lemma AgreesForRouter(amount: CurrencyAmount, wallet: Address, router: Address, chain: TokenChain)
    requires amount.currency.Erc20?
    ensures GetApproveStateV2(Some(amount), router, wallet, chain) == GetApproveState(amount, router, wallet, router, chain)
  {
  }

  /** Ether with an empty spender: the router version answers APPROVED, this
      one UNKNOWN. */
  lemma EtherWithoutSpenderDiffers(amount: CurrencyAmount, wallet: Address, router: Address, chain: TokenChain)
    requires amount.currency.Ether?
    ensures GetApproveState(amount, "", wallet, router, chain).1 == Approved
    ensures GetApproveStateV2(Some(amount), "", wallet, chain).1 == Unknown
  {
  }

  /** `approveToken(amountToApprove, spender)`: nothing beyond the state read
      unless the state is NOT_APPROVED; then the shared sending steps. */
  function ApproveTokenV2(amount: Option<CurrencyAmount>, spender: Address, wallet: Address, chain: TokenChain): (r: (seq<ApproveStep>, Result<ApproveResponse, ApproveError>))
    ensures var st := GetApproveStateV2(amount, spender, wallet, chain);
            && (st.1 != NotApproved <==> r == (st.0, Success(NotNeeded)))
            && (st.1 == NotApproved ==>
                  r == (st.0 + SendApproval(amount.value.currency.token, amount.value.raw, spender, chain).0,
                        SendApproval(amount.value.currency.token, amount.value.raw, spender, chain).1))
  {
    var st := GetApproveStateV2(amount, spender, wallet, chain);
    match amount
    case Some(CurrencyAmount(Erc20(t), raw)) =>
      if st.1 != NotApproved then (st.0, Success(NotNeeded))
      else
        var sent := SendApproval(t, raw, spender, chain);
        (st.0 + sent.0, sent.1)
    case _ => (st.0, Success(NotNeeded))
  }

  /** A submitted approval is always for the spender whose allowance was read
      short. */
  lemma SubmitsForTheSpender(amount: Option<CurrencyAmount>, spender: Address, wallet: Address, chain: TokenChain, i: nat)
    requires i < |ApproveTokenV2(amount, spender, wallet, chain).0|
    requires ApproveTokenV2(amount, spender, wallet, chain).0[i].SubmitApprove?
    ensures amount.Some? && amount.value.currency.Erc20?
    ensures ApproveTokenV2(amount, spender, wallet, chain).0[i].spender == spender
    ensures chain.allowance(amount.value.currency.token, wallet, spender).value < amount.value.raw
  {
    var r := ApproveTokenV2(amount, spender, wallet, chain);
    var st := GetApproveStateV2(amount, spender, wallet, chain);
    var sent := SendApproval(amount.value.currency.token, amount.value.raw, spender, chain);
    assert r.0 == st.0 + sent.0;
    assert i >= 1;
    SubmissionBounds(amount.value.currency.token, amount.value.raw, spender, chain, i - 1);
    SentToSpender(amount.value.currency.token, amount.value.raw, spender, chain, i - 1);
  }

  /** Every request the sending steps make names the spender they were given. */
  lemma SentToSpender(t: Token, raw: nat, spender: Address, chain: TokenChain, i: nat)
    requires i < |SendApproval(t, raw, spender, chain).0|
    requires SendApproval(t, raw, spender, chain).0[i].SubmitApprove?
    ensures SendApproval(t, raw, spender, chain).0[i].spender == spender
  {
    var r := SendApproval(t, raw, spender, chain);
    match chain.estimateApprove(t, spender, MAX_UINT256)
    case Some(g) =>
      assert r.0 == [EstimateApprove(t, spender, MAX_UINT256)] + Submit(t, spender, MAX_UINT256, g, chain).0;
    case None =>
      match chain.estimateApprove(t, spender, raw)
      case None =>
      case Some(g) =>
        assert r.0 == [EstimateApprove(t, spender, MAX_UINT256), EstimateApprove(t, spender, raw)] + Submit(t, spender, raw, g, chain).0;
  }
}

=== FILE: autoswap.dfy ===
/** The trading bot (src/AutoSwap.ts): token resolution at start-up and one
    scheduled swap turn, as the ordered list of requests it makes and the way
    the turn ends. Balances, prices shown to the user and the router contract
    are given as parameters. */
module AutoSwap {
  import opened Wrappers
  import opened Sdk
  import opened Trades
  import opened Swap
  import opened Approve

  /** The bot's fixed settings. */
  datatype Bot = Bot(fromToken: Token, toToken: Token, amountPerTurn: string, price: real)

  const NOT_FOUND: string := "Token not found... "

  /** A `getToken` call made by `init`. */
  datatype Lookup = Lookup(addressOrSymbol: string)

  /** `AutoSwap.init`: both tokens are looked up before either is checked;
      the input token's absence is reported first. */
  function Init(fromId: string, toId: string, amountPerTurn: string, price: real, getToken: string -> Option<Token>): (r: (seq<Lookup>, Result<Bot, string>))
    ensures r.0 == [Lookup(fromId), Lookup(toId)]
    ensures r.1.Success? <==> getToken(fromId).Some? && getToken(toId).Some?
    ensures r.1.Success? ==> r.1.value == Bot(getToken(fromId).value, getToken(toId).value, amountPerTurn, price)
    ensures getToken(fromId).None? ==> r.1 == Failure(NOT_FOUND + fromId)
    ensures getToken(fromId).Some? && getToken(toId).None? ==> r.1 == Failure(NOT_FOUND + toId)
  {
    var from := getToken(fromId);
    var to := getToken(toId);
    var lookups := [Lookup(fromId), Lookup(toId)];
    if from.None? then (lookups, Failure(NOT_FOUND + fromId))
    else if to.None? then (lookups, Failure(NOT_FOUND + toId))
    else (lookups, Success(Bot(from.value, to.value, amountPerTurn, price)))
  }

  /** `getTokenAmount(token, amount)`: the amount text parsed at the token's
      decimals. */
  function TurnAmount(token: Token, amountText: string, parseUnits: (string, nat) -> nat): (a: CurrencyAmount)
    ensures a.currency == Erc20(token)
  {
    CurrencyAmount(Erc20(token), parseUnits(amountText, token.decimals))
  }

  /** A raw amount as the decimal number `formatUnits` / `toExact` print. */
  function Units(raw: nat, decimals: nat): real {
    raw as real / Pow10(decimals) as real
  }

  /** Comparing two amounts at the same decimals is comparing their raw values. */
  lemma UnitsOrder(a: nat, b: nat, decimals: nat)
    ensures Units(a, decimals) < Units(b, decimals) <==> a < b
  {
    var p := Pow10(decimals) as real;
    assert Units(a, decimals) * p == a as real;
    assert Units(b, decimals) * p == b as real;
  }

  /** Everything a turn reads besides the bot: the route search, unit
      parsing, the slippage the price module derives and the rounding of the
      shown price, the balances, the token and router contracts. */
  datatype TickEnv = TickEnv(
    routes: RouteEnv,
    best: BestTradeExactIn,
    parseUnits: (string, nat) -> nat,
    slippagePercent: real,
    slippageOf: (Trade, real) -> real,
    shownPrice: real -> real,
    etherBalance: nat,
    tokenBalance: Address -> nat,
    wallet: Address,
    router: Address,
    tokens: TokenChain,
    swap: SwapEnv,
    submit: (SwapParameters, nat, Option<string>, Address) -> Option<TxHash>,
    waitSwap: TxHash -> bool)

  /** The requests of one turn, in order. */
  datatype Action =
    | Quote(amountIn: CurrencyAmount, currencyOut: Currency)
    | ReadEtherBalance
    | ReadTokenBalance(token: Address)
    | Approval(approveStep: ApproveStep)
    | Estimation(estimateStep: EstimateStep)
    | SubmitSwap(methodName: string, args: seq<string>, gasLimit: nat, value: Option<string>, from: Address)
    | WaitSwap(tx: TxHash)

  /** How a turn ends: with an exception, below the trigger price, short of
      the input token, short of ether, or after the swap was mined. */
  datatype Outcome = Threw | NotTriggered | NotEnoughInput | NotEnoughEther | Swapped(tx: TxHash)

  /** `+swapInfo.price < this.price`: the shown price is the inverted
      execution price in whole units, rounded to six significant digits by
      `shownPrice`; a zero execution price inverts to Infinity, which is never
      below the price. */
  predicate Triggered(trade: Trade, bot: Bot, env: TickEnv) {
    trade.executionPrice != 0.0 && env.shownPrice(InvertedPrice(trade)) < bot.price
  }

  /** Between tokens of equal decimals the shown price is the plain inverse
      of the raw execution price. */
  lemma InvertedPriceEqualDecimals(trade: Trade)
    requires trade.executionPrice != 0.0
    requires Decimals(trade.inputAmount.currency) == Decimals(trade.outputAmount.currency)
    ensures InvertedPrice(trade) * trade.executionPrice == 1.0
  {
    SameScaleInverse(trade.executionPrice, Scale(trade.inputAmount.currency));
  }

  /** `+trade.inputAmount.toExact() > +balanceTokenIn`. */
  predicate InputShort(trade: Trade, bot: Bot, env: TickEnv) {
    Units(trade.inputAmount.raw, Decimals(trade.inputAmount.currency))
      > Units(env.tokenBalance(bot.fromToken.address), bot.fromToken.decimals)
  }

  /** `+balanceEther < +formatEther(gasEstimate)`: the gas estimate, in gas
      units, is compared with the balance as if it were wei. */
  predicate EtherShort(gasEstimate: nat, env: TickEnv) {
    Units(env.etherBalance, ETHER_DECIMALS) < Units(gasEstimate, ETHER_DECIMALS)
  }

  function Approvals(steps: seq<ApproveStep>): (r: seq<Action>)
    ensures |r| == |steps| && forall i :: 0 <= i < |r| ==> r[i] == Approval(steps[i])
  {
    seq(|steps|, i requires 0 <= i < |steps| => Approval(steps[i]))
  }

  function Estimations(steps: seq<EstimateStep>): (r: seq<Action>)
    ensures |r| == |steps| && forall i :: 0 <= i < |r| ==> r[i] == Estimation(steps[i])
  {
    seq(|steps|, i requires 0 <= i < |steps| => Estimation(steps[i]))
  }

  /** The swap submission with the selected estimate as gas limit (no margin)
      and the selected call's options, then the wait. */
  function SubmitAndWait(call: SwapParameters, gasEstimate: nat, options: Option<string>, env: TickEnv): (r: (seq<Action>, Outcome))
    ensures |r.0| >= 1 && r.0[0] == SubmitSwap(call.methodName, call.args, gasEstimate, options, env.wallet)
    ensures r.1.Swapped? <==> env.submit(call, gasEstimate, options, env.wallet).Some?
                              && env.waitSwap(env.submit(call, gasEstimate, options, env.wallet).value)
    ensures r.1.Swapped? ==> r.0 == r.0[..1] + [WaitSwap(r.1.tx)]
    ensures !r.1.Swapped? ==> r.1 == Threw
  {
    var sent := [SubmitSwap(call.methodName, call.args, gasEstimate, options, env.wallet)];
    match env.submit(call, gasEstimate, options, env.wallet)
    case None => (sent, Threw)
    case Some(tx) => (sent + [WaitSwap(tx)], if env.waitSwap(tx) then Swapped(tx) else Threw)
  }

  /** From the gas estimation on. */
  function EstimateAndSwap(trade: Trade, env: TickEnv): (r: (seq<Action>, Outcome))
    ensures var est := EstimateGasTrade(trade, Some(env.slippageOf(trade, env.slippagePercent)), env.swap);
            && |r.0| >= |est.0| && r.0[..|est.0|] == Estimations(est.0)
            && (est.1.Failure? ==> r == (Estimations(est.0), Threw))
            && (est.1.Success? && EtherShort(est.1.value.gasEstimate, env) ==> r == (Estimations(est.0), NotEnoughEther))
            && (r.1.Swapped? ==>
                  && est.1.Success? && !EtherShort(est.1.value.gasEstimate, env)
                  && |r.0| > |est.0| && r.0[|est.0|] == SubmitSwap(est.1.value.call.methodName, est.1.value.call.args,
                                                est.1.value.gasEstimate, est.1.value.options, env.wallet)
                  && r.0[|r.0| - 1] == WaitSwap(r.1.tx))
    ensures r.1 != NotTriggered && r.1 != NotEnoughInput
    ensures r.1.Swapped? ==> |r.0| > 0 && r.0[|r.0| - 1] == WaitSwap(r.1.tx)
    ensures var est := EstimateGasTrade(trade, Some(env.slippageOf(trade, env.slippagePercent)), env.swap);
            est.1.Success? && est.1.value.Failed? ==> r == (Estimations(est.0), Threw)
    ensures var est := EstimateGasTrade(trade, Some(env.slippageOf(trade, env.slippagePercent)), env.swap);
            est.1.Success? && est.1.value.Succeeded? && !EtherShort(est.1.value.gasEstimate, env) ==>
              var done := SubmitAndWait(est.1.value.call, est.1.value.gasEstimate, est.1.value.options, env);
              r == (Estimations(est.0) + done.0, done.1)
  {
    var est := EstimateGasTrade(trade, Some(env.slippageOf(trade, env.slippagePercent)), env.swap);
    var steps := Estimations(est.0);
    match est.1
    case Failure(_) => (steps, Threw)
    case Success(Failed(_, _)) => (steps, Threw)
    case Success(Succeeded(call, gas, options)) =>
      if EtherShort(gas, env) then (steps, NotEnoughEther)
      else
        var done := SubmitAndWait(call, gas, options, env);
        (steps + done.0, done.1)
  }

  /** From the balance reads on, once the price has triggered. */
  function ApproveAndSwap(trade: Trade, bot: Bot, env: TickEnv): (r: (seq<Action>, Outcome))
    ensures var balanceReads := [ReadEtherBalance, ReadTokenBalance(bot.fromToken.address), ReadTokenBalance(bot.toToken.address)];
            var appr := ApproveToken(trade.inputAmount, env.router, env.wallet, env.router, env.tokens);
            && |r.0| >= 3 + |appr.0| && r.0[..3 + |appr.0|] == balanceReads + Approvals(appr.0)
            && (appr.1.Failure? ==> r == (balanceReads + Approvals(appr.0), Threw))
            && (appr.1.Success? && InputShort(trade, bot, env) ==> r == (balanceReads + Approvals(appr.0), NotEnoughInput))
            && (appr.1.Success? && !InputShort(trade, bot, env) ==>
                  r == (balanceReads + Approvals(appr.0) + EstimateAndSwap(trade, env).0, EstimateAndSwap(trade, env).1))
    ensures r.1 != NotTriggered
    ensures r.1.Swapped? ==> |r.0| > 0 && r.0[|r.0| - 1] == WaitSwap(r.1.tx)
    ensures r.1.Swapped? ==> !InputShort(trade, bot, env) && EstimateAndSwap(trade, env).1 == r.1
  {
    var balanceReads := [ReadEtherBalance, ReadTokenBalance(bot.fromToken.address), ReadTokenBalance(bot.toToken.address)];
    var appr := ApproveToken(trade.inputAmount, env.router, env.wallet, env.router, env.tokens);
    var before := balanceReads + Approvals(appr.0);
    if appr.1.Failure? then (before, Threw)
    else if InputShort(trade, bot, env) then (before, NotEnoughInput)
    else
      var rest := EstimateAndSwap(trade, env);
      (before + rest.0, rest.1)
  }

  /** `swap()`: one scheduled turn. */
  function Tick(bot: Bot, env: TickEnv): (r: (seq<Action>, Outcome))
    ensures var amountIn := TurnAmount(bot.fromToken, bot.amountPerTurn, env.parseUnits);
            var quoted := UseTradeExactIn(Some(amountIn), Some(Erc20(bot.toToken)), env.routes, env.best);
            && |r.0| >= 1 && r.0[0] == Quote(amountIn, Erc20(bot.toToken))
            && (quoted.Failure? || quoted.value.None? ==> r == ([r.0[0]], Threw))
            && (quoted.Success? && quoted.value.Some? && !Triggered(quoted.value.value, bot, env) ==>
                  r == ([r.0[0]], NotTriggered))
            && (quoted.Success? && quoted.value.Some? && Triggered(quoted.value.value, bot, env) ==>
                  r == ([r.0[0]] + ApproveAndSwap(quoted.value.value, bot, env).0, ApproveAndSwap(quoted.value.value, bot, env).1))
  {
    var amountIn := TurnAmount(bot.fromToken, bot.amountPerTurn, env.parseUnits);
    var quote := [Quote(amountIn, Erc20(bot.toToken))];
    match UseTradeExactIn(Some(amountIn), Some(Erc20(bot.toToken)), env.routes, env.best)
    case Failure(_) => (quote, Threw)
    case Success(None) => (quote, Threw)
    case Success(Some(trade)) =>
      if !Triggered(trade, bot, env) then (quote, NotTriggered)
      else
        var rest := ApproveAndSwap(trade, bot, env);
        (quote + rest.0, rest.1)
  }

  /** A turn below the trigger price reads no balance and sends nothing. */
  lemma UntriggeredTurnIsQuiet(bot: Bot, env: TickEnv)
    requires Tick(bot, env).1 == NotTriggered
    ensures |Tick(bot, env).0| == 1 && Tick(bot, env).0[0].Quote?
  {
  }

  /** When a turn stops for lack of input token, the approval has already run:
      every request after the balance reads is an approval request. */
  lemma ApprovalPrecedesInputCheck(bot: Bot, env: TickEnv)
    ensures Tick(bot, env).1 == NotEnoughInput ==>
              forall i :: 4 <= i < |Tick(bot, env).0| ==> Tick(bot, env).0[i].Approval?
  {
    if Tick(bot, env).1 == NotEnoughInput {
      var amountIn := TurnAmount(bot.fromToken, bot.amountPerTurn, env.parseUnits);
      var trade := UseTradeExactIn(Some(amountIn), Some(Erc20(bot.toToken)), env.routes, env.best).value.value;
      var rest := ApproveAndSwap(trade, bot, env);
      ShortInputTrace(trade, bot, env);
      assert Tick(bot, env).0[1..] == rest.0;
    }
  }

  /** Stopping for lack of input token leaves only approval requests after
      the three balance reads. */
  lemma ShortInputTrace(trade: Trade, bot: Bot, env: TickEnv)
    requires ApproveAndSwap(trade, bot, env).1 == NotEnoughInput
    ensures forall i :: 3 <= i < |ApproveAndSwap(trade, bot, env).0| ==> ApproveAndSwap(trade, bot, env).0[i].Approval?
  {
    var appr := ApproveToken(trade.inputAmount, env.router, env.wallet, env.router, env.tokens);
    assert ApproveAndSwap(trade, bot, env).0[3..] == Approvals(appr.0);
  }

  /** A completed swap passed every check of the turn and ended by waiting
      for the transaction it submitted, whose gas limit is the raw estimate. */
  lemma SwappedTurn(bot: Bot, env: TickEnv)
    ensures Tick(bot, env).1.Swapped? ==>
              var amountIn := TurnAmount(bot.fromToken, bot.amountPerTurn, env.parseUnits);
              var quoted := UseTradeExactIn(Some(amountIn), Some(Erc20(bot.toToken)), env.routes, env.best);
              && quoted.Success? && quoted.value.Some?
              && Triggered(quoted.value.value, bot, env)
              && !InputShort(quoted.value.value, bot, env)
              && var est := EstimateGasTrade(quoted.value.value, Some(env.slippageOf(quoted.value.value, env.slippagePercent)), env.swap);
                 && est.1.Success?
                 && !EtherShort(est.1.value.gasEstimate, env)
    ensures Tick(bot, env).1.Swapped? ==> Tick(bot, env).0[|Tick(bot, env).0| - 1] == WaitSwap(Tick(bot, env).1.tx)
  {
    if Tick(bot, env).1.Swapped? {
      var amountIn := TurnAmount(bot.fromToken, bot.amountPerTurn, env.parseUnits);
      var quoted := UseTradeExactIn(Some(amountIn), Some(Erc20(bot.toToken)), env.routes, env.best);
      assert quoted.Success? && quoted.value.Some?;
      var trade := quoted.value.value;
      var a := ApproveAndSwap(trade, bot, env);
      assert Tick(bot, env) == ([Quote(amountIn, Erc20(bot.toToken))] + a.0, a.1);
    }
  }

  /** Conversely, a turn whose every step succeeds swaps: a quoted trade
      below the price, an approval that does not throw, enough input, a
      selected estimate, enough ether, and a submission that is mined. */
  lemma TurnSwaps(bot: Bot, env: TickEnv)
    ensures var amountIn := TurnAmount(bot.fromToken, bot.amountPerTurn, env.parseUnits);
            var quoted := UseTradeExactIn(Some(amountIn), Some(Erc20(bot.toToken)), env.routes, env.best);
            quoted.Success? && quoted.value.Some? && Triggered(quoted.value.value, bot, env) ==>
              var trade := quoted.value.value;
              var appr := ApproveToken(trade.inputAmount, env.router, env.wallet, env.router, env.tokens);
              var est := EstimateGasTrade(trade, Some(env.slippageOf(trade, env.slippagePercent)), env.swap);
              appr.1.Success? && !InputShort(trade, bot, env)
              && est.1.Success? && est.1.value.Succeeded? && !EtherShort(est.1.value.gasEstimate, env)
              && env.submit(est.1.value.call, est.1.value.gasEstimate, est.1.value.options, env.wallet).Some?
              && env.waitSwap(env.submit(est.1.value.call, est.1.value.gasEstimate, est.1.value.options, env.wallet).value)
              ==> Tick(bot, env).1 == Swapped(env.submit(est.1.value.call, est.1.value.gasEstimate, est.1.value.options, env.wallet).value)
  {
  }

  /** The input check is the raw comparison when the trade's input is the
      bot's input token. */
  lemma InputCheckIsRaw(trade: Trade, bot: Bot, env: TickEnv)
    requires trade.inputAmount.currency == Erc20(bot.fromToken)
    ensures InputShort(trade, bot, env) <==> trade.inputAmount.raw > env.tokenBalance(bot.fromToken.address)
  {
    UnitsOrder(env.tokenBalance(bot.fromToken.address), trade.inputAmount.raw, bot.fromToken.decimals);
  }

  /** The ether check compares the wei balance with the gas estimate itself. */
  lemma EtherCheckIsRaw(gasEstimate: nat, env: TickEnv)
    ensures EtherShort(gasEstimate, env) <==> env.etherBalance < gasEstimate
  {
    UnitsOrder(env.etherBalance, gasEstimate, ETHER_DECIMALS);
  }
}

=== FILE: config.dfy ===
/** Configuration loading (src/Config.ts): the JSON file is parsed, six
    settings must be present and truthy, and the file's settings override the
    built-in defaults. Reading the file and `JSON.parse` are given. */
module Config {
  import opened Wrappers
  import opened Sdk
  import JsObject

  /** A parsed JSON value; objects keep their key order. */
  datatype Json =
    | JNull
    | JBool(b: bool)
    | JNum(n: real)
    | JStr(s: string)
    | JArr(items: seq<Json>)
    | JObj(fields: JsObject.Obj<Json>)

  /** The outcome of `value.name`: undefined, a value, or a TypeError when the
      value is null. */
  datatype Prop = Undefined | Value(v: Json) | NullAccess

  function Property(v: Json, name: string): (p: Prop)
    ensures p == NullAccess <==> v == JNull
    ensures p.Value? ==> v.JObj? && name in v.fields.vals && p.v == v.fields.vals[name]
  {
    match v
    case JNull => NullAccess
    case JObj(o) => if name in o.vals then Value(o.vals[name]) else Undefined
    case _ => Undefined
  }

  /** JavaScript truthiness (NaN is not a value of this model). */
  predicate Truthy(p: Prop) {
    match p
    case Value(JBool(b)) => b
    case Value(JNum(n)) => n != 0.0
    case Value(JStr(s)) => s != ""
    case Value(JNull) => false
    case Value(_) => true
    case _ => false
  }

  /** The settings that must be present, in the order they are checked. */
  const REQUIRED: seq<string> := ["privateKey", "inputToken", "outputToken", "amountInputTokenPerSwapTurn",
                                  "priceInputPerOutputToSwap", "frequencySwappingPerSecond"]

  const LOAD_FAILED: string := "Failed to load file configs"
  const MISSING: string := "Missing "
  const NULL_ACCESS: string := "Cannot read properties of null"

  /** The checks from `names[from]` on: the first setting that is not
      truthy, or the TypeError of a null document. */
  function CheckRequired(v: Json, names: seq<string>, from: nat): (r: Option<string>)
    requires from <= |names|
    decreases |names| - from
    ensures r.None? <==> forall i :: from <= i < |names| ==> Truthy(Property(v, names[i]))
    ensures r.Some? ==> exists i :: from <= i < |names| && !Truthy(Property(v, names[i]))
                                    && (forall j :: from <= j < i ==> Truthy(Property(v, names[j])))
                                    && r.value == (if v == JNull then NULL_ACCESS else MISSING + names[i])
  {
    if from == |names| then None
    else
      var p := Property(v, names[from]);
      if p == NullAccess then Some(NULL_ACCESS)
      else if !Truthy(p) then Some(MISSING + names[from])
      else CheckRequired(v, names, from + 1)
  }

  /** `getConfigs()`: the parsed file when it can be read and parsed and every
      required setting is truthy. */
  function GetConfigs(content: Option<string>, parse: string -> Option<Json>): (r: Result<Json, string>)
    ensures content.None? || parse(content.value).None? ==> r == Failure(LOAD_FAILED)
    ensures r.Success? <==> content.Some? && parse(content.value).Some?
                            && forall i :: 0 <= i < |REQUIRED| ==> Truthy(Property(parse(content.value).value, REQUIRED[i]))
    ensures r.Success? ==> r.value == parse(content.value).value
  {
    match content
    case None => Failure(LOAD_FAILED)
    case Some(text) =>
      match parse(text)
      case None => Failure(LOAD_FAILED)
      case Some(v) =>
        match CheckRequired(v, REQUIRED, 0)
        case Some(e) => Failure(e)
        case None => Success(v)
  }

  /** Only an object can pass the checks: a property of any other value is
      undefined (or a TypeError for null). */
  lemma LoadedIsObject(content: Option<string>, parse: string -> Option<Json>)
    requires GetConfigs(content, parse).Success?
    ensures GetConfigs(content, parse).value.JObj?
  {
    var v := GetConfigs(content, parse).value;
    assert Truthy(Property(v, REQUIRED[0]));
  }

  /** The error for a file whose first required setting present is not the
      first one: it names the first setting checked, `privateKey`. */
  lemma PrivateKeyCheckedFirst(content: Option<string>, parse: string -> Option<Json>)
    requires content.Some? && parse(content.value).Some? && parse(content.value).value.JObj?
    requires !Truthy(Property(parse(content.value).value, "privateKey"))
    ensures GetConfigs(content, parse) == Failure(MISSING + "privateKey")
  {
  }

  /** For an object, the error names the first of the six settings, in the
      order checked, that is not truthy: 0, "" and false count as missing. */
  lemma MissingReportsFirst(v: Json, i: nat)
    requires v.JObj?
    requires i < |REQUIRED|
    requires forall j :: 0 <= j < i ==> Truthy(Property(v, REQUIRED[j]))
    requires !Truthy(Property(v, REQUIRED[i]))
    ensures CheckRequired(v, REQUIRED, 0) == Some(MISSING + REQUIRED[i])
  {
    var r := CheckRequired(v, REQUIRED, 0);
    var k :| 0 <= k < |REQUIRED| && !Truthy(Property(v, REQUIRED[k]))
             && (forall j :: 0 <= j < k ==> Truthy(Property(v, REQUIRED[j])))
             && r.value == MISSING + REQUIRED[k];
    assert k == i;
  }

  /** The built-in defaults, in declaration order; chain 5 is Goerli and the
      price default is `Number.MAX_SAFE_INTEGER`. */
  function Defaults(): (o: JsObject.Obj<Json>)
    ensures JsObject.Valid(o)
  {
    var keys := ["chainId", "privateKey", "deadlineMinutes", "slippagePercent", "inputToken", "outputToken",
                 "amountInputTokenPerSwapTurn", "priceInputPerOutputToSwap", "frequencySwappingPerSecond", "isDisableLog"];
    var vals := map["chainId" := JNum(5.0), "privateKey" := JStr(""), "deadlineMinutes" := JNum(20.0),
                    "slippagePercent" := JNum(0.5), "inputToken" := JStr(""), "outputToken" := JStr(""),
                    "amountInputTokenPerSwapTurn" := JStr(""), "priceInputPerOutputToSwap" := JNum(9007199254740991.0),
                    "frequencySwappingPerSecond" := JNum(15.0), "isDisableLog" := JBool(false)];
    // Every key differs from every other in its first letter or its length.
    assert forall i, j :: 0 <= i < j < |keys| ==> keys[i][0] != keys[j][0] || |keys[i]| != |keys[j]|;
    JsObject.Obj(keys, vals)
  }

  /** `{ ...base, ...over }` for the keys `keys` of `over`, in order; a key
      listed without a value is skipped. */
  function Spread(base: JsObject.Obj<Json>, over: map<string, Json>, keys: seq<string>): (r: JsObject.Obj<Json>)
    requires JsObject.Valid(base)
    ensures JsObject.Valid(r)
    ensures forall k :: k in r.vals <==> k in base.vals || (k in keys && k in over)
    ensures forall k :: k in r.vals ==> r.vals[k] == if k in keys && k in over then over[k] else base.vals[k]
    ensures |r.keys| >= |base.keys| && r.keys[..|base.keys|] == base.keys
    decreases |keys|
  {
    if |keys| == 0 then base
    else
      var init := keys[..|keys| - 1];
      var last := keys[|keys| - 1];
      var prev := Spread(base, over, init);
      assert forall k :: k in keys <==> k in init || k == last;
      if last !in over then prev
      else
        var r := JsObject.Put(prev, last, over[last]);
        assert r.keys[..|base.keys|] == prev.keys[..|base.keys|];
        r
  }

  /** The file's settings spread over the defaults. */
  function Merge(file: JsObject.Obj<Json>): (r: JsObject.Obj<Json>)
    ensures JsObject.Valid(r)
  {
    Spread(Defaults(), file.vals, file.keys)
  }

  /** `Configs`: the defaults overridden by the loaded file. */
  function LoadConfigs(content: Option<string>, parse: string -> Option<Json>): (r: Result<JsObject.Obj<Json>, string>)
    ensures r.Success? <==> GetConfigs(content, parse).Success?
    ensures r.Failure? ==> r == Failure(GetConfigs(content, parse).error)
    ensures r.Success? ==> parse(content.value).value.JObj? && r.value == Merge(parse(content.value).value.fields)
  {
    match GetConfigs(content, parse)
    case Failure(e) => Failure(e)
    case Success(v) =>
      LoadedIsObject(content, parse);
      Success(Merge(v.fields))
  }

  /** Every setting of the merged configuration is the file's when the file
      sets it and the default otherwise; in insertion order the defaults'
      keys stay at the front. */
  lemma MergeOverridesDefaults(file: JsObject.Obj<Json>, k: string)
    ensures JsObject.Get(Merge(file), k)
            == if k in file.vals && k in file.keys then Some(file.vals[k]) else JsObject.Get(Defaults(), k)
    ensures Merge(file).keys[..|Defaults().keys|] == Defaults().keys
  {
  }

  /** A setting the file gives a truthy value stays truthy in the merged
      configuration, whatever its default; so the six checked settings of a
      loaded configuration are truthy. */
  lemma MergeKeepsTruthy(file: JsObject.Obj<Json>, name: string)
    requires name in file.keys
    requires Truthy(Property(JObj(file), name))
    ensures Truthy(Property(JObj(Merge(file)), name))
  {
    MergeOverridesDefaults(file, name);
  }
}

=== FILE: js_object.dfy ===
/** A JavaScript object used as a string-keyed dictionary. Lookups go by key;
    `keys` is the order in which keys were first inserted, and `Object.values`
    enumerates in that order. JavaScript lists integer-like keys first, in
    ascending numeric order; that rule is not modelled, so the order here is
    JavaScript's only for objects without integer-like keys, such as the
    address-keyed pools. */
module JsObject {
  import opened Wrappers

  datatype Obj<V> = Obj(keys: seq<string>, vals: map<string, V>)

  /** Keys are listed once each, and exactly the keys that hold a value. */
  ghost predicate Valid<V>(o: Obj<V>) {
    && (forall i, j :: 0 <= i < j < |o.keys| ==> o.keys[i] != o.keys[j])
    && (forall k :: k in o.vals <==> k in o.keys)
  }

  function Empty<V>(): (o: Obj<V>)
    ensures Valid(o) && o.vals == map[]
  {
    Obj([], map[])
  }

  /** `o[k] = v`: a new key goes last, an existing key keeps its position. */
  function Put<V>(o: Obj<V>, k: string, v: V): (r: Obj<V>)
    requires Valid(o)
    ensures Valid(r)
    ensures r.vals == o.vals[k := v]
    ensures k in o.vals ==> r.keys == o.keys
    ensures k !in o.vals ==> r.keys == o.keys + [k]
  {
    if k in o.vals then Obj(o.keys, o.vals[k := v]) else Obj(o.keys + [k], o.vals[k := v])
  }

  /** `o[k]`, None for `undefined`. */
  function Get<V>(o: Obj<V>, k: string): Option<V> {
    if k in o.vals then Some(o.vals[k]) else None
  }

  /** `Object.values(o)`. */
  function Values<V>(o: Obj<V>): (r: seq<V>)
    requires Valid(o)
    ensures |r| == |o.keys|
    ensures forall i :: 0 <= i < |r| ==> r[i] == o.vals[o.keys[i]]
  {
    seq(|o.keys|, i requires 0 <= i < |o.keys| && Valid(o) => o.vals[o.keys[i]])
  }

  lemma ValuesOfNewKey<V>(o: Obj<V>, k: string, v: V)
    requires Valid(o) && k !in o.vals
    ensures Values(Put(o, k, v)) == Values(o) + [v]
  {
    var r := Put(o, k, v);
    assert forall i :: 0 <= i < |o.keys| ==> o.keys[i] != k;
    assert Values(r) == Values(o) + [v];
  }
}

=== FILE: pair_v2.dfy ===
/** Pool lookup through the SDK fetcher (src/uniswap-v2/Pair.ts). */
module PairV2 {
  import opened Wrappers
  import opened Sdk
  import opened Utils
  import opened Pairs

  /** `Fetcher.fetchPairData(tokenA, tokenB)`; None when it throws. */
  type PairFetcher = (Token, Token) -> Option<Pair>

  /** The state of one requested pair (src/uniswap-v2/Pair.ts:23-41). */
  function FetchOneV2(currencies: (Option<Currency>, Option<Currency>), chainId: Option<ChainId>, env: SdkEnv, fetch: PairFetcher): (r: PairResult)
    ensures var ta := WrappedCurrency(currencies.0, chainId, env);
            var tb := WrappedCurrency(currencies.1, chainId, env);
            && (ta.None? || tb.None? || TokenEquals(ta.value, tb.value) ==> r == (NotExists, None))
            && (ta.Some? && tb.Some? && !TokenEquals(ta.value, tb.value) ==>
                 match fetch(ta.value, tb.value)
                 case None => r == (NotExists, None)
                 case Some(p) => (r.0 == Exists <==> !TokenEquals(p.token0, p.token1))
                                 && (r.0 == Exists ==> r.1 == Some(p))
                                 && (r.0 == Invalid <==> TokenEquals(p.token0, p.token1)))
    ensures r.0 == Exists <==> r.1.Some?
  {
    var ta := WrappedCurrency(currencies.0, chainId, env);
    var tb := WrappedCurrency(currencies.1, chainId, env);
    var fetched := if ta.Some? && tb.Some? && !TokenEquals(ta.value, tb.value) then fetch(ta.value, tb.value) else None;
    Classify(fetched)
  }

  /** `fetchPairs(currencies)`: one result per requested pair, in order. */
  function FetchPairsV2(currencies: seq<(Option<Currency>, Option<Currency>)>, chainId: Option<ChainId>, env: SdkEnv, fetch: PairFetcher): (r: seq<PairResult>)
    ensures |r| == |currencies|
    ensures forall i :: 0 <= i < |r| ==> r[i] == FetchOneV2(currencies[i], chainId, env, fetch)
  {
    seq(|currencies|, i requires 0 <= i < |currencies| => FetchOneV2(currencies[i], chainId, env, fetch))
  }

  /** `fetchPair(a, b)`: the only element of `fetchPairs([[a, b]])`. */
  function FetchPair(a: Option<Currency>, b: Option<Currency>, chainId: Option<ChainId>, env: SdkEnv, fetch: PairFetcher): (r: PairResult)
    ensures r == FetchPairsV2([(a, b)], chainId, env, fetch)[0]
  {
    FetchOneV2((a, b), chainId, env, fetch)
  }
}

=== FILE: pairs.dfy ===
/** Pool lookup for a list of currency pairs (src/Pairs.ts): each pair is
    wrapped, its reserves are read from the chain, and the result is
    classified as NOT_EXISTS, INVALID or EXISTS. */
module Pairs {
  import opened Wrappers
  import opened Sdk
  import opened Utils

  /** The pool contract's `getReserves()` for a token pair; None when the read throws. */
  type ReserveReader = (Token, Token) -> Option<(nat, nat)>

  /** A fetch result: the pool state and the pool, `null` being None. */
  type PairResult = (PairState, Option<Pair>)

  /** Classification of a fetched pool (src/Pairs.ts:42-48, and the same
      code in src/uniswap-v2/Pair.ts:36-42). */
  function Classify(fetched: Option<Pair>): (r: PairResult)
    ensures r.0 == Exists <==> fetched.Some? && !TokenEquals(fetched.value.token0, fetched.value.token1)
    ensures r.0 == NotExists <==> fetched.None?
    ensures r.0 == Exists ==> r.1 == fetched
    ensures r.0 != Exists ==> r.1 == None
  {
    match fetched
    case None => (NotExists, None)
    case Some(p) => if TokenEquals(p.token0, p.token1) then (Invalid, None) else (Exists, Some(p))
  }

  /** The body of the per-pair fetch (src/Pairs.ts:23-39): None stands for the
      `undefined` returned when a side cannot be wrapped, the tokens are
      equal, or anything inside the `try` throws. */
  function FetchReserves(ta: Option<Token>, tb: Option<Token>, env: SdkEnv, reserves: ReserveReader): Option<Pair> {
    if ta.Some? && tb.Some? && !TokenEquals(ta.value, tb.value) then
      match reserves(ta.value, tb.value)
      case None => None
      case Some(rs) =>
        match env.sortsBefore(ta.value, tb.value)
        case None => None
        case Some(before) =>
          var t0 := if before then ta.value else tb.value;
          var t1 := if before then tb.value else ta.value;
          Some(Pair(t0, t1, rs.0, rs.1, env.pairAddress(t0, t1)))
    else None
  }

  /** The state of one requested pair. */
  function FetchOne(currencies: (Option<Currency>, Option<Currency>), chainId: Option<ChainId>, env: SdkEnv, reserves: ReserveReader): (r: PairResult)
    ensures var ta := WrappedCurrency(currencies.0, chainId, env);
            var tb := WrappedCurrency(currencies.1, chainId, env);
            && (ta.None? || tb.None? || TokenEquals(ta.value, tb.value) ==> r == (NotExists, None))
            && (r.0 == Exists <==>
                 ta.Some? && tb.Some? && !TokenEquals(ta.value, tb.value)
                 && reserves(ta.value, tb.value).Some? && env.sortsBefore(ta.value, tb.value).Some?)
            && (r.0 == Exists ==>
                 var before := env.sortsBefore(ta.value, tb.value).value;
                 var rs := reserves(ta.value, tb.value).value;
                 && r.1.Some?
                 && r.1.value.token0 == (if before then ta.value else tb.value)
                 && r.1.value.token1 == (if before then tb.value else ta.value)
                 && r.1.value.reserve0 == rs.0 && r.1.value.reserve1 == rs.1)
    ensures r.0 != Invalid
    ensures r.0 == Exists ==> r.1.Some? && !TokenEquals(r.1.value.token0, r.1.value.token1)
    ensures r.0 != Exists ==> r.1 == None
  {
    var ta := WrappedCurrency(currencies.0, chainId, env);
    var tb := WrappedCurrency(currencies.1, chainId, env);
    Classify(FetchReserves(ta, tb, env, reserves))
  }

  /** `fetchPairs(currencies)`: one result per requested pair, in order. */
  function FetchPairs(currencies: seq<(Option<Currency>, Option<Currency>)>, chainId: Option<ChainId>, env: SdkEnv, reserves: ReserveReader): (r: seq<PairResult>)
    ensures |r| == |currencies|
    ensures forall i :: 0 <= i < |r| ==> r[i] == FetchOne(currencies[i], chainId, env, reserves)
  {
    seq(|currencies|, i requires 0 <= i < |currencies| => FetchOne(currencies[i], chainId, env, reserves))
  }

  /** An EXISTS result always carries a pool of two distinct tokens, and the
      other states carry none; INVALID never occurs here because equal tokens
      are rejected before any read. */
  lemma FetchPairsShape(currencies: seq<(Option<Currency>, Option<Currency>)>, chainId: Option<ChainId>, env: SdkEnv, reserves: ReserveReader)
    ensures forall res :: res in FetchPairs(currencies, chainId, env, reserves) ==>
              && res.0 != Invalid
              && (res.0 == Exists <==> res.1.Some?)
              && (res.1.Some? ==> !TokenEquals(res.1.value.token0, res.1.value.token1))
  {
    var r := FetchPairs(currencies, chainId, env, reserves);
    forall res | res in r
      ensures res.0 != Invalid && (res.0 == Exists <==> res.1.Some?)
      ensures res.1.Some? ==> !TokenEquals(res.1.value.token0, res.1.value.token1)
    {
      var i :| 0 <= i < |r| && r[i] == res;
    }
  }
}

=== FILE: sdk.dfy ===
/** The entities of the Uniswap SDK that the bot's decision logic works on.
    Amounts are raw integer units, prices are exact rationals (`real`), and
    the SDK computations the bot only calls are supplied as functions. */
module Sdk {
  import opened Wrappers

  /** The chains the SDK enumerates. */
  datatype ChainId = Mainnet | Ropsten | Rinkeby | Goerli | Kovan

  type Address = string

  datatype Token = Token(chainId: ChainId, address: Address, decimals: nat, symbol: string)

  /** A currency is the chain's native ether or an ERC-20 token. */
  datatype Currency = Ether | Erc20(token: Token)

  /** Precision of the SDK's `ETHER` currency. */
  const ETHER_DECIMALS: nat := 18

  function Decimals(c: Currency): nat {
    match c
    case Ether => ETHER_DECIMALS
    case Erc20(t) => t.decimals
  }

  /** 10^n: an amount with n decimals is its raw value over this. */
  function Pow10(n: nat): (p: nat)
    ensures p >= 1
  {
    if n == 0 then 1 else 10 * Pow10(n - 1)
  }

  /** `Token.equals`: same chain and same address. */
  predicate TokenEquals(a: Token, b: Token) {
    a.chainId == b.chainId && a.address == b.address
  }

  /** `currencyEquals`: tokens by `Token.equals`, ether only with ether. */
  predicate CurrencyEquals(a: Currency, b: Currency) {
    match (a, b)
    case (Erc20(x), Erc20(y)) => TokenEquals(x, y)
    case (Ether, Ether) => true
    case _ => false
  }

  datatype CurrencyAmount = CurrencyAmount(currency: Currency, raw: nat)

  /** A liquidity pool snapshot; `liquidityToken` is the address of the pool's
      liquidity token, which identifies the pool. */
  datatype Pair = Pair(token0: Token, token1: Token, reserve0: nat, reserve1: nat, liquidityToken: Address)

  datatype PairState = Loading | NotExists | Exists | Invalid

  datatype TradeType = ExactInput | ExactOutput

  /** A trade as the SDK's route search returns it; `executionPrice` is the raw
      output amount per raw input amount. */
  datatype Trade = Trade(tradeType: TradeType, inputAmount: CurrencyAmount, outputAmount: CurrencyAmount, executionPrice: real)

  /** SDK computations the modelled code calls but does not define:
      `WETH[chainId]`, `Token.sortsBefore` (None when its chain/address
      invariant throws) and the pool address of a sorted token pair. */
  datatype SdkEnv = SdkEnv(
    weth: ChainId -> Token,
    sortsBefore: (Token, Token) -> Option<bool>,
    pairAddress: (Token, Token) -> Address)

  /** The price `p` with `p · price · scaleIn == scaleOut`. */
  function ScaledInverse(price: real, scaleIn: nat, scaleOut: nat): (p: real)
    requires price != 0.0 && scaleIn >= 1
    ensures p * price * scaleIn as real == scaleOut as real
  {
    QuotientTimesDivisor(scaleOut as real, price, scaleIn as real);
    scaleOut as real / (price * scaleIn as real)
  }

  lemma QuotientTimesDivisor(o: real, e: real, i: real)
    requires e != 0.0 && i > 0.0
    ensures e * i != 0.0
    ensures (o / (e * i)) * e * i == o
  {
    var d := e * i;
    assert d != 0.0 by {
      if e > 0.0 { assert e * i > 0.0; } else { assert e * i < 0.0; }
    }
    assert (o / d) * d == o;
    assert (o / d) * e * i == (o / d) * d;
  }

  /** 10^decimals of a currency: one whole unit in raw units. */
  function Scale(c: Currency): (s: nat)
    ensures s >= 1
  {
    Pow10(Decimals(c))
  }

  /** `executionPrice.invert()` as the SDK prints it: input per output in
      whole units, that is the raw inverse scaled by 10^(output decimals) over
      10^(input decimals); `ScaledInverse` states what the value means. */
  function InvertedPrice(trade: Trade): real
    requires trade.executionPrice != 0.0
  {
    ScaledInverse(trade.executionPrice, Scale(trade.inputAmount.currency), Scale(trade.outputAmount.currency))
  }

  /** With equal scales on both sides the decimal adjustment cancels and the
      inverted price is the plain reciprocal. */
  lemma SameScaleInverse(price: real, scale: nat)
    requires price != 0.0 && scale >= 1
    ensures ScaledInverse(price, scale, scale) * price == 1.0
  {
    CancelFactor(ScaledInverse(price, scale, scale) * price, scale as real);
  }

  lemma CancelFactor(x: real, s: real)
    requires s > 0.0 && x * s == s
    ensures x == 1.0
  {
    assert (x - 1.0) * s == 0.0;
  }
}

=== FILE: seqs.dfy ===
/** Sequence helpers shared by the modules (`Array.prototype.filter`). */
module Seqs {

  /** The elements of `s` satisfying `f`, in order. */
  function Filter<T(!new)>(f: T -> bool, s: seq<T>): (r: seq<T>)
    ensures |r| <= |s|
    ensures forall x :: x in r <==> x in s && f(x)
  {
    if |s| == 0 then []
    else (if f(s[0]) then [s[0]] else []) + Filter(f, s[1..])
  }

  lemma AppendAssoc<T>(a: seq<T>, b: seq<T>, c: seq<T>)
    ensures (a + b) + c == a + (b + c)
  {
  }

  lemma {:induction false} FilterConcat<T(!new)>(f: T -> bool, a: seq<T>, b: seq<T>)
    ensures Filter(f, a + b) == Filter(f, a) + Filter(f, b)
  {
    if |a| == 0 {
      assert a + b == b;
    } else {
      assert (a + b)[0] == a[0];
      assert (a + b)[1..] == a[1..] + b;
      FilterConcat(f, a[1..], b);
    }
  }

  /** The last element kept by a filter is the last element of the input when
      that element passes the filter. */
  lemma {:induction false} FilterKeepsLast<T(!new)>(f: T -> bool, s: seq<T>)
    requires |s| > 0 && f(s[|s| - 1])
    ensures |Filter(f, s)| > 0 && Filter(f, s)[|Filter(f, s)| - 1] == s[|s| - 1]
  {
    var init := s[..|s| - 1];
    assert s == init + [s[|s| - 1]];
    FilterConcat(f, init, [s[|s| - 1]]);
    assert Filter(f, [s[|s| - 1]]) == [s[|s| - 1]] by {
      assert [s[|s| - 1]][1..] == [];
    }
  }
}

=== FILE: startup.dfy ===
/** Start-up (src/Main.ts): the bot is initialised from four settings and
    scheduled with a cron rule whose seconds step comes from the configured
    frequency. */
module Startup {
  import opened Wrappers
  import JsObject
  import Config

  /** `Math.floor(60 / frequency)`, raised to 1 when not positive. The
      frequency is non-zero: it is one of the settings that must be truthy. */
  function IntervalSeconds(frequency: real): (sec: nat)
    requires frequency != 0.0
    ensures sec >= 1
    ensures 0.0 < frequency <= 60.0 ==> sec as real <= 60.0 / frequency < sec as real + 1.0
    ensures frequency > 60.0 || frequency < 0.0 ==> sec == 1
  {
    var s := (60.0 / frequency).Floor;
    if s > 0 then s else 1
  }

  predicate IsDigit(c: char) {
    '0' <= c <= '9'
  }

  function DigitChar(d: nat): (c: char)
    requires d < 10
    ensures IsDigit(c)
  {
    ('0' as int + d) as char
  }

  function DigitValue(c: char): (d: nat)
    requires IsDigit(c)
    ensures d < 10 && DigitChar(d) == c
  {
    c as int - '0' as int
  }

  /** The decimal text of `n`, as a template literal prints it. */
  function NatToString(n: nat): (s: string)
    ensures |s| >= 1
    ensures forall i :: 0 <= i < |s| ==> IsDigit(s[i])
    decreases n
  {
    if n < 10 then [DigitChar(n)] else NatToString(n / 10) + [DigitChar(n % 10)]
  }

  function ParseDigits(s: string): nat
    requires forall i :: 0 <= i < |s| ==> IsDigit(s[i])
    decreases |s|
  {
    if |s| == 0 then 0 else 10 * ParseDigits(s[..|s| - 1]) + DigitValue(s[|s| - 1])
  }

  /** Decimal printing is undone by reading the digits back. */
  lemma {:induction false} ParseNatToString(n: nat)
    ensures ParseDigits(NatToString(n)) == n
    decreases n
  {
    var s := NatToString(n);
    if n < 10 {
      assert s[..0] == [];
    } else {
      ParseNatToString(n / 10);
      assert s[..|s| - 1] == NatToString(n / 10);
    }
  }

  /** The longest prefix of digits. */
  function TakeDigits(s: string): (d: string)
    ensures |d| <= |s| && d == s[..|d|]
    ensures forall i :: 0 <= i < |d| ==> IsDigit(d[i])
    ensures |d| < |s| ==> !IsDigit(s[|d|])
    decreases |s|
  {
    if |s| == 0 || !IsDigit(s[0]) then [] else [s[0]] + TakeDigits(s[1..])
  }

  const RULE_PREFIX: string := "*/"
  const RULE_SUFFIX: string := " * * * * *"

  /** The rule "star-slash <sec>" in the seconds field and stars elsewhere:
      every `sec` seconds. */
  function CronRule(sec: nat): (rule: string)
    ensures |rule| >= |RULE_PREFIX| + 1 + |RULE_SUFFIX|
    ensures rule[..|RULE_PREFIX|] == RULE_PREFIX
    ensures rule[|rule| - |RULE_SUFFIX|..] == RULE_SUFFIX
  {
    RULE_PREFIX + NatToString(sec) + RULE_SUFFIX
  }

  /** The step of the seconds field of a rule that starts with `RULE_PREFIX`. */
  function RuleSeconds(rule: string): Option<nat> {
    if |rule| < |RULE_PREFIX| || rule[..|RULE_PREFIX|] != RULE_PREFIX then None
    else
      var d := TakeDigits(rule[|RULE_PREFIX|..]);
      if |d| == 0 then None else Some(ParseDigits(d))
  }

  /** A digit run followed by a non-digit is read up to that character. */
  lemma {:induction false} TakeDigitsStops(d: string, rest: string)
    requires forall i :: 0 <= i < |d| ==> IsDigit(d[i])
    requires |rest| > 0 && !IsDigit(rest[0])
    ensures TakeDigits(d + rest) == d
    decreases |d|
  {
    if |d| == 0 {
      assert (d + rest)[0] == rest[0];
    } else {
      assert (d + rest)[0] == d[0];
      assert (d + rest)[1..] == d[1..] + rest;
      TakeDigitsStops(d[1..], rest);
    }
  }

  /** The rule schedules exactly the interval it was built from. */
  lemma RuleRoundTrip(sec: nat)
    ensures RuleSeconds(CronRule(sec)) == Some(sec)
  {
    var rule := CronRule(sec);
    var digits := NatToString(sec);
    assert rule[|RULE_PREFIX|..] == digits + RULE_SUFFIX;
    assert RULE_SUFFIX[0] == ' ';
    TakeDigitsStops(digits, RULE_SUFFIX);
    ParseNatToString(sec);
  }

  /** What `main` passes on: the arguments of `AutoSwap.init`, in order, and
      the schedule rule. */
  datatype Plan = Plan(inputToken: Config.Json, outputToken: Config.Json, amountPerTurn: Config.Json,
                       price: Config.Json, rule: string)

  /** A setting of the merged configuration; `undefined` is null here. */
  function Setting(c: JsObject.Obj<Config.Json>, name: string): (v: Config.Json)
    ensures name in c.vals ==> v == c.vals[name]
  {
    if name in c.vals then c.vals[name] else Config.JNull
  }

  /** `main` over the loaded configuration. None when the frequency setting is
      not a non-zero number: a text frequency is coerced by JavaScript, which
      is not modelled. */
  function MainPlan(c: JsObject.Obj<Config.Json>): (p: Option<Plan>)
    ensures p.Some? <==> Setting(c, "frequencySwappingPerSecond").JNum? && Setting(c, "frequencySwappingPerSecond").n != 0.0
    ensures p.Some? ==> && p.value.inputToken == Setting(c, "inputToken")
                        && p.value.outputToken == Setting(c, "outputToken")
                        && p.value.amountPerTurn == Setting(c, "amountInputTokenPerSwapTurn")
                        && p.value.price == Setting(c, "priceInputPerOutputToSwap")
                        && RuleSeconds(p.value.rule) == Some(IntervalSeconds(Setting(c, "frequencySwappingPerSecond").n))
  {
    match Setting(c, "frequencySwappingPerSecond")
    case JNum(f) =>
      if f == 0.0 then None
      else
        var sec := IntervalSeconds(f);
        RuleRoundTrip(sec);
        Some(Plan(Setting(c, "inputToken"), Setting(c, "outputToken"), Setting(c, "amountInputTokenPerSwapTurn"),
                  Setting(c, "priceInputPerOutputToSwap"), CronRule(sec)))
    case _ => None
  }

  /** A truthy number the file sets as the frequency survives the merge and
      yields a plan; without one, the default 15 gives a 4-second rule. */
  lemma MergedFrequency(file: JsObject.Obj<Config.Json>)
    ensures var name := "frequencySwappingPerSecond";
            var plan := MainPlan(Config.Merge(file));
            && (name in file.keys && name in file.vals && file.vals[name].JNum?
                && Config.Truthy(Config.Property(Config.JObj(file), name))
                ==> plan.Some?)
            && (name !in file.keys ==> plan.Some? && RuleSeconds(plan.value.rule) == Some(4))
  {
    var name := "frequencySwappingPerSecond";
    var merged := Config.Merge(file);
    Config.MergeOverridesDefaults(file, name);
    if name !in file.keys {
      assert Setting(merged, name) == Config.JNum(15.0);
      assert 60.0 / 15.0 == 4.0;
      assert IntervalSeconds(15.0) == 4;
    } else if name in file.vals {
      assert Setting(merged, name) == file.vals[name];
    }
  }
}

=== FILE: swap.dfy ===
/** Swap-call preparation and gas-estimate selection (src/Swap.ts). The
    router's parameter builder and the chain's estimate and dry-run calls are
    given as functions. */
module Swap {
  import opened Wrappers
  import opened Sdk
  import opened Seqs

  /** Options handed to `Router.swapCallParameters`. */
  datatype SwapOptions = SwapOptions(feeOnTransfer: bool, allowedSlippage: real, recipient: Address, deadline: int)

  /** The router method, its arguments and the optional hex `value`. */
  datatype SwapParameters = SwapParameters(methodName: string, args: seq<string>, value: Option<string>)

  /** `Router.swapCallParameters(trade, options)`. */
  type RouterParameters = (Trade, SwapOptions) -> SwapParameters

  /** Outcome of `callStatic` after a failed estimate: it returns, or it
      reverts with a reason (JavaScript's text for a missing reason included). */
  datatype StaticResult = Returned | Reverted(reason: string)

  /** The chain as the estimation sees it: `estimateGas[method](...args, options)`
      (None when it rejects) and `callStatic[method](...args, options)`;
      the options are the optional `value`. */
  datatype SwapChain = SwapChain(
    estimateGas: (SwapParameters, Option<string>) -> Option<nat>,
    callStatic: (SwapParameters, Option<string>) -> StaticResult)

  /** Everything the estimation reads besides the trade. */
  datatype SwapEnv = SwapEnv(
    recipient: Address, nowMs: int, deadlineMinutes: int, router: RouterParameters, chain: SwapChain)

  /** Default slippage tolerance, 5/1000. */
  const DEFAULT_SLIPPAGE: real := 5.0 / 1000.0

  /** `Math.floor(nowMs / 1000) + 60 * deadlineMinutes`: whole seconds of the
      current time, plus the window; the setting is taken as a whole number of
      minutes. */
  function Deadline(nowMs: int, deadlineMinutes: int): (d: int)
    ensures 1000 * (d - 60 * deadlineMinutes) <= nowMs < 1000 * (d - 60 * deadlineMinutes + 1)
  {
    nowMs / 1000 + 60 * deadlineMinutes
  }

  /** The two option sets of `getSwapCallArguments`, in order. */
  function CallOptions(slippage: real, env: SwapEnv): (r: seq<SwapOptions>)
    ensures |r| == 2
    ensures !r[0].feeOnTransfer && r[1].feeOnTransfer
    ensures forall i :: 0 <= i < 2 ==>
              && r[i].allowedSlippage == slippage
              && r[i].recipient == env.recipient
              && r[i].deadline == Deadline(env.nowMs, env.deadlineMinutes)
  {
    var deadline := Deadline(env.nowMs, env.deadlineMinutes);
    [SwapOptions(false, slippage, env.recipient, deadline), SwapOptions(true, slippage, env.recipient, deadline)]
  }

  /** `getSwapCallArguments(trade, allowedSlippage)`: the router parameters
      without, then with, fee-on-transfer support. */
  function GetSwapCallArguments(trade: Trade, slippage: real, env: SwapEnv): (r: seq<SwapParameters>)
    ensures |r| == 2
    ensures forall i :: 0 <= i < 2 ==> r[i] == env.router(trade, CallOptions(slippage, env)[i])
  {
    var opts := CallOptions(slippage, env);
    [env.router(trade, opts[0]), env.router(trade, opts[1])]
  }

  /** All characters of `s` are '0'. */
  function ZeroRun(s: string): (b: bool)
    ensures b <==> forall i :: 0 <= i < |s| ==> s[i] == '0'
  {
    if |s| == 0 then true else s[0] == '0' && ZeroRun(s[1..])
  }

  /** `isZero`: the text matches /^0x0*$/. */
  function IsZero(s: string): bool {
    |s| >= 2 && s[0] == '0' && s[1] == 'x' && ZeroRun(s[2..])
  }

  function Zeros(n: nat): (z: string)
    ensures |z| == n && forall i :: 0 <= i < n ==> z[i] == '0'
  {
    if n == 0 then "" else "0" + Zeros(n - 1)
  }

  /** The strings `isZero` accepts are exactly "0x" followed by zeros. */
  lemma IsZeroExactly(s: string)
    ensures IsZero(s) <==> exists n :: s == "0x" + Zeros(n)
  {
    if IsZero(s) {
      assert s == "0x" + Zeros(|s| - 2);
    }
  }

  /** The call options: `{}` when the value is missing, empty or zero,
      otherwise `{ value }`. */
  function EstimateOptions(value: Option<string>): (r: Option<string>)
    ensures r.Some? <==> value.Some? && value.value != "" && !IsZero(value.value)
    ensures r.Some? ==> r == value
  {
    if value.None? || value.value == "" || IsZero(value.value) then None else value
  }

  // Each message is written as its first word and the rest, so that the
  // verifier can tell the messages apart by their leading characters.
  const SLIPPAGE_MESSAGE: string := "This" + " transaction will not succeed either due to price movement or fee on transfer. Try increasing your slippage tolerance."
  const APPROVAL_MESSAGE: string := "User" + " must approve uniswap before use"
  const UNEXPECTED_ESTIMATE_MESSAGE: string := "Unexpected issue" + " with estimating the gas. Please try again."
  const NONE_THREW_MESSAGE: string := "Unexpected error" + ". Please contact support: none of the calls threw an error"
  const GENERIC_PREFIX: string := "The" + " transaction cannot succeed due to error: "
  const GENERIC_SUFFIX: string := ". This is probably an issue with one of the tokens you are swapping."

  /** The reasons the dry run's revert is classified by. */
  predicate SlippageReason(reason: string) {
    reason == "UniswapV2Router: INSUFFICIENT_OUTPUT_AMOUNT" || reason == "UniswapV2Router: EXCESSIVE_INPUT_AMOUNT"
  }

  predicate ApprovalReason(reason: string) {
    reason == "TransferHelper: TRANSFER_FROM_FAILED"
  }

  /** The message for any other reason: it names the reason. */
  function GenericMessage(reason: string): (m: string)
    ensures |m| == |GENERIC_PREFIX| + |reason| + |GENERIC_SUFFIX|
    ensures m[..|GENERIC_PREFIX|] == GENERIC_PREFIX
    ensures m[|GENERIC_PREFIX|..|GENERIC_PREFIX| + |reason|] == reason
    ensures m[0] == 'T' && m[1] == 'h' && m[2] == 'e'
  {
    var m := GENERIC_PREFIX + reason + GENERIC_SUFFIX;
    assert m[0] == GENERIC_PREFIX[0] && m[1] == GENERIC_PREFIX[1] && m[2] == GENERIC_PREFIX[2];
    m
  }

  /** The error message for a revert reason of the dry run: each known message
      comes from exactly its reasons, and every other reason is named. */
  function ReasonMessage(reason: string): (m: string)
    ensures m == SLIPPAGE_MESSAGE <==> SlippageReason(reason)
    ensures m == APPROVAL_MESSAGE <==> ApprovalReason(reason)
    ensures !SlippageReason(reason) && !ApprovalReason(reason) ==>
              |m| == |GENERIC_PREFIX| + |reason| + |GENERIC_SUFFIX| &&
              m[|GENERIC_PREFIX|..|GENERIC_PREFIX| + |reason|] == reason
    ensures m != UNEXPECTED_ESTIMATE_MESSAGE && m != NONE_THREW_MESSAGE
  {
    if SlippageReason(reason) then
      SLIPPAGE_MESSAGE
    else if ApprovalReason(reason) then
      APPROVAL_MESSAGE
    else
      var m := GenericMessage(reason);
      assert SLIPPAGE_MESSAGE[2] == 'i' && APPROVAL_MESSAGE[0] == 'U';
      assert UNEXPECTED_ESTIMATE_MESSAGE[0] == 'U' && NONE_THREW_MESSAGE[0] == 'U';
      assert APPROVAL_MESSAGE[1] == 's' && SLIPPAGE_MESSAGE[0] == 'T';
      m
  }

  /** Distinct unclassified reasons give distinct messages: the message
      determines the reason. */
  lemma GenericMessageDeterminesReason(r1: string, r2: string)
    requires !SlippageReason(r1) && !ApprovalReason(r1)
    requires !SlippageReason(r2) && !ApprovalReason(r2)
    requires ReasonMessage(r1) == ReasonMessage(r2)
    ensures r1 == r2
  {
    var m := ReasonMessage(r1);
    assert |m| == |GENERIC_PREFIX| + |r1| + |GENERIC_SUFFIX| == |GENERIC_PREFIX| + |r2| + |GENERIC_SUFFIX|;
  }

  /** One estimated call: its gas estimate and options, or its error message. */
  datatype Estimated =
    | Succeeded(call: SwapParameters, gasEstimate: nat, options: Option<string>)
    | Failed(call: SwapParameters, error: string)

  /** Estimate one call; on failure classify the dry run's outcome. */
  function EstimateCall(call: SwapParameters, chain: SwapChain): (r: Estimated)
    ensures r.call == call
    ensures r.Succeeded? <==> chain.estimateGas(call, EstimateOptions(call.value)).Some?
    ensures r.Succeeded? ==> r.gasEstimate == chain.estimateGas(call, EstimateOptions(call.value)).value
                             && r.options == EstimateOptions(call.value)
    ensures r.Failed? && chain.callStatic(call, EstimateOptions(call.value)) == Returned ==>
              r.error == UNEXPECTED_ESTIMATE_MESSAGE
    ensures r.Failed? && chain.callStatic(call, EstimateOptions(call.value)).Reverted? ==>
              r.error == ReasonMessage(chain.callStatic(call, EstimateOptions(call.value)).reason)
  {
    var options := EstimateOptions(call.value);
    match chain.estimateGas(call, options)
    case Some(gas) => Succeeded(call, gas, options)
    case None =>
      match chain.callStatic(call, options)
      case Returned => Failed(call, UNEXPECTED_ESTIMATE_MESSAGE)
      case Reverted(reason) => Failed(call, ReasonMessage(reason))
  }

  /** The chain requests made for one call: the estimate, and the dry run
      when the estimate fails. */
  datatype EstimateStep = EstimateGas(call: SwapParameters) | StaticCall(call: SwapParameters)

  function EstimateTrace(calls: seq<SwapParameters>, chain: SwapChain): seq<EstimateStep> {
    if |calls| == 0 then []
    else
      var c := calls[0];
      [EstimateGas(c)] + (if EstimateCall(c, chain).Failed? then [StaticCall(c)] else [])
      + EstimateTrace(calls[1..], chain)
  }

  /** The selection rule: a success whose successor also succeeded, or which is last. */
  predicate Selectable(es: seq<Estimated>, i: int)
    requires 0 <= i < |es|
  {
    es[i].Succeeded? && (i == |es| - 1 || es[i + 1].Succeeded?)
  }

  /** The first selectable index at or after `from` (`Array.prototype.find`). */
  function FindSelected(es: seq<Estimated>, from: nat): (r: Option<nat>)
    requires from <= |es|
    decreases |es| - from
    ensures r.Some? ==> from <= r.value < |es| && Selectable(es, r.value)
                        && forall j :: from <= j < r.value ==> !Selectable(es, j)
    ensures r.None? ==> forall j :: from <= j < |es| ==> !Selectable(es, j)
  {
    if from == |es| then None
    else if Selectable(es, from) then Some(from)
    else FindSelected(es, from + 1)
  }

  predicate IsFailed(e: Estimated) {
    e.Failed?
  }

  /** The selected estimate, or the error thrown: the last failed call's
      error, or the catch-all when no call failed. */
  function SelectEstimate(es: seq<Estimated>): (r: Result<Estimated, string>)
    ensures r.Success? <==> exists i :: 0 <= i < |es| && Selectable(es, i)
    ensures r.Success? ==> exists i :: 0 <= i < |es| && Selectable(es, i) && r.value == es[i]
                                       && forall j :: 0 <= j < i ==> !Selectable(es, j)
    ensures r.Failure? && |es| > 0 ==> es[|es| - 1].Failed? && r.error == es[|es| - 1].error
  {
    match FindSelected(es, 0)
    case Some(i) => Success(es[i])
    case None =>
      var errors := Filter(IsFailed, es);
      LastFailedKept(es);
      if |errors| > 0 then
        assert errors[|errors| - 1] in errors;
        Failure(errors[|errors| - 1].error)
      else
        Failure(NONE_THREW_MESSAGE)
  }

  /** When nothing is selectable the last call failed, so it is the last
      failed call. */
  lemma LastFailedKept(es: seq<Estimated>)
    requires FindSelected(es, 0).None?
    ensures |es| > 0 ==> |Filter(IsFailed, es)| > 0
                         && Filter(IsFailed, es)[|Filter(IsFailed, es)| - 1] == es[|es| - 1]
  {
    if |es| > 0 {
      assert !Selectable(es, |es| - 1);
      FilterKeepsLast(IsFailed, es);
    }
  }

  /** With two candidates: both succeed, the first is chosen; only the second
      succeeds, it is chosen; the second fails, its error is thrown even when
      the first succeeded. */
  lemma TwoCallSelection(es: seq<Estimated>)
    requires |es| == 2
    ensures es[0].Succeeded? && es[1].Succeeded? ==> SelectEstimate(es) == Success(es[0])
    ensures es[0].Failed? && es[1].Succeeded? ==> SelectEstimate(es) == Success(es[1])
    ensures es[1].Failed? ==> SelectEstimate(es) == Failure(es[1].error)
  {
    if es[1].Failed? {
      assert !Selectable(es, 0) && !Selectable(es, 1);
    }
  }

  /** A failed estimate never carries the catch-all message. */
  lemma EstimateErrorIsNotCatchAll(call: SwapParameters, chain: SwapChain)
    ensures EstimateCall(call, chain).Failed? ==> EstimateCall(call, chain).error != NONE_THREW_MESSAGE
  {
    assert UNEXPECTED_ESTIMATE_MESSAGE[11] == 'i' && NONE_THREW_MESSAGE[11] == 'e';
  }

  /** `estimateGasTrade(trade, allowedSlippage)`: the requests made and the
      selected estimate or the thrown error. */
  function EstimateGasTrade(trade: Trade, allowedSlippage: Option<real>, env: SwapEnv): (r: (seq<EstimateStep>, Result<Estimated, string>))
    ensures var calls := GetSwapCallArguments(trade, allowedSlippage.GetOr(DEFAULT_SLIPPAGE), env);
            var es := [EstimateCall(calls[0], env.chain), EstimateCall(calls[1], env.chain)];
            && r.0 == EstimateTrace(calls, env.chain)
            && (es[0].Succeeded? && es[1].Succeeded? ==> r.1 == Success(es[0]))
            && (es[0].Failed? && es[1].Succeeded? ==> r.1 == Success(es[1]))
            && (es[1].Failed? ==> r.1 == Failure(es[1].error))
    ensures r.1.Success? ==> r.1.value.Succeeded?
    ensures r.1.Failure? ==> r.1.error != NONE_THREW_MESSAGE
  {
    var calls := GetSwapCallArguments(trade, allowedSlippage.GetOr(DEFAULT_SLIPPAGE), env);
    var es := seq(|calls|, i requires 0 <= i < |calls| => EstimateCall(calls[i], env.chain));
    TwoCallSelection(es);
    EstimateErrorIsNotCatchAll(calls[1], env.chain);
    (EstimateTrace(calls, env.chain), SelectEstimate(es))
  }
}

=== FILE: token_list.dfy ===
/** Token resolution (src/Token.ts): the token lists turned into per-chain
    address tables, and `getToken`, which resolves a symbol through the
    default list or an address through the list and then the network. */
module TokenList {
  import opened Wrappers
  import opened Sdk
  import JsObject
  import Utils
  import Trades

  /** One entry of a token list file. */
  datatype TokenInfo = TokenInfo(chainId: ChainId, address: Address, decimals: nat, symbol: string, name: string)

  /** Chain id to address to token. */
  type TokenAddressMap = map<ChainId, JsObject.Obj<Token>>

  /** The chains of `EMPTY_LIST`: every chain the SDK names. */
  const ALL_CHAINS: set<ChainId> := {Kovan, Rinkeby, Ropsten, Goerli, Mainnet}

  ghost predicate WellFormed(m: TokenAddressMap) {
    && (forall c: ChainId :: c in m)
    && (forall c :: c in m ==> JsObject.Valid(m[c]))
  }

  /** The chain ids are exactly the five of `ALL_CHAINS`. */
  lemma AllChains()
    ensures forall c: ChainId :: c in ALL_CHAINS
  {
    forall c: ChainId
      ensures c in ALL_CHAINS
    {
      match c
      case Kovan =>
      case Rinkeby =>
      case Ropsten =>
      case Goerli =>
      case Mainnet =>
    }
  }

  /** `EMPTY_LIST`: an empty table for each chain. */
  function EmptyList(): (m: TokenAddressMap)
    ensures WellFormed(m)
    ensures m.Keys == ALL_CHAINS
    ensures forall c :: c in m ==> m[c].vals == map[]
  {
    var m: TokenAddressMap := map[Kovan := JsObject.Empty(), Rinkeby := JsObject.Empty(), Ropsten := JsObject.Empty(),
        Goerli := JsObject.Empty(), Mainnet := JsObject.Empty()];
    assert m.Keys == ALL_CHAINS;
    AllChains();
    m
  }

  function ToToken(info: TokenInfo): Token {
    Token(info.chainId, info.address, info.decimals, info.symbol)
  }

  /** One step of the `reduce`: the token is written at its chain and address. */
  function Store(m: TokenAddressMap, info: TokenInfo): (r: TokenAddressMap)
    requires WellFormed(m)
    ensures WellFormed(r)
    ensures r[info.chainId] == JsObject.Put(m[info.chainId], info.address, ToToken(info))
    ensures forall c :: c in m && c != info.chainId ==> r[c] == m[c]
  {
    m[info.chainId := JsObject.Put(m[info.chainId], info.address, ToToken(info))]
  }

  /** `listToTokenMap(list)`: the entries stored in list order. */
  function ListToTokenMap(tokens: seq<TokenInfo>): (m: TokenAddressMap)
    ensures WellFormed(m)
    decreases |tokens|
  {
    if |tokens| == 0 then EmptyList()
    else Store(ListToTokenMap(tokens[..|tokens| - 1]), tokens[|tokens| - 1])
  }

  predicate Names(info: TokenInfo, c: ChainId, addr: Address) {
    info.chainId == c && info.address == addr
  }

  /** `i` is the last entry for the chain and address. */
  predicate IsLastWith(tokens: seq<TokenInfo>, i: int, c: ChainId, addr: Address) {
    && 0 <= i < |tokens| && Names(tokens[i], c, addr)
    && forall j :: i < j < |tokens| ==> !Names(tokens[j], c, addr)
  }

  /** A lookup after one more entry: the entry's token at its own chain and
      address, the earlier table's answer everywhere else. */
  lemma GetAfterStore(m: TokenAddressMap, info: TokenInfo, c: ChainId, addr: Address)
    requires WellFormed(m)
    ensures JsObject.Get(Store(m, info)[c], addr)
            == if Names(info, c, addr) then Some(ToToken(info)) else JsObject.Get(m[c], addr)
  {
  }

  /** The list has an entry for the address on the chain. */
  predicate Listed(tokens: seq<TokenInfo>, c: ChainId, addr: Address) {
    exists i :: 0 <= i < |tokens| && Names(tokens[i], c, addr)
  }

  /** The token the table holds for an address, if any. */
  function Lookup(tokens: seq<TokenInfo>, c: ChainId, addr: Address): Option<Token> {
    JsObject.Get(ListToTokenMap(tokens)[c], addr)
  }

  /** The lookup after the list's last entry. */
  lemma LookupStep(tokens: seq<TokenInfo>, c: ChainId, addr: Address)
    requires |tokens| > 0
    ensures Lookup(tokens, c, addr)
            == if Names(tokens[|tokens| - 1], c, addr) then Some(ToToken(tokens[|tokens| - 1]))
               else Lookup(tokens[..|tokens| - 1], c, addr)
  {
    GetAfterStore(ListToTokenMap(tokens[..|tokens| - 1]), tokens[|tokens| - 1], c, addr);
  }

  /** A table holds an address exactly when the list has an entry for it on
      that chain. */
  lemma {:induction false} LookupPresent(tokens: seq<TokenInfo>, c: ChainId, addr: Address)
    ensures Lookup(tokens, c, addr).Some? <==> Listed(tokens, c, addr)
    decreases |tokens|
  {
    if |tokens| > 0 {
      LookupStep(tokens, c, addr);
      LookupPresent(tokens[..|tokens| - 1], c, addr);
      ListedStep(tokens, c, addr);
    }
  }

  /** An entry is listed when the last entry names it or an earlier one does. */
  lemma ListedStep(tokens: seq<TokenInfo>, c: ChainId, addr: Address)
    requires |tokens| > 0
    ensures Listed(tokens, c, addr) <==> Names(tokens[|tokens| - 1], c, addr) || Listed(tokens[..|tokens| - 1], c, addr)
  {
    var n := |tokens| - 1;
    var init := tokens[..n];
    if Listed(init, c, addr) {
      var i :| 0 <= i < |init| && Names(init[i], c, addr);
      assert Names(tokens[i], c, addr);
    }
    if Listed(tokens, c, addr) && !Names(tokens[n], c, addr) {
      var i :| 0 <= i < |tokens| && Names(tokens[i], c, addr);
      assert Names(init[i], c, addr);
    }
  }

  /** The last entry for an address in a prefix stays the last one when the
      entry appended after it names something else. */
  lemma IsLastStep(tokens: seq<TokenInfo>, i: int, c: ChainId, addr: Address)
    requires |tokens| > 0 && !Names(tokens[|tokens| - 1], c, addr)
    requires IsLastWith(tokens[..|tokens| - 1], i, c, addr)
    ensures IsLastWith(tokens, i, c, addr)
  {
    assert forall j :: i < j < |tokens| - 1 ==> tokens[j] == tokens[..|tokens| - 1][j];
  }

  /** The token held for an address is the one of the list's last entry for it. */
  lemma {:induction false} LookupIsLast(tokens: seq<TokenInfo>, c: ChainId, addr: Address)
    requires Lookup(tokens, c, addr).Some?
    ensures exists i :: IsLastWith(tokens, i, c, addr) && Lookup(tokens, c, addr).value == ToToken(tokens[i])
    decreases |tokens|
  {
    LookupPresent(tokens, c, addr);
    var n := |tokens| - 1;
    var init := tokens[..n];
    LookupStep(tokens, c, addr);
    if Names(tokens[n], c, addr) {
      assert IsLastWith(tokens, n, c, addr);
    } else {
      LookupIsLast(init, c, addr);
      var i :| IsLastWith(init, i, c, addr) && Lookup(init, c, addr).value == ToToken(init[i]);
      IsLastStep(tokens, i, c, addr);
    }
  }

  /** ASCII `toUpperCase`. */
  function UpperChar(ch: char): char {
    if 'a' <= ch <= 'z' then (ch as int - 32) as char else ch
  }

  function Upper(s: string): (r: string)
    ensures |r| == |s| && forall i :: 0 <= i < |s| ==> r[i] == UpperChar(s[i])
  {
    seq(|s|, i requires 0 <= i < |s| => UpperChar(s[i]))
  }

  predicate IsLowerChar(ch: char) {
    'a' <= ch <= 'z'
  }

  /** Upper-cased text holds no lower-case ASCII letter. */
  lemma UpperHasNoLower(s: string)
    ensures forall i :: 0 <= i < |Upper(s)| ==> !IsLowerChar(Upper(s)[i])
  {
  }

  /** The first token with the symbol, by index (`Array.prototype.find`). */
  function FindSymbol(ts: seq<Token>, symbol: string, from: nat): (r: Option<nat>)
    requires from <= |ts|
    decreases |ts| - from
    ensures r.Some? ==> from <= r.value < |ts| && ts[r.value].symbol == symbol
                        && forall j :: from <= j < r.value ==> ts[j].symbol != symbol
    ensures r.None? ==> forall j :: from <= j < |ts| ==> ts[j].symbol != symbol
  {
    if from == |ts| then None
    else if ts[from].symbol == symbol then Some(from)
    else FindSymbol(ts, symbol, from + 1)
  }

  /** `getToken(address)` with the configured chain: whether the network was
      asked (`Fetcher.fetchTokenData`), and the token, null, or a thrown
      error when the configured chain has no table. */
  function GetToken(address: string, chainId: Option<ChainId>, defaults: seq<TokenInfo>, isAddress: string -> bool, fetchTokenData: (ChainId, Address) -> Option<Token>)
    : (r: (bool, Result<Option<Token>, string>))
    ensures chainId.None? ==> r == (false, Failure("no token table for the configured chain"))
    ensures chainId.Some? && !isAddress(address) ==>
              && !r.0 && r.1.Success?
              && var table := ListToTokenMap(defaults)[chainId.value];
                 var values := JsObject.Values(table);
                 (r.1.value.Some? <==> exists j :: 0 <= j < |values| && values[j].symbol == Upper(address))
                 && (r.1.value.Some? ==>
                       && r.1.value.value.symbol == Upper(address)
                       && exists i :: 0 <= i < |values| && values[i] == r.1.value.value
                                      && forall j :: 0 <= j < i ==> values[j].symbol != Upper(address))
    ensures chainId.Some? && isAddress(address) ==>
              var listed := JsObject.Get(ListToTokenMap(defaults)[chainId.value], address);
              && (listed.Some? ==> r == (false, Success(listed)))
              && (listed.None? ==> r == (true, Success(fetchTokenData(chainId.value, address))))
  {
    match chainId
    case None => (false, Failure("no token table for the configured chain"))
    case Some(c) =>
      var table := ListToTokenMap(defaults)[c];
      if !isAddress(address) then
        var values := JsObject.Values(table);
        match FindSymbol(values, Upper(address), 0)
        case Some(i) => (false, Success(Some(values[i])))
        case None => (false, Success(None))
      else
        match JsObject.Get(table, address)
        case Some(t) => (false, Success(Some(t)))
        case None => (true, Success(fetchTokenData(c, address)))
  }

  /** A listed token whose symbol has a lower-case letter is never found by
      symbol: the query is upper-cased before the exact comparison. */
  lemma LowerCaseSymbolUnreachable(address: string, c: ChainId, defaults: seq<TokenInfo>, isAddress: string -> bool, fetchTokenData: (ChainId, Address) -> Option<Token>, k: nat)
    requires !isAddress(address)
    requires GetToken(address, Some(c), defaults, isAddress, fetchTokenData).1.value.Some?
    requires k < |GetToken(address, Some(c), defaults, isAddress, fetchTokenData).1.value.value.symbol|
    ensures !IsLowerChar(GetToken(address, Some(c), defaults, isAddress, fetchTokenData).1.value.value.symbol[k])
  {
    var t := GetToken(address, Some(c), defaults, isAddress, fetchTokenData).1.value.value;
    assert t.symbol == Upper(address);
    assert t.symbol[k] == UpperChar(address[k]);
  }

  /** A listed address is answered from the list, with the last entry for it,
      and without a network request. */
  lemma ListedAddressNeedsNoFetch(address: string, c: ChainId, defaults: seq<TokenInfo>, isAddress: string -> bool, fetchTokenData: (ChainId, Address) -> Option<Token>, i: nat)
    requires isAddress(address)
    requires IsLastWith(defaults, i, c, address)
    ensures GetToken(address, Some(c), defaults, isAddress, fetchTokenData) == (false, Success(Some(ToToken(defaults[i]))))
  {
    LookupPresent(defaults, c, address);
    LookupIsLast(defaults, c, address);
    var k :| IsLastWith(defaults, k, c, address) && Lookup(defaults, c, address).value == ToToken(defaults[k]);
    assert k == i;
  }

  /** With the unsupported list as its table, a trade is flagged exactly when
      the list has an entry, on the configured chain, for the wrapped input
      or output token. */
  lemma UnsupportedMeansListed(currencyIn: Option<Currency>, currencyOut: Option<Currency>, c: ChainId, env: SdkEnv, unsupported: seq<TokenInfo>)
    ensures var tin := Utils.WrappedCurrency(currencyIn, Some(c), env);
            var tout := Utils.WrappedCurrency(currencyOut, Some(c), env);
            Trades.IsTransactionUnsupported(currencyIn, currencyOut, Some(c), env, ListToTokenMap(unsupported))
            <==> || (tin.Some? && Listed(unsupported, c, tin.value.address))
                 || (tout.Some? && Listed(unsupported, c, tout.value.address))
  {
    var tin := Utils.WrappedCurrency(currencyIn, Some(c), env);
    var tout := Utils.WrappedCurrency(currencyOut, Some(c), env);
    var table := ListToTokenMap(unsupported)[c];
    if tin.Some? {
      LookupPresent(unsupported, c, tin.value.address);
      assert tin.value.address in table.keys <==> tin.value.address in table.vals;
    }
    if tout.Some? {
      LookupPresent(unsupported, c, tout.value.address);
      assert tout.value.address in table.keys <==> tout.value.address in table.vals;
    }
  }
}

=== FILE: trades.dfy ===
/** Trade selection (src/Trades.ts): the candidate pools between two
    currencies, the comparator that decides whether one trade beats another,
    and the search over 1 to MAX_HOPS hops. The SDK's route search is given
    as an oracle returning the best trade for a hop bound. */
module Trades {
  import opened Wrappers
  import opened Sdk
  import opened Seqs
  import opened Utils
  import opened Pairs
  import JsObject

  /** The values of the bot's constants module that the selection reads. */
  datatype RoutingTables = RoutingTables(
    bases: ChainId -> seq<Token>,                        // BASES_TO_CHECK_TRADES_AGAINST
    customBases: map<ChainId, map<Address, seq<Token>>>, // CUSTOM_BASES
    lessHopsThreshold: real,                             // BETTER_TRADE_LESS_HOPS_THRESHOLD
    oneHundredPercent: real)                             // ONE_HUNDRED_PERCENT

  /** The configured chain, the SDK functions, the constants and the reserve reads. */
  datatype RouteEnv = RouteEnv(chainId: Option<ChainId>, sdk: SdkEnv, tables: RoutingTables, reserves: ReserveReader)

  type TokenPair = (Token, Token)

  // ---------------------------------------------------------------------------
  // Candidate enumeration

  predicate DifferentAddresses(p: TokenPair) {
    p.0.address != p.1.address
  }

  /** `[t, b]` for each `b` of `bases`, in order. */
  function PairWithEach(t: Token, bases: seq<Token>): (r: seq<TokenPair>)
    ensures |r| == |bases|
    ensures forall i :: 0 <= i < |r| ==> r[i] == (t, bases[i])
  {
    if |bases| == 0 then [] else [(t, bases[0])] + PairWithEach(t, bases[1..])
  }

  /** Every row token against every base, row by row (the nested `map`). */
  function Cross(rows: seq<Token>, bases: seq<Token>): seq<TokenPair> {
    if |rows| == 0 then [] else PairWithEach(rows[0], bases) + Cross(rows[1..], bases)
  }

  lemma {:induction false} CrossMembers(rows: seq<Token>, bases: seq<Token>)
    ensures forall p :: p in Cross(rows, bases) <==> p.0 in rows && p.1 in bases
  {
    if |rows| > 0 {
      CrossMembers(rows[1..], bases);
      assert forall p :: p in PairWithEach(rows[0], bases) <==> p.0 == rows[0] && p.1 in bases by {
        forall p: TokenPair | p.0 == rows[0] && p.1 in bases
          ensures p in PairWithEach(rows[0], bases)
        {
          var i :| 0 <= i < |bases| && bases[i] == p.1;
          assert PairWithEach(rows[0], bases)[i] == p;
        }
      }
      assert forall t :: t in rows <==> t == rows[0] || t in rows[1..] by {
        assert rows == [rows[0]] + rows[1..];
      }
    }
  }

  /** `basePairs` (src/Trades.ts:23-27): ordered pairs of bases whose addresses differ. */
  function BasePairs(bases: seq<Token>): (r: seq<TokenPair>)
    ensures forall p :: p in r <==> p.0 in bases && p.1 in bases && p.0.address != p.1.address
  {
    CrossMembers(bases, bases);
    Filter(DifferentAddresses, Cross(bases, bases))
  }

  ghost predicate DistinctAddresses(ts: seq<Token>) {
    forall i, j :: 0 <= i < j < |ts| ==> ts[i].address != ts[j].address
  }

  /** How many tokens of `ts` have address `a`. */
  function CountAddress(a: Address, ts: seq<Token>): nat {
    if |ts| == 0 then 0 else (if ts[0].address == a then 1 else 0) + CountAddress(a, ts[1..])
  }

  lemma {:induction false} CountAbsent(a: Address, ts: seq<Token>)
    requires forall t :: t in ts ==> t.address != a
    ensures CountAddress(a, ts) == 0
  {
    if |ts| > 0 {
      assert ts[0] in ts;
      CountAbsent(a, ts[1..]);
    }
  }

  lemma {:induction false} CountOnce(ts: seq<Token>, k: nat)
    requires DistinctAddresses(ts) && k < |ts|
    ensures CountAddress(ts[k].address, ts) == 1
  {
    if k == 0 {
      forall t | t in ts[1..] ensures t.address != ts[0].address {
        var j :| 0 <= j < |ts[1..]| && ts[1..][j] == t;
        assert ts[j + 1] == t;
      }
      CountAbsent(ts[0].address, ts[1..]);
    } else {
      assert ts[0].address != ts[k].address;
      assert ts[1..][k - 1] == ts[k];
      CountOnce(ts[1..], k - 1);
    }
  }

  lemma {:induction false} RowCount(t: Token, bases: seq<Token>)
    ensures |Filter(DifferentAddresses, PairWithEach(t, bases))| == |bases| - CountAddress(t.address, bases)
  {
    if |bases| > 0 {
      var row := PairWithEach(t, bases);
      assert row == [(t, bases[0])] + PairWithEach(t, bases[1..]);
      FilterConcat(DifferentAddresses, [(t, bases[0])], PairWithEach(t, bases[1..]));
      assert Filter(DifferentAddresses, [(t, bases[0])]) == (if bases[0].address != t.address then [(t, bases[0])] else []) by {
        assert [(t, bases[0])][1..] == [];
      }
      RowCount(t, bases[1..]);
    }
  }

  lemma {:induction false} CrossCount(rows: seq<Token>, bases: seq<Token>)
    requires forall i :: 0 <= i < |rows| ==> CountAddress(rows[i].address, bases) == 1
    ensures |Filter(DifferentAddresses, Cross(rows, bases))| == |rows| * (|bases| - 1)
  {
    if |rows| > 0 {
      FilterConcat(DifferentAddresses, PairWithEach(rows[0], bases), Cross(rows[1..], bases));
      RowCount(rows[0], bases);
      forall i | 0 <= i < |rows[1..]| ensures CountAddress(rows[1..][i].address, bases) == 1 {
        assert rows[1..][i] == rows[i + 1];
      }
      CrossCount(rows[1..], bases);
      assert |rows| * (|bases| - 1) == (|bases| - 1) + (|rows| - 1) * (|bases| - 1);
    }
  }

  /** With n bases of pairwise different addresses there are n·(n−1) base pairs. */
  lemma BasePairsCount(bases: seq<Token>)
    requires DistinctAddresses(bases)
    ensures |BasePairs(bases)| == |bases| * (|bases| - 1)
  {
    forall i | 0 <= i < |bases| ensures CountAddress(bases[i].address, bases) == 1 {
      CountOnce(bases, i);
    }
    CrossCount(bases, bases);
  }

  /** `customBases[address]`'s list contains a token equal to `t`. */
  predicate ListHas(list: seq<Token>, t: Token) {
    exists i :: 0 <= i < |list| && TokenEquals(t, list[i])
  }

  /** The custom-base filter (src/Trades.ts:43-57) for the chain's table, if any. */
  predicate CustomBasesAllow(custom: Option<map<Address, seq<Token>>>, p: TokenPair) {
    match custom
    case None => true
    case Some(cb) =>
      var hasA := p.0.address in cb;
      var hasB := p.1.address in cb;
      if !hasA && !hasB then true
      else if hasA && !ListHas(cb[p.0.address], p.1) then false
      else if hasB && !ListHas(cb[p.1.address], p.0) then false
      else true
  }

  /** A token with a custom list may only pair with a token on that list,
      in both directions; tokens without a list pass. */
  lemma CustomBaseRule(cb: map<Address, seq<Token>>, p: TokenPair)
    ensures CustomBasesAllow(Some(cb), p) <==>
              && (p.0.address in cb ==> ListHas(cb[p.0.address], p.1))
              && (p.1.address in cb ==> ListHas(cb[p.1.address], p.0))
  {
  }

  /** The candidate list before filtering: the direct pair, A against every
      base, B against every base, then the base pairs. */
  function RawCombinations(a: Token, b: Token, bases: seq<Token>): seq<TokenPair> {
    [(a, b)] + PairWithEach(a, bases) + PairWithEach(b, bases) + BasePairs(bases)
  }

  /** Where each candidate sits in the unfiltered list. */
  lemma RawCombinationsLayout(a: Token, b: Token, bases: seq<Token>)
    ensures var raw := RawCombinations(a, b, bases);
            var n := |bases|;
            && |raw| == 1 + 2 * n + |BasePairs(bases)|
            && raw[0] == (a, b)
            && (forall i :: 0 <= i < n ==> raw[1 + i] == (a, bases[i]) && raw[1 + n + i] == (b, bases[i]))
            && raw[1 + 2 * n..] == BasePairs(bases)
  {
    var n := |bases|;
    var head, rowA, rowB, tail := [(a, b)], PairWithEach(a, bases), PairWithEach(b, bases), BasePairs(bases);
    var raw := RawCombinations(a, b, bases);
    assert raw == ((head + rowA) + rowB) + tail;
    var front := (head + rowA) + rowB;
    assert |front| == 1 + 2 * n;
    assert raw[..1 + 2 * n] == front && raw[1 + 2 * n..] == tail;
    forall i | 0 <= i < n ensures raw[1 + i] == (a, bases[i]) && raw[1 + n + i] == (b, bases[i]) {
      assert raw[1 + i] == front[1 + i] == (head + rowA)[1 + i] == rowA[i];
      assert raw[1 + n + i] == front[1 + n + i] == rowB[i];
    }
  }

  function ChainBases(chainId: Option<ChainId>, tables: RoutingTables): seq<Token> {
    if chainId.Some? then tables.bases(chainId.value) else []
  }

  function ChainCustomBases(chainId: Option<ChainId>, tables: RoutingTables): Option<map<Address, seq<Token>>> {
    if chainId.Some? && chainId.value in tables.customBases then Some(tables.customBases[chainId.value]) else None
  }

  /** `allPairCombinations` (src/Trades.ts:17-58). */
  function PairCombinations(currencyA: Option<Currency>, currencyB: Option<Currency>, renv: RouteEnv): (r: seq<TokenPair>)
    ensures var ta := if renv.chainId.Some? then WrappedCurrency(currencyA, renv.chainId, renv.sdk) else None;
            var tb := if renv.chainId.Some? then WrappedCurrency(currencyB, renv.chainId, renv.sdk) else None;
            && (ta.None? || tb.None? ==> r == [])
            && (ta.Some? && tb.Some? ==>
                  forall p :: p in r <==>
                    && p in RawCombinations(ta.value, tb.value, ChainBases(renv.chainId, renv.tables))
                    && p.0.address != p.1.address
                    && CustomBasesAllow(ChainCustomBases(renv.chainId, renv.tables), p))
    ensures forall p :: p in r ==> p.0.address != p.1.address
  {
    var bases := ChainBases(renv.chainId, renv.tables);
    var ta := if renv.chainId.Some? then WrappedCurrency(currencyA, renv.chainId, renv.sdk) else None;
    var tb := if renv.chainId.Some? then WrappedCurrency(currencyB, renv.chainId, renv.sdk) else None;
    if ta.Some? && tb.Some? then
      var custom := ChainCustomBases(renv.chainId, renv.tables);
      Filter(p => CustomBasesAllow(custom, p), Filter(DifferentAddresses, RawCombinations(ta.value, tb.value, bases)))
    else []
  }

  // ---------------------------------------------------------------------------
  // De-duplication of the fetched pools

  /** The pools of the EXISTS results, in order. */
  function ExistingPairs(results: seq<PairResult>): (r: seq<Pair>)
    ensures forall p :: p in r <==> (Exists, Some(p)) in results
  {
    if |results| == 0 then []
    else
      var head := if results[0].0 == Exists && results[0].1.Some? then [results[0].1.value] else [];
      assert forall x :: x in results <==> x == results[0] || x in results[1..];
      head + ExistingPairs(results[1..])
  }

  /** One step of the `reduce` (src/Trades.ts:68-71): `memo[a] = memo[a] ?? pair`. */
  function DedupStep(memo: JsObject.Obj<Pair>, p: Pair): (r: JsObject.Obj<Pair>)
    requires JsObject.Valid(memo)
    ensures JsObject.Valid(r)
    ensures p.liquidityToken in memo.vals ==> r == memo
    ensures p.liquidityToken !in memo.vals ==> r == JsObject.Put(memo, p.liquidityToken, p)
    ensures r.vals.Keys == memo.vals.Keys + {p.liquidityToken}
  {
    var a := p.liquidityToken;
    assert a in memo.vals ==> memo.vals[a := memo.vals[a]] == memo.vals;
    JsObject.Put(memo, a, JsObject.Get(memo, a).GetOr(p))
  }

  function DedupFold(memo: JsObject.Obj<Pair>, ps: seq<Pair>): (r: JsObject.Obj<Pair>)
    requires JsObject.Valid(memo)
    ensures JsObject.Valid(r)
    decreases |ps|
  {
    if |ps| == 0 then memo else DedupFold(DedupStep(memo, ps[0]), ps[1..])
  }

  /** Reference definition: keep each pool whose address was not seen before. */
  function KeepFirst(ps: seq<Pair>, seen: set<Address>): seq<Pair> {
    if |ps| == 0 then []
    else if ps[0].liquidityToken in seen then KeepFirst(ps[1..], seen)
    else [ps[0]] + KeepFirst(ps[1..], seen + {ps[0].liquidityToken})
  }

  /** Kept pools come from the input and have unseen addresses. */
  lemma {:induction false} KeepFirstSound(ps: seq<Pair>, seen: set<Address>)
    ensures forall x :: x in KeepFirst(ps, seen) ==> x in ps && x.liquidityToken !in seen
  {
    if |ps| > 0 {
      var a := ps[0].liquidityToken;
      if a in seen {
        KeepFirstSound(ps[1..], seen);
      } else {
        KeepFirstSound(ps[1..], seen + {a});
      }
    }
  }

  /** No two pools of `r` share an address. */
  ghost predicate DistinctPools(r: seq<Pair>) {
    forall i, j :: 0 <= i < j < |r| ==> r[i].liquidityToken != r[j].liquidityToken
  }

  /** No two kept pools share an address. */
  lemma {:induction false} KeepFirstDistinct(ps: seq<Pair>, seen: set<Address>)
    ensures DistinctPools(KeepFirst(ps, seen))
  {
    if |ps| > 0 {
      var a := ps[0].liquidityToken;
      if a in seen {
        assert KeepFirst(ps, seen) == KeepFirst(ps[1..], seen);
        KeepFirstDistinct(ps[1..], seen);
      } else {
        var rest := KeepFirst(ps[1..], seen + {a});
        assert KeepFirst(ps, seen) == [ps[0]] + rest;
        KeepFirstDistinct(ps[1..], seen + {a});
        KeepFirstSound(ps[1..], seen + {a});
        var r := [ps[0]] + rest;
        forall i, j | 0 <= i < j < |r| ensures r[i].liquidityToken != r[j].liquidityToken {
          if i == 0 {
            assert r[j] == rest[j - 1] && rest[j - 1] in rest;
          } else {
            assert r[i] == rest[i - 1] && r[j] == rest[j - 1];
          }
        }
      }
    }
  }

  /** Every address of the input that was not seen before is kept. */
  lemma {:induction false} KeepFirstComplete(ps: seq<Pair>, seen: set<Address>)
    ensures forall k :: 0 <= k < |ps| && ps[k].liquidityToken !in seen ==>
              exists x :: x in KeepFirst(ps, seen) && x.liquidityToken == ps[k].liquidityToken
  {
    if |ps| > 0 {
      var a := ps[0].liquidityToken;
      var seen' := if a in seen then seen else seen + {a};
      KeepFirstComplete(ps[1..], seen');
      var r := KeepFirst(ps, seen);
      forall k | 0 <= k < |ps| && ps[k].liquidityToken !in seen
        ensures exists x :: x in r && x.liquidityToken == ps[k].liquidityToken
      {
        if ps[k].liquidityToken == a {
          assert r[0] == ps[0];
        } else {
          assert ps[1..][k - 1] == ps[k];
          var x :| x in KeepFirst(ps[1..], seen') && x.liquidityToken == ps[k].liquidityToken;
          assert x in r;
        }
      }
    }
  }

  /** The pool at index `i` is the first with its address. */
  ghost predicate FirstAt(ps: seq<Pair>, i: int)
    requires 0 <= i < |ps|
  {
    forall j :: 0 <= j < i ==> ps[j].liquidityToken != ps[i].liquidityToken
  }

  /** `x` occurs in `ps` at an index where its address occurs first. */
  ghost predicate OccursFirst(ps: seq<Pair>, x: Pair) {
    exists i :: 0 <= i < |ps| && ps[i] == x && FirstAt(ps, i)
  }

  /** Each pool of `r` is the first occurrence of its address in `ps`. */
  ghost predicate AllFirst(ps: seq<Pair>, r: seq<Pair>) {
    forall k :: 0 <= k < |r| ==> OccursFirst(ps, r[k])
  }

  /** Every kept pool is the first occurrence of its address. */
  lemma {:induction false} KeepFirstKeepsFirst(ps: seq<Pair>, seen: set<Address>)
    ensures AllFirst(ps, KeepFirst(ps, seen))
  {
    var r := KeepFirst(ps, seen);
    if |ps| > 0 {
      var a := ps[0].liquidityToken;
      var seen' := if a in seen then seen else seen + {a};
      var rest := KeepFirst(ps[1..], seen');
      assert r == if a in seen then rest else [ps[0]] + rest;
      KeepFirstKeepsFirst(ps[1..], seen');
      KeepFirstSound(ps[1..], seen');
      forall k | 0 <= k < |r|
        ensures OccursFirst(ps, r[k])
      {
        if a !in seen && k == 0 {
          assert ps[0] == r[0] && FirstAt(ps, 0);
          assert OccursFirst(ps, r[k]);
        } else {
          var k' := if a in seen then k else k - 1;
          assert r[k] == rest[k'];
          assert OccursFirst(ps[1..], rest[k']);
          var i' :| 0 <= i' < |ps[1..]| && ps[1..][i'] == rest[k'] && FirstAt(ps[1..], i');
          assert rest[k'] in rest;
          assert ps[i' + 1] == r[k];
          assert r[k].liquidityToken != a;
          assert FirstAt(ps, i' + 1) by {
            forall j | 0 <= j < i' + 1 ensures ps[j].liquidityToken != ps[i' + 1].liquidityToken {
              if j > 0 { assert ps[j] == ps[1..][j - 1]; }
            }
          }
          assert OccursFirst(ps, r[k]);
        }
      }
      assert AllFirst(ps, r);
    }
  }

  /** Folding into the memo object and reading `Object.values` back yields
      exactly the first occurrences, in input order. */
  lemma {:induction false} DedupFoldIsKeepFirst(memo: JsObject.Obj<Pair>, ps: seq<Pair>)
    requires JsObject.Valid(memo)
    ensures JsObject.Values(DedupFold(memo, ps)) == JsObject.Values(memo) + KeepFirst(ps, memo.vals.Keys)
    decreases |ps|
  {
    if |ps| > 0 {
      var a := ps[0].liquidityToken;
      var seen := memo.vals.Keys;
      var next := DedupStep(memo, ps[0]);
      var rest := KeepFirst(ps[1..], next.vals.Keys);
      assert DedupFold(memo, ps) == DedupFold(next, ps[1..]);
      DedupFoldIsKeepFirst(next, ps[1..]);
      if a in seen {
        assert KeepFirst(ps, seen) == rest;
      } else {
        JsObject.ValuesOfNewKey(memo, a, ps[0]);
        assert KeepFirst(ps, seen) == [ps[0]] + rest;
        Seqs.AppendAssoc(JsObject.Values(memo), [ps[0]], rest);
      }
    }
  }

  /** The pools fetched for the candidates of two currencies that exist. */
  function CandidatePools(currencyA: Option<Currency>, currencyB: Option<Currency>, renv: RouteEnv): seq<Pair> {
    ExistingPairs(FetchPairs(AsCurrencies(PairCombinations(currencyA, currencyB, renv)), renv.chainId, renv.sdk, renv.reserves))
  }

  /** `useAllCommonPairs(currencyA, currencyB)`: folding the existing pools
      into an object keyed by pool address and reading its values back is
      exactly keeping the first pool of each address, in candidate order. */
  function AllCommonPairs(currencyA: Option<Currency>, currencyB: Option<Currency>, renv: RouteEnv): (r: seq<Pair>)
    ensures r == KeepFirst(CandidatePools(currencyA, currencyB, renv), {})
  {
    var existing := CandidatePools(currencyA, currencyB, renv);
    var empty: JsObject.Obj<Pair> := JsObject.Empty();
    var memo := DedupFold(empty, existing);
    DedupFoldIsKeepFirst(empty, existing);
    assert JsObject.Values(empty) == [] && empty.vals.Keys == {};
    JsObject.Values(memo)
  }

  /** The returned pools are existing candidate pools, one per address, and
      every existing candidate's address is represented. */
  lemma AllCommonPairsSpec(currencyA: Option<Currency>, currencyB: Option<Currency>, renv: RouteEnv)
    ensures var existing := CandidatePools(currencyA, currencyB, renv);
            var r := AllCommonPairs(currencyA, currencyB, renv);
            && (forall x :: x in r ==> x in existing)
            && DistinctPools(r)
            && (forall k :: 0 <= k < |existing| ==> exists x :: x in r && x.liquidityToken == existing[k].liquidityToken)
            && AllFirst(existing, r)
  {
    var existing := CandidatePools(currencyA, currencyB, renv);
    assert AllCommonPairs(currencyA, currencyB, renv) == KeepFirst(existing, {});
    KeepFirstSound(existing, {});
    KeepFirstDistinct(existing, {});
    KeepFirstComplete(existing, {});
    KeepFirstKeepsFirst(existing, {});
  }

  /** Token pairs handed to `fetchPairs` as currencies. */
  function AsCurrencies(ps: seq<TokenPair>): (r: seq<(Option<Currency>, Option<Currency>)>)
    ensures |r| == |ps|
    ensures forall i :: 0 <= i < |ps| ==> r[i] == (Some(Erc20(ps[i].0)), Some(Erc20(ps[i].1)))
  {
    seq(|ps|, i requires 0 <= i < |ps| => (Some(Erc20(ps[i].0)), Some(Erc20(ps[i].1))))
  }

  /** A pool is only ever fetched for a candidate of two different addresses,
      so a returned pool never pairs a token with itself. */
  lemma CommonPairsAreProper(currencyA: Option<Currency>, currencyB: Option<Currency>, renv: RouteEnv)
    ensures forall x :: x in AllCommonPairs(currencyA, currencyB, renv) ==> !TokenEquals(x.token0, x.token1)
  {
    var combos := PairCombinations(currencyA, currencyB, renv);
    var results := FetchPairs(AsCurrencies(combos), renv.chainId, renv.sdk, renv.reserves);
    FetchPairsShape(AsCurrencies(combos), renv.chainId, renv.sdk, renv.reserves);
    KeepFirstSound(CandidatePools(currencyA, currencyB, renv), {});
  }

  // ---------------------------------------------------------------------------
  // Comparator

  /** 'Trades are not comparable'. */
  datatype TradeError = NotComparable

  /** `isTradeBetter(tradeA, tradeB, minimumDelta)` as written: Success(None)
      is `undefined`. The output-currency check compares tradeB's output with
      itself (src/Trades.ts:179) and so never fails. */
  function IsTradeBetter(a: Option<Trade>, b: Option<Trade>, minDelta: real, hundred: real): (r: Result<Option<bool>, TradeError>)
    ensures a.Some? && b.None? ==> r == Success(Some(false))
    ensures a.None? && b.Some? ==> r == Success(Some(true))
    ensures a.None? && b.None? ==> r == Success(None)
    ensures a.Some? && b.Some? ==>
              (r.Failure? <==> a.value.tradeType != b.value.tradeType
                               || !CurrencyEquals(a.value.inputAmount.currency, b.value.inputAmount.currency))
    ensures a.Some? && b.Some? && r.Success? && minDelta == 0.0 ==>
              r.value == Some(a.value.executionPrice < b.value.executionPrice)
    ensures a.Some? && b.Some? && r.Success? && minDelta != 0.0 ==>
              r.value == Some(a.value.executionPrice * (minDelta + hundred) < b.value.executionPrice)
  {
    if a.Some? && b.None? then Success(Some(false))
    else if b.Some? && a.None? then Success(Some(true))
    else if a.None? || b.None? then Success(None)
    else if || a.value.tradeType != b.value.tradeType
            || !CurrencyEquals(a.value.inputAmount.currency, b.value.inputAmount.currency)
            || !CurrencyEquals(b.value.outputAmount.currency, b.value.outputAmount.currency)
    then Failure(NotComparable)
    else if minDelta == 0.0 then Success(Some(a.value.executionPrice < b.value.executionPrice))
    else Success(Some(a.value.executionPrice * (minDelta + hundred) < b.value.executionPrice))
  }

  /** The comparator with the evidently intended output check, tradeA's output
      against tradeB's. */
  function IsTradeBetterIntended(a: Option<Trade>, b: Option<Trade>, minDelta: real, hundred: real): (r: Result<Option<bool>, TradeError>)
    ensures a.Some? && b.Some? ==>
              (r.Failure? <==> || a.value.tradeType != b.value.tradeType
                               || !CurrencyEquals(a.value.inputAmount.currency, b.value.inputAmount.currency)
                               || !CurrencyEquals(a.value.outputAmount.currency, b.value.outputAmount.currency))
    ensures a.None? || b.None? ==> r == IsTradeBetter(a, b, minDelta, hundred)
    ensures r.Success? ==> r == IsTradeBetter(a, b, minDelta, hundred)
  {
    if a.Some? && b.Some? && !CurrencyEquals(a.value.outputAmount.currency, b.value.outputAmount.currency)
    then Failure(NotComparable)
    else IsTradeBetter(a, b, minDelta, hundred)
  }

  /** Two trades that differ only in output currency are compared anyway. */
  lemma OutputMismatchAccepted()
    ensures var t := Token(Mainnet, "0x01", 18, "TKN");
            var a := Trade(ExactInput, CurrencyAmount(Ether, 1), CurrencyAmount(Ether, 5), 5.0);
            var b := Trade(ExactInput, CurrencyAmount(Ether, 1), CurrencyAmount(Erc20(t), 7), 7.0);
            && IsTradeBetter(Some(a), Some(b), 0.0, 1.0) == Success(Some(true))
            && IsTradeBetterIntended(Some(a), Some(b), 0.0, 1.0) == Failure(NotComparable)
  {
  }

  /** When the two trades end in the same currency, as every candidate of one
      search does, the as-written and the intended comparator agree. */
  lemma ComparatorsAgree(a: Option<Trade>, b: Option<Trade>, minDelta: real, hundred: real)
    requires a.Some? && b.Some? ==> CurrencyEquals(a.value.outputAmount.currency, b.value.outputAmount.currency)
    ensures IsTradeBetterIntended(a, b, minDelta, hundred) == IsTradeBetter(a, b, minDelta, hundred)
  {
  }

  /** Trades of one type and one input currency. */
  predicate SameKind(t: Trade, tt: TradeType, c: Currency) {
    t.tradeType == tt && t.inputAmount.currency == c
  }

  /** Trades of one type, one input currency and one output currency. */
  predicate SameRoute(t: Trade, tt: TradeType, c: Currency, out: Currency) {
    SameKind(t, tt, c) && t.outputAmount.currency == out
  }

  lemma CurrencyEqualsReflexive(c: Currency)
    ensures CurrencyEquals(c, c)
  {
  }

  /** With no threshold the comparator is a strict order on execution price:
      irreflexive, asymmetric and transitive. */
  lemma ZeroDeltaStrictOrder(a: Trade, b: Trade, c: Trade, tt: TradeType, cur: Currency, hundred: real)
    requires SameKind(a, tt, cur) && SameKind(b, tt, cur) && SameKind(c, tt, cur)
    ensures IsTradeBetter(Some(a), Some(a), 0.0, hundred) == Success(Some(false))
    ensures IsTradeBetter(Some(a), Some(b), 0.0, hundred) == Success(Some(true)) ==>
              IsTradeBetter(Some(b), Some(a), 0.0, hundred) == Success(Some(false))
    ensures IsTradeBetter(Some(a), Some(b), 0.0, hundred) == Success(Some(true))
            && IsTradeBetter(Some(b), Some(c), 0.0, hundred) == Success(Some(true)) ==>
              IsTradeBetter(Some(a), Some(c), 0.0, hundred) == Success(Some(true))
  {
    CurrencyEqualsReflexive(cur);
  }

  /** A trade that wins by a non-negative threshold also wins without one. */
  lemma ThresholdIsStricter(a: Trade, b: Trade, minDelta: real, hundred: real)
    requires minDelta > 0.0 && hundred >= 1.0 && a.executionPrice >= 0.0
    requires IsTradeBetter(Some(a), Some(b), minDelta, hundred) == Success(Some(true))
    ensures IsTradeBetter(Some(a), Some(b), 0.0, hundred) == Success(Some(true))
  {
    assert a.executionPrice * (minDelta + hundred) >= a.executionPrice * 1.0;
  }

  // ---------------------------------------------------------------------------
  // Search over hop counts

  const MAX_HOPS: nat := 3

  /** The loop of src/Trades.ts:97-106 from hop `hop` on, with the incumbent
      best trade; `candidate(h)` is the route search's best trade within h hops.
      It compares with `isTradeBetter` as written. */
  function HopSearch(candidate: nat -> Option<Trade>, hop: nat, incumbent: Option<Trade>, minDelta: real, hundred: real): (r: Result<Option<Trade>, TradeError>)
    requires 1 <= hop <= MAX_HOPS + 1
    decreases MAX_HOPS + 1 - hop
    ensures r.Success? && r.value.Some? ==>
              r.value == incumbent || exists h :: hop <= h <= MAX_HOPS && r.value == candidate(h)
    ensures r.Success? ==>
              (r.value.Some? <==> incumbent.Some? || exists h :: hop <= h <= MAX_HOPS && candidate(h).Some?)
  {
    if hop > MAX_HOPS then Success(incumbent)
    else
      var current := candidate(hop);
      match IsTradeBetter(incumbent, current, minDelta, hundred)
      case Failure(e) => Failure(e)
      case Success(better) =>
        HopSearch(candidate, hop + 1, if better == Some(true) then current else incumbent, minDelta, hundred)
  }

  /** `t` was adopted at step `k` of a search started at `hop`: `k == hop - 1`
      names the incumbent the search started with. */
  predicate AdoptedAt(candidate: nat -> Option<Trade>, hop: nat, incumbent: Option<Trade>, t: Trade, k: int) {
    && hop - 1 <= k <= MAX_HOPS
    && (if k < hop then incumbent == Some(t) else candidate(k) == Some(t))
  }

  /** Whatever the threshold, the trade the search returns was adopted at
      some hop, and no candidate of a later hop beat it: the comparator
      answered `false` for each of them. */
  lemma {:induction false} HopSearchUnbeaten(candidate: nat -> Option<Trade>, hop: nat, incumbent: Option<Trade>, minDelta: real, hundred: real)
    requires 1 <= hop <= MAX_HOPS + 1
    ensures var r := HopSearch(candidate, hop, incumbent, minDelta, hundred);
            r.Success? && r.value.Some? ==>
              exists k :: && AdoptedAt(candidate, hop, incumbent, r.value.value, k)
                          && forall h :: k < h <= MAX_HOPS ==>
                               IsTradeBetter(r.value, candidate(h), minDelta, hundred) == Success(Some(false))
    decreases MAX_HOPS + 1 - hop
  {
    var r := HopSearch(candidate, hop, incumbent, minDelta, hundred);
    if r.Success? && r.value.Some? {
      var t := r.value.value;
      if hop > MAX_HOPS {
        assert AdoptedAt(candidate, hop, incumbent, t, hop - 1);
      } else {
        var current := candidate(hop);
        var better := IsTradeBetter(incumbent, current, minDelta, hundred);
        var next := if better.value == Some(true) then current else incumbent;
        assert r == HopSearch(candidate, hop + 1, next, minDelta, hundred);
        HopSearchUnbeaten(candidate, hop + 1, next, minDelta, hundred);
        var k :| && AdoptedAt(candidate, hop + 1, next, t, k)
                 && forall h :: k < h <= MAX_HOPS ==> IsTradeBetter(r.value, candidate(h), minDelta, hundred) == Success(Some(false));
        UnbeatenStep(candidate, hop, incumbent, minDelta, hundred, t, k);
      }
    }
  }

  /** One step of `HopSearchUnbeaten`: a trade adopted after step `hop` and
      unbeaten since was adopted, and is unbeaten, counting from `hop` too. */
  lemma UnbeatenStep(candidate: nat -> Option<Trade>, hop: nat, incumbent: Option<Trade>, minDelta: real, hundred: real, t: Trade, k: int)
    requires 1 <= hop <= MAX_HOPS
    requires IsTradeBetter(incumbent, candidate(hop), minDelta, hundred).Success?
    requires var next := if IsTradeBetter(incumbent, candidate(hop), minDelta, hundred).value == Some(true) then candidate(hop) else incumbent;
             AdoptedAt(candidate, hop + 1, next, t, k)
    requires forall h :: k < h <= MAX_HOPS ==> IsTradeBetter(Some(t), candidate(h), minDelta, hundred) == Success(Some(false))
    ensures exists k' :: && AdoptedAt(candidate, hop, incumbent, t, k')
                         && forall h :: k' < h <= MAX_HOPS ==>
                              IsTradeBetter(Some(t), candidate(h), minDelta, hundred) == Success(Some(false))
  {
    var better := IsTradeBetter(incumbent, candidate(hop), minDelta, hundred);
    if k > hop {
      assert AdoptedAt(candidate, hop, incumbent, t, k);
    } else if better.value == Some(true) {
      assert AdoptedAt(candidate, hop, incumbent, t, hop);
    } else {
      assert incumbent == Some(t);
      assert AdoptedAt(candidate, hop, incumbent, t, hop - 1);
    }
  }

  /** The search completes when every candidate, and the incumbent, has one
      trade type and one input currency: the comparator cannot throw. */
  lemma {:induction false} HopSearchSucceeds(candidate: nat -> Option<Trade>, hop: nat, incumbent: Option<Trade>, minDelta: real, hundred: real, tt: TradeType, cur: Currency)
    requires 1 <= hop <= MAX_HOPS + 1
    requires forall h :: hop <= h <= MAX_HOPS && candidate(h).Some? ==> SameKind(candidate(h).value, tt, cur)
    requires incumbent.Some? ==> SameKind(incumbent.value, tt, cur)
    ensures HopSearch(candidate, hop, incumbent, minDelta, hundred).Success?
    decreases MAX_HOPS + 1 - hop
  {
    if hop <= MAX_HOPS {
      CurrencyEqualsReflexive(cur);
      var current := candidate(hop);
      var better := IsTradeBetter(incumbent, current, minDelta, hundred);
      assert better.Success?;
      var next := if better.value == Some(true) then current else incumbent;
      HopSearchSucceeds(candidate, hop + 1, next, minDelta, hundred, tt, cur);
    }
  }

  /** Without a threshold and with a candidate at every hop, the search ends
      on a trade whose price no candidate and not the incumbent exceeds. */
  lemma {:induction false} HopSearchMaximal(candidate: nat -> Option<Trade>, hop: nat, incumbent: Option<Trade>, hundred: real, tt: TradeType, cur: Currency, out: Currency)
    requires 1 <= hop <= MAX_HOPS + 1
    requires forall h :: hop <= h <= MAX_HOPS ==> candidate(h).Some? && SameRoute(candidate(h).value, tt, cur, out)
    requires incumbent.Some? ==> SameRoute(incumbent.value, tt, cur, out)
    requires hop <= MAX_HOPS || incumbent.Some?
    ensures var r := HopSearch(candidate, hop, incumbent, 0.0, hundred);
            && r.Success? && r.value.Some?
            && (forall h :: hop <= h <= MAX_HOPS ==> candidate(h).value.executionPrice <= r.value.value.executionPrice)
            && (incumbent.Some? ==> incumbent.value.executionPrice <= r.value.value.executionPrice)
    decreases MAX_HOPS + 1 - hop
  {
    if hop <= MAX_HOPS {
      var current := candidate(hop);
      CurrencyEqualsReflexive(cur);
      var better := IsTradeBetter(incumbent, current, 0.0, hundred);
      var next := if better.value == Some(true) then current else incumbent;
      HopSearchMaximal(candidate, hop + 1, next, hundred, tt, cur, out);
    }
  }

  /** The search as written adopts a later trade that ends in another
      currency: an ether-to-ether trade at one hop, beaten at two hops by an
      ether-to-token trade. The intended comparator would throw instead. */
  lemma SearchAdoptsOtherOutput()
    ensures var t := Token(Mainnet, "0x01", 18, "TKN");
            var a := Trade(ExactInput, CurrencyAmount(Ether, 1), CurrencyAmount(Ether, 5), 5.0);
            var b := Trade(ExactInput, CurrencyAmount(Ether, 1), CurrencyAmount(Erc20(t), 7), 7.0);
            var cand := (h: nat) => if h == 1 then Some(a) else if h == 2 then Some(b) else None;
            && HopSearch(cand, 1, None, 0.005, 1.0) == Success(Some(b))
            && IsTradeBetterIntended(Some(a), Some(b), 0.005, 1.0) == Failure(NotComparable)
  {
    var t := Token(Mainnet, "0x01", 18, "TKN");
    var a := Trade(ExactInput, CurrencyAmount(Ether, 1), CurrencyAmount(Ether, 5), 5.0);
    var b := Trade(ExactInput, CurrencyAmount(Ether, 1), CurrencyAmount(Erc20(t), 7), 7.0);
    var cand := (h: nat) => if h == 1 then Some(a) else if h == 2 then Some(b) else None;
    assert IsTradeBetter(None, Some(a), 0.005, 1.0) == Success(Some(true));
    assert IsTradeBetter(Some(a), Some(b), 0.005, 1.0) == Success(Some(true));
    assert IsTradeBetter(Some(b), None, 0.005, 1.0) == Success(Some(false));
    assert HopSearch(cand, 4, Some(b), 0.005, 1.0) == Success(Some(b));
    assert HopSearch(cand, 3, Some(b), 0.005, 1.0) == Success(Some(b));
    assert HopSearch(cand, 2, Some(a), 0.005, 1.0) == Success(Some(b));
  }

  /** The route search for an exact input amount (`Trade.bestTradeExactIn`). */
  type BestTradeExactIn = (seq<Pair>, CurrencyAmount, Currency, nat) -> Option<Trade>

  /** The route search for an exact output amount (`Trade.bestTradeExactOut`). */
  type BestTradeExactOut = (seq<Pair>, Currency, CurrencyAmount, nat) -> Option<Trade>

  function CurrencyOf(amount: Option<CurrencyAmount>): Option<Currency> {
    if amount.Some? then Some(amount.value.currency) else None
  }

  /** `useTradeExactIn(currencyAmountIn, currencyOut)`. */
  function UseTradeExactIn(amountIn: Option<CurrencyAmount>, currencyOut: Option<Currency>, renv: RouteEnv, best: BestTradeExactIn): (r: Result<Option<Trade>, TradeError>)
    ensures var pairs := AllCommonPairs(CurrencyOf(amountIn), currencyOut, renv);
            && (amountIn.None? || currencyOut.None? || |pairs| == 0 ==> r == Success(None))
            && (r.Success? && r.value.Some? ==>
                  exists h :: 1 <= h <= MAX_HOPS && r.value == best(pairs, amountIn.value, currencyOut.value, h))
            && (r.Success? ==>
                  (r.value.Some? <==> amountIn.Some? && currencyOut.Some? && |pairs| > 0
                                      && exists h :: 1 <= h <= MAX_HOPS && best(pairs, amountIn.value, currencyOut.value, h).Some?))
  {
    var pairs := AllCommonPairs(CurrencyOf(amountIn), currencyOut, renv);
    if amountIn.Some? && currencyOut.Some? && |pairs| > 0 then
      var candidate := (h: nat) => best(pairs, amountIn.value, currencyOut.value, h);
      assert forall h: nat :: candidate(h) == best(pairs, amountIn.value, currencyOut.value, h);
      HopSearch(candidate, 1, None, renv.tables.lessHopsThreshold, renv.tables.oneHundredPercent)
    else Success(None)
  }

  /** `useTradeExactOut(currencyIn, currencyAmountOut)`. */
  function UseTradeExactOut(currencyIn: Option<Currency>, amountOut: Option<CurrencyAmount>, renv: RouteEnv, best: BestTradeExactOut): (r: Result<Option<Trade>, TradeError>)
    ensures var pairs := AllCommonPairs(currencyIn, CurrencyOf(amountOut), renv);
            && (currencyIn.None? || amountOut.None? || |pairs| == 0 ==> r == Success(None))
            && (r.Success? && r.value.Some? ==>
                  exists h :: 1 <= h <= MAX_HOPS && r.value == best(pairs, currencyIn.value, amountOut.value, h))
            && (r.Success? ==>
                  (r.value.Some? <==> currencyIn.Some? && amountOut.Some? && |pairs| > 0
                                      && exists h :: 1 <= h <= MAX_HOPS && best(pairs, currencyIn.value, amountOut.value, h).Some?))
  {
    var pairs := AllCommonPairs(currencyIn, CurrencyOf(amountOut), renv);
    if currencyIn.Some? && amountOut.Some? && |pairs| > 0 then
      var candidate := (h: nat) => best(pairs, currencyIn.value, amountOut.value, h);
      assert forall h: nat :: candidate(h) == best(pairs, currencyIn.value, amountOut.value, h);
      HopSearch(candidate, 1, None, renv.tables.lessHopsThreshold, renv.tables.oneHundredPercent)
    else Success(None)
  }

  /** `useTradeExactIn` returns, without throwing, whenever the route search
      answers each hop bound with an exact-input trade from the given amount's
      currency. */
  lemma ExactInSucceeds(amountIn: CurrencyAmount, currencyOut: Currency, renv: RouteEnv, best: BestTradeExactIn)
    ensures var pairs := AllCommonPairs(Some(amountIn.currency), Some(currencyOut), renv);
            (forall h :: 1 <= h <= MAX_HOPS && best(pairs, amountIn, currencyOut, h).Some? ==>
               SameKind(best(pairs, amountIn, currencyOut, h).value, ExactInput, amountIn.currency))
            ==> UseTradeExactIn(Some(amountIn), Some(currencyOut), renv, best).Success?
  {
    var pairs := AllCommonPairs(Some(amountIn.currency), Some(currencyOut), renv);
    var candidate := (h: nat) => best(pairs, amountIn, currencyOut, h);
    if forall h :: 1 <= h <= MAX_HOPS && candidate(h).Some? ==> SameKind(candidate(h).value, ExactInput, amountIn.currency) {
      HopSearchSucceeds(candidate, 1, None, renv.tables.lessHopsThreshold, renv.tables.oneHundredPercent, ExactInput, amountIn.currency);
    }
  }

  /** `useTradeExactOut` returns, without throwing, whenever the route search
      answers each hop bound with an exact-output trade from the given input
      currency. */
  lemma ExactOutSucceeds(currencyIn: Currency, amountOut: CurrencyAmount, renv: RouteEnv, best: BestTradeExactOut)
    ensures var pairs := AllCommonPairs(Some(currencyIn), Some(amountOut.currency), renv);
            (forall h :: 1 <= h <= MAX_HOPS && best(pairs, currencyIn, amountOut, h).Some? ==>
               SameKind(best(pairs, currencyIn, amountOut, h).value, ExactOutput, currencyIn))
            ==> UseTradeExactOut(Some(currencyIn), Some(amountOut), renv, best).Success?
  {
    var pairs := AllCommonPairs(Some(currencyIn), Some(amountOut.currency), renv);
    var candidate := (h: nat) => best(pairs, currencyIn, amountOut, h);
    if forall h :: 1 <= h <= MAX_HOPS && candidate(h).Some? ==> SameKind(candidate(h).value, ExactOutput, currencyIn) {
      HopSearchSucceeds(candidate, 1, None, renv.tables.lessHopsThreshold, renv.tables.oneHundredPercent, ExactOutput, currencyIn);
    }
  }

  /** The trade `useTradeExactIn` returns is the route found at some hop bound, and
      `isTradeBetter`, at the configured threshold, prefers none of the routes
      found at a larger hop bound to it. */
  lemma ExactInUnbeaten(amountIn: CurrencyAmount, currencyOut: Currency, renv: RouteEnv, best: BestTradeExactIn)
    ensures var pairs := AllCommonPairs(Some(amountIn.currency), Some(currencyOut), renv);
            var r := UseTradeExactIn(Some(amountIn), Some(currencyOut), renv, best);
            r.Success? && r.value.Some? ==>
              exists k :: && 1 <= k <= MAX_HOPS && best(pairs, amountIn, currencyOut, k) == r.value
                          && forall h :: k < h <= MAX_HOPS ==>
                               IsTradeBetter(r.value, best(pairs, amountIn, currencyOut, h), renv.tables.lessHopsThreshold, renv.tables.oneHundredPercent)
                               == Success(Some(false))
  {
    var pairs := AllCommonPairs(Some(amountIn.currency), Some(currencyOut), renv);
    var r := UseTradeExactIn(Some(amountIn), Some(currencyOut), renv, best);
    if r.Success? && r.value.Some? {
      var candidate := (h: nat) => best(pairs, amountIn, currencyOut, h);
      assert |pairs| > 0;
      assert r == HopSearch(candidate, 1, None, renv.tables.lessHopsThreshold, renv.tables.oneHundredPercent);
      HopSearchUnbeaten(candidate, 1, None, renv.tables.lessHopsThreshold, renv.tables.oneHundredPercent);
      var k :| && AdoptedAt(candidate, 1, None, r.value.value, k)
               && forall h :: k < h <= MAX_HOPS ==>
                    IsTradeBetter(r.value, candidate(h), renv.tables.lessHopsThreshold, renv.tables.oneHundredPercent) == Success(Some(false));
      forall h | k < h <= MAX_HOPS
        ensures IsTradeBetter(r.value, best(pairs, amountIn, currencyOut, h), renv.tables.lessHopsThreshold, renv.tables.oneHundredPercent)
                == Success(Some(false))
      {
        assert candidate(h) == best(pairs, amountIn, currencyOut, h);
      }
      assert 1 <= k <= MAX_HOPS && best(pairs, amountIn, currencyOut, k) == r.value;
    }
  }

  /** The same for `useTradeExactOut`. */
  lemma ExactOutUnbeaten(currencyIn: Currency, amountOut: CurrencyAmount, renv: RouteEnv, best: BestTradeExactOut)
    ensures var pairs := AllCommonPairs(Some(currencyIn), Some(amountOut.currency), renv);
            var r := UseTradeExactOut(Some(currencyIn), Some(amountOut), renv, best);
            r.Success? && r.value.Some? ==>
              exists k :: && 1 <= k <= MAX_HOPS && best(pairs, currencyIn, amountOut, k) == r.value
                          && forall h :: k < h <= MAX_HOPS ==>
                               IsTradeBetter(r.value, best(pairs, currencyIn, amountOut, h), renv.tables.lessHopsThreshold, renv.tables.oneHundredPercent)
                               == Success(Some(false))
  {
    var pairs := AllCommonPairs(Some(currencyIn), Some(amountOut.currency), renv);
    var r := UseTradeExactOut(Some(currencyIn), Some(amountOut), renv, best);
    if r.Success? && r.value.Some? {
      var candidate := (h: nat) => best(pairs, currencyIn, amountOut, h);
      assert |pairs| > 0;
      assert r == HopSearch(candidate, 1, None, renv.tables.lessHopsThreshold, renv.tables.oneHundredPercent);
      HopSearchUnbeaten(candidate, 1, None, renv.tables.lessHopsThreshold, renv.tables.oneHundredPercent);
      var k :| && AdoptedAt(candidate, 1, None, r.value.value, k)
               && forall h :: k < h <= MAX_HOPS ==>
                    IsTradeBetter(r.value, candidate(h), renv.tables.lessHopsThreshold, renv.tables.oneHundredPercent) == Success(Some(false));
      forall h | k < h <= MAX_HOPS
        ensures IsTradeBetter(r.value, best(pairs, currencyIn, amountOut, h), renv.tables.lessHopsThreshold, renv.tables.oneHundredPercent)
                == Success(Some(false))
      {
        assert candidate(h) == best(pairs, currencyIn, amountOut, h);
      }
      assert 1 <= k <= MAX_HOPS && best(pairs, currencyIn, amountOut, k) == r.value;
    }
  }

  /** `isTransactionUnsupported(currencyIn, currencyOut)`: the chain's list of
      unsupported tokens, keyed by address, names the wrapped input or output. */
  function IsTransactionUnsupported(currencyIn: Option<Currency>, currencyOut: Option<Currency>, chainId: Option<ChainId>, env: SdkEnv, unsupported: map<ChainId, JsObject.Obj<Token>>): (r: bool)
    ensures var tin := WrappedCurrency(currencyIn, chainId, env);
            var tout := WrappedCurrency(currencyOut, chainId, env);
            r <==> chainId.Some? && chainId.value in unsupported
                   && ((tin.Some? && tin.value.address in unsupported[chainId.value].keys)
                       || (tout.Some? && tout.value.address in unsupported[chainId.value].keys))
  {
    var tin := WrappedCurrency(currencyIn, chainId, env);
    var tout := WrappedCurrency(currencyOut, chainId, env);
    if chainId.Some? && chainId.value in unsupported then
      var listed := unsupported[chainId.value].keys;
      if tin.Some? && tin.value.address in listed then true
      else if tout.Some? && tout.value.address in listed then true
      else false
    else false
  }
}

=== FILE: utils.dfy ===
/** Currency wrapping (src/uniswap-v2/Utils.ts): ether becomes the chain's WETH
    token, a token stays itself. The same rule serves src/Pairs.ts and
    src/Trades.ts. */
module Utils {
  import opened Wrappers
  import opened Sdk

  /** `wrappedCurrency(currency, chainId)`. */
  function WrappedCurrency(currency: Option<Currency>, chainId: Option<ChainId>, env: SdkEnv): (r: Option<Token>)
    ensures currency == Some(Ether) && chainId.Some? ==> r == Some(env.weth(chainId.value))
    ensures currency.Some? && currency.value.Erc20? ==> r == Some(currency.value.token)
    ensures r.None? <==> currency.None? || (currency == Some(Ether) && chainId.None?)
  {
    if chainId.Some? && currency == Some(Ether) then Some(env.weth(chainId.value))
    else match currency
      case Some(Erc20(t)) => Some(t)
      case _ => None
  }

  /** Wrapping a wrapped currency changes nothing. */
  lemma WrapIdempotent(currency: Option<Currency>, chainId: Option<ChainId>, env: SdkEnv)
    requires WrappedCurrency(currency, chainId, env).Some?
    ensures var t := WrappedCurrency(currency, chainId, env).value;
            WrappedCurrency(Some(Erc20(t)), chainId, env) == Some(t)
  {
  }

  /** `wrappedCurrencyAmount(amount, chainId)`: the same raw amount in the
      wrapped token. */
  function WrappedCurrencyAmount(amount: Option<CurrencyAmount>, chainId: Option<ChainId>, env: SdkEnv): (r: Option<CurrencyAmount>)
    ensures r.None? <==> amount.None? || chainId.None? || WrappedCurrency(Some(amount.value.currency), chainId, env).None?
    ensures r.Some? ==> r.value.raw == amount.value.raw
    ensures r.Some? ==> r.value.currency == Erc20(WrappedCurrency(Some(amount.value.currency), chainId, env).value)
  {
    var token := if amount.Some? && chainId.Some? then WrappedCurrency(Some(amount.value.currency), chainId, env) else None;
    if token.Some? && amount.Some? then Some(CurrencyAmount(Erc20(token.value), amount.value.raw)) else None
  }

  /** The decimal text of an optional amount argument; a missing amount is 1. */
  function AmountText(amount: Option<string>): string {
    amount.GetOr("1")
  }

  /** `getTokenAmount(currency, amount)`: the amount, default 1, scaled by the
      currency's decimals with ethers' `parseUnits` (given here). */
  function GetTokenAmount(currency: Currency, amount: Option<string>, parseUnits: (string, nat) -> nat): (r: CurrencyAmount)
    ensures r.currency == currency
    ensures amount.None? ==> r.raw == parseUnits("1", Decimals(currency))
    ensures amount.Some? ==> r.raw == parseUnits(amount.value, Decimals(currency))
  {
    match currency
    case Erc20(t) => CurrencyAmount(Erc20(t), parseUnits(AmountText(amount), t.decimals))
    case Ether => CurrencyAmount(Ether, parseUnits(AmountText(amount), ETHER_DECIMALS))
  }
}

=== FILE: wrappers.dfy ===
/** Optional values and error-carrying results, used wherever the modelled
    code returns `undefined`/`null` or throws. */
module Wrappers {

  datatype Option<+T> = None | Some(value: T) {
    /** The value, or `default` when there is none (JavaScript's `??`). */
    function GetOr(default: T): T {
      match this
      case Some(v) => v
      case None => default
    }
  }

  /** `Failure` stands for an exception thrown by the modelled code. */
  datatype Result<+T, +E> = Success(value: T) | Failure(error: E)
}
